=== FILE: README.md ===
# autoPyTorch ensemble building, backbone choice and configuration values — a Dafny model

This project models three parts of autoPyTorch and proves properties of the model.

- **The ensemble builder** (`autoPyTorch/ensemble/ensemble_builder.py`) is covered by seven modules:
  - **Records** holds `read_losses`, an insertion-ordered table from prediction path to loss record. It also defines the ranking `_get_list_of_sorted_preds`: a stable sort on `(ens_loss, num_run)`.
  - **Reading** models `compute_loss_per_model`, which parses and orders the globbed prediction files, scores them up to `read_at_most`, and keeps the prediction cache in step with the table.
  - **Selection** models `get_n_best_preds` in its steps:
    1. the dummy filter and its fallback;
    2. `ensemble_nbest` as a count or a fraction;
    3. the model cap from `max_models_on_disc`, counted in models or in MB;
    4. the cap applied to the kept count;
    5. the performance-range pruning;
    6. the drop and load loops over the prediction cache.
  - **Deletion** models `_delete_excess_models`.
  - **Driver** models the constructor's checks, the retry loop of `run` with its memory-degradation policy, and the fingerprint check of `fit_ensemble`.
  - **Coordinator** models the manager's `build_ensemble`, which keeps at most one job outstanding.
  - **Losses** and **Sorting** are shared by the modules above: extended-real losses and Python's stable `sorted`.
- **The backbone choice** (`autoPyTorch/pipeline/components/setup/network_backbone/__init__.py`) is the **Backbone** module. It covers:
  - the component registry, with add-ons overriding built-ins;
  - the include/exclude/task-type filter;
  - the default and `__choice__` selection.
- **JSON-friendly configuration values** (`autoPyTorch/utils/config_space.py`) are the **ConfigSpace** module. It covers `convert_np_types`, the missing-key lookup and the list-or-single shape of `sample_configuration`.

Python dictionaries whose order matters are modelled as sequences of `(key, value)` pairs with distinct keys (`Common`). The prediction cache, whose order does not matter, is a Dafny `map`. Everything the builder obtains from outside is a parameter:

- the file listing and modification times;
- the outcome of reading and scoring a file;
- disk costs;
- whether a directory removal succeeds;
- the clock;
- the outcome of the sandboxed `main`;
- the greedy fit;
- the checksum.

Some behaviour of the code is easy to misread; in each case the model follows the code:

- A fractional `ensemble_nbest` keeps `int(n * f)` candidates, at least one. This is truncation, not rounding (`Selection.KeepCountTruncates`).
- A kept model does not always end with `loaded == 1`. A model whose ensemble array is already cached keeps its `loaded` value (`Selection.CachedWinnerKeepsState`).
- After a memory error, a fractional `ensemble_nbest` becomes `int(f / 2)`, which is the integer 0. From then on the builder is in integer mode (`Driver.Degrade`).
- The task-type test is an `elif` chain in which every branch only decides whether to skip. A task type that names two kinds of data therefore needs both `handles_*` flags. For task types that name one kind, this is the same as "the flag for that kind" (`Backbone.AvailableIsSubRegistry`).
- The manager submits a new job as soon as no job is outstanding. A finished job is popped in the same call, and a submission then follows.

## Model

| member | source | states |
|---|---|---|
| Common.Filter | autoPyTorch/ensemble/ensemble_builder.py:1048 | `filter(...)`: an element is in the result iff it is in the input and satisfies the predicate; the result is a sub-multiset of the input |
| Common.FilterCounts | autoPyTorch/ensemble/ensemble_builder.py:1048 | every satisfying element keeps its multiplicity, every other one has none |
| Common.FilterAppend | autoPyTorch/ensemble/ensemble_builder.py:1048 | filtering distributes over concatenation, so kept elements stay in input order; with `FilterSingleton` this determines the result |
| Common.Put | autoPyTorch/pipeline/components/setup/network_backbone/__init__.py:112 | `d[k] = v`: the key holds `v`, other keys keep their values, an existing key keeps its position and a new key goes last |
| Common.GetUpdate | autoPyTorch/pipeline/components/setup/network_backbone/__init__.py:43-44 | after `d.update(other)` a key of `other` holds `other`'s value; every other key keeps its value |
| Common.Trunc | autoPyTorch/ensemble/ensemble_builder.py:1077 | `int(x)` truncates toward zero |
| Losses.MinLoss | autoPyTorch/ensemble/ensemble_builder.py:1318-1321 | `min` is below both arguments and is one of them |
| Losses.LessIsStrictOrder | autoPyTorch/ensemble/ensemble_builder.py:1142 | loss comparison (with infinity) is a strict total order |
| Sorting.Sort | autoPyTorch/ensemble/ensemble_builder.py:1453-1461 | `sorted` returns a permutation in ascending key order |
| Sorting.SortIsStable | autoPyTorch/ensemble/ensemble_builder.py:1453-1461 | elements whose keys tie keep their input order |
| Sorting.SortKeepsSum | autoPyTorch/ensemble/ensemble_builder.py:1104-1110 | sorting does not change a sum over the elements |
| Sorting.FilterKeepsSorted | autoPyTorch/ensemble/ensemble_builder.py:1055-1058 | filtering a sorted list leaves it sorted |
| Records.RankLeIsTotalPreorder | autoPyTorch/ensemble/ensemble_builder.py:1460 | the key `(ens_loss, num_run)` orders totally |
| Records.SortedPreds | autoPyTorch/ensemble/ensemble_builder.py:1435-1462 | the ranking lists every record once, by loss, and by run number among equal losses |
| Records.RankingIsStable | autoPyTorch/ensemble/ensemble_builder.py:1453-1461 | records equal in `(loss, num_run)` keep their dictionary order |
| Records.RankingPaths | autoPyTorch/ensemble/ensemble_builder.py:1453-1457 | the ranking names every path of the table exactly once |
| Selection.BetterMembers | autoPyTorch/ensemble/ensemble_builder.py:1055-1058 | the candidates are exactly the non-dummy records strictly better than the dummy, still ranked |
| Selection.FirstDummyIsBest | autoPyTorch/ensemble/ensemble_builder.py:1048-1053 | the first dummy in the ranking has the smallest dummy loss |
| Selection.DummyFilter | autoPyTorch/ensemble/ensemble_builder.py:1048-1071 | no dummy leaves the ranking unchanged; otherwise the candidates beat the best dummy; if none does, this seed's dummies are the fallback |
| Selection.DummyFilterCases | autoPyTorch/ensemble/ensemble_builder.py:1048-1071 | the candidate list is one of the three lists the step can return |
| Selection.KeepCount | autoPyTorch/ensemble/ensemble_builder.py:1074-1087 | a count keeps `min(n, count)`; a fraction keeps at least one, at most all, and the largest number not above `n * f` |
| Selection.KeepCountTruncates | autoPyTorch/ensemble/ensemble_builder.py:1076-1077 | three candidates at 0.5 keep one |
| Selection.CostLeIsTotalPreorder | autoPyTorch/ensemble/ensemble_builder.py:1109 | Python's ordering of `[loss, cost]` lists is a total preorder |
| Selection.Consumption | autoPyTorch/ensemble/ensemble_builder.py:1093-1098 | the list holds exactly the `[loss, cost]` pairs of the records that have a disk cost |
| Selection.MaxCost | autoPyTorch/ensemble/ensemble_builder.py:1099 | the maximum bounds every cost and is attained |
| Selection.CumFrom | autoPyTorch/ensemble/ensemble_builder.py:1108-1110 | `cumsum + offset`: each element adds one cost to the previous one; the last is the offset plus the total |
| Selection.FirstOver | autoPyTorch/ensemble/ensemble_builder.py:1111 | `argmax(xs > bound)` is the first position above the bound, or 0 when there is none |
| Selection.MaxResident | autoPyTorch/ensemble/ensemble_builder.py:1091-1127 | an integer limit is the cap; an MB limit gives no cap iff everything plus the largest model fits, else `max(1, first overflowing position)`; no costs at all is an error |
| Selection.ScanCut | autoPyTorch/ensemble/ensemble_builder.py:1145-1154 | the scan stops at the first kept model at or above the cut-off and keeps `max(1, i)` |
| Selection.PruneByRange | autoPyTorch/ensemble/ensemble_builder.py:1138-1154 | a zero threshold keeps the count; an empty ranking or a missing dummy raises; otherwise the count is cut to `max(1, first model at or above the cut-off)` exactly when the last kept model is worse than the cut-off |
| Selection.PlanSelection | autoPyTorch/ensemble/ensemble_builder.py:1042-1155 | the kept count never exceeds the candidates, the `nbest` count or the model cap |
| Selection.PlanSelectionSucceeds | autoPyTorch/ensemble/ensemble_builder.py:1042-1155 | the step succeeds iff the model cap can be computed and, with a positive threshold, there are candidates and a dummy; a failure is never a load error |
| Selection.PlanSelectionKeep | autoPyTorch/ensemble/ensemble_builder.py:1072-1153 | the kept count is `min(count from nbest, cap)`, cut to `max(1, first model at or above the cut-off)` exactly when the range pruning triggers; it is at least 1 when there are candidates, `nbest` is a fraction or at least 1, and the cap is unset or at least 1 |
| Selection.CandidatesFromTable | autoPyTorch/ensemble/ensemble_builder.py:1042-1071 | every candidate names a record of the table, and no path appears twice |
| Selection.PlanFromTable | autoPyTorch/ensemble/ensemble_builder.py:1042-1155 | the same holds for the ranking a successful plan keeps |
| Selection.Take | autoPyTorch/ensemble/ensemble_builder.py:1176 | `s[:k]` is the first `min(k, len)` elements |
| Selection.DropFirst | autoPyTorch/ensemble/ensemble_builder.py:1161 | `s[:k] + s[k:] == s` |
| Selection.SplitFromTable | autoPyTorch/ensemble/ensemble_builder.py:1158-1176 | kept and dropped paths are disjoint records of the table |
| Selection.Residency | autoPyTorch/ensemble/ensemble_builder.py:1161-1186 | the two loops succeed iff every winner that needs loading has a cache entry and a readable file; otherwise they raise for the first such winner in ranking order, with the read error taking precedence over the missing entry; every key is kept |
| Selection.ResidencyNeverMissing | autoPyTorch/ensemble/ensemble_builder.py:1179-1183 | when every record has a cache entry, the load loop never meets a missing entry: it fails exactly when a file it must read cannot be read |
| Selection.ResidencyEffects | autoPyTorch/ensemble/ensemble_builder.py:1161-1186 | a kept model that is not deleted has its ensemble array; a kept model that needed loading gets the array read for it and `loaded` 1, and any other kept model keeps its record and cache entry; a dropped one has its arrays cleared, its `loaded` 1 becomes 2 and any other state stays; only `loaded` changes in the table |
| Selection.ResidencyWinners | autoPyTorch/ensemble/ensemble_builder.py:1179-1185 | each kept model that needed loading gets the array read for it and `loaded` 1; every other kept model keeps its record and cache entry |
| Selection.CachedWinnerKeepsState | autoPyTorch/ensemble/ensemble_builder.py:1179-1185 | a kept model whose ensemble array is already cached keeps its `loaded` value, so a kept model with `loaded` 2 stays at 2 |
| Selection.GetNBestPreds | autoPyTorch/ensemble/ensemble_builder.py:1029-1189 | the returned keys are the first `keep` ranked paths; it fails with the plan's error, or, after a successful plan, exactly when the load loop fails and with its error; the keys of the table and cache are kept |
| Selection.NoMissingEntryWhenCovered | autoPyTorch/ensemble/ensemble_builder.py:1029-1189 | with a covering cache, the selection fails exactly when the plan fails or a kept model's file cannot be read, and never on a missing cache entry |
| Selection.SelectionResidency | autoPyTorch/ensemble/ensemble_builder.py:1158-1189 | the residency effects hold for the returned keys: kept models are cached; those that needed loading get the read array and `loaded` 1, the others keep their record and cache entry; dropped ones have `loaded` 1 turned into 2 and their arrays cleared; only `loaded` changes |
| Reading.ParseAll | autoPyTorch/ensemble/ensemble_builder.py:926-938 | it succeeds iff all names parse, and then keeps their order; otherwise the error names the first name that does not parse |
| Reading.NumRunLeIsTotalPreorder | autoPyTorch/ensemble/ensemble_builder.py:943 | ordering by `num_run` is a total preorder |
| Reading.Visit | autoPyTorch/ensemble/ensemble_builder.py:949-1019 | a non-`.npy` file is skipped; a new file gets a record and a cache entry; an unchanged mtime means no re-score; otherwise the outcome is recorded, and the file counts iff it was read and costed |
| Reading.ReadLoop | autoPyTorch/ensemble/ensemble_builder.py:939-1020 | at most `read_at_most` files are scored (0 means no limit), and the loop stops early only at that limit; what it does to each reached file is `Reading.ReadLoopVisits` |
| Reading.ReadLoopVisits | autoPyTorch/ensemble/ensemble_builder.py:943-1019 | for paths without repeats, each file the loop reaches ends with the record one visit against the initial table gives it, and `n_read_files` grows by exactly the reached files that count |
| Reading.ReadLoopRecords | autoPyTorch/ensemble/ensemble_builder.py:949-1019 | each reached file ends with its record after one visit: new record if absent, unchanged on an equal `mtime_ens`, rescored otherwise |
| Reading.ReadLoopCounts | autoPyTorch/ensemble/ensemble_builder.py:975-1011 | `n_read_files` counts exactly the reached `.npy` files whose modification time changed and whose read and loss succeeded |
| Reading.ReadLoopFrame | autoPyTorch/ensemble/ensemble_builder.py:943-1020 | records of files the loop did not reach are unchanged |
| Reading.ReadLoopKeys | autoPyTorch/ensemble/ensemble_builder.py:953-968 | no record is lost, and keys stay distinct |
| Reading.ReadLoopCovers | autoPyTorch/ensemble/ensemble_builder.py:953-973 | every record created gets a cache entry |
| Reading.ParsedNpyFiles | autoPyTorch/ensemble/ensemble_builder.py:916-938 | the parsed files are exactly the parsed `.npy` / `.npy.gz` names of the listing |
| Reading.NamesParseGivesOk | autoPyTorch/ensemble/ensemble_builder.py:926-938 | if every such name parses, the parse succeeds |
| Reading.ComputeLossPerModel | autoPyTorch/ensemble/ensemble_builder.py:893-1027 | no targets or no files returns early; it succeeds iff every name parses; reading is ordered by run number and limited by `read_at_most`; untouched records, keys and cache coverage are preserved |
| Reading.ComputeLossPerModelVisits | autoPyTorch/ensemble/ensemble_builder.py:916-1019 | for a glob listing without repeated paths, every file reached in run order ends with the record one visit gives it, and the count of files read is the number of reached files that count |
| Deletion.DeleteExcessAsWritten | autoPyTorch/ensemble/ensemble_builder.py:1464-1523 | nothing happens unless the cap is set and exceeded; the table keeps its keys; top-ranked models, former candidates and dummies are never removed, and every removal succeeded, but a removed path need not have a record |
| Deletion.DeleteExcessAsWrittenRemoves | autoPyTorch/ensemble/ensemble_builder.py:1473-1512 | as written, a listed file is removed iff the cap is exceeded, it is not protected and its removal succeeds, with or without a record |
| Deletion.DeleteExcessAsWrittenRecords | autoPyTorch/ensemble/ensemble_builder.py:1512-1519 | as written, a removed model with a record gets no disk cost, `loaded` 3 and an infinite loss; every other record is unchanged |
| Deletion.AsWrittenRemovesUnscored | autoPyTorch/ensemble/ensemble_builder.py:1490-1519 | as written, the directory of a listed file without a loss record is removed |
| Deletion.AsWrittenExample | autoPyTorch/ensemble/ensemble_builder.py:1490-1519 | a concrete table, listing and cap where this happens |
| Deletion.DeleteExcess | autoPyTorch/ensemble/ensemble_builder.py:1464-1523 | only records are removed; top-ranked models, former candidates and dummies never are; every removal succeeded |
| Deletion.DeleteExcessRemoves | autoPyTorch/ensemble/ensemble_builder.py:1473-1514 | a listed file is removed iff the cap is exceeded, it is not protected, its removal succeeds and it has a record |
| Deletion.DeleteExcessRecords | autoPyTorch/ensemble/ensemble_builder.py:1512-1519 | a removed model gets no disk cost, `loaded` 3 and an infinite loss; every other record is unchanged |
| Driver.ValidateArgs | autoPyTorch/ensemble/ensemble_builder.py:478-497 | the arguments are accepted iff an integer `nbest` is at least 1, a fractional one lies in [0, 1], and the disk limit is not negative |
| Driver.Degrade | autoPyTorch/ensemble/ensemble_builder.py:694-719 | the memory-error policy: halve (at least 1) and return; at the floor, read one file per call; then no models; a fraction drops to the integer 0 |
| Driver.DegradedNBestRejected | autoPyTorch/ensemble/ensemble_builder.py:478-480 | as written, the integer 0 that degradation sets from a fraction (716) or from 1 with `read_at_most` 1 (704) is rejected by the constructor, and keeps no candidates (1085) |
| Driver.ValidateArgsAdmittingDegraded | autoPyTorch/ensemble/ensemble_builder.py:478-497 | the constructor check admitting the integer 0: it accepts exactly the valid arguments and otherwise raises what the original check raises |
| Driver.DegradedNBestAdmitted | autoPyTorch/ensemble/ensemble_builder.py:694-719 | every configuration degradation produces passes the corrected check, as does every argument the original check accepts |
| Driver.DegradeLowersPressure | autoPyTorch/ensemble/ensemble_builder.py:694-719 | every memory error strictly lowers `2 * nbest + (read_at_most != 1)` until the floor |
| Driver.RunLoop | autoPyTorch/ensemble/ensemble_builder.py:656-723 | every wall-time limit used is at least 1 s, `nbest` never grows, and a non-empty history comes from a returned run; measured from the original budget, each limit is the time really left minus the buffer, truncated |
| Driver.RunAsWritten | autoPyTorch/ensemble/ensemble_builder.py:646-723 | neither or both time limits raise; otherwise the loop runs, keeping the local `time_left` across passes in both modes |
| Driver.Run | autoPyTorch/ensemble/ensemble_builder.py:646-723 | with `time_left` measured from the start, each wall-time limit is within the time really left minus the buffer |
| Driver.RunAsWrittenOverSubtracts | autoPyTorch/ensemble/ensemble_builder.py:659-673 | a concrete `time_left` run where the source gives up with 30 s left, and the corrected loop does not |
| Driver.RunAsWrittenOverSubtractsEndAt | autoPyTorch/ensemble/ensemble_builder.py:659-673 | the same concrete run in `end_at` mode: after the first pass sets `time_left`, the source no longer consults `end_at` and gives up with 30 s left; the corrected loop does not |
| Driver.Fingerprint | autoPyTorch/ensemble/ensemble_builder.py:1277-1280 | one checksum per training array, in order |
| Driver.TrainingArrays | autoPyTorch/ensemble/ensemble_builder.py:1267 | the cached ensemble arrays of the selected keys, in order |
| Driver.FitEnsemble | autoPyTorch/ensemble/ensemble_builder.py:1249-1333 | unit-test mode raises; a missing array raises; otherwise an unchanged fingerprint returns at once with nothing changed, and a new one raises iff no optimisation metric matches, else succeeds with a performance iff the fit produced one; the fingerprint is stored before the fit; a fit lowers the performance to the minimum |
| Driver.FitEnsembleSkipsRepeat | autoPyTorch/ensemble/ensemble_builder.py:1277-1289 | a second call on the same data returns nothing and changes nothing |
| Coordinator.BuildEnsemble | autoPyTorch/ensemble/ensemble_builder.py:169-268 | spent budgets change nothing; a running job is left alone; a raised job propagates; at most one job; the iteration grows iff a job is submitted; a finished job's result sets `ensemble_nbest` to the job's value and extends the history by the job's, and without such a result both stay as they were |
| Coordinator.TraceInvariant | autoPyTorch/ensemble/ensemble_builder.py:184-263 | over any run of calls: at most one job, iteration within `max_iterations`, iteration never decreases |
| Coordinator.DegradedNBestCrashesManager | autoPyTorch/ensemble/ensemble_builder.py:198-263 | as written, a job returning `ensemble_nbest` 0 makes the manager submit the next job with 0, whose constructor rejects it, so the next call that finds the job done raises |
| Coordinator.DegradedNBestKeepsManager | autoPyTorch/ensemble/ensemble_builder.py:198-263 | with the corrected constructor check the same calls do not raise |
| Coordinator.IterationCountsSubmissions | autoPyTorch/ensemble/ensemble_builder.py:213-263 | the iteration counter equals the number of successful submissions |
| Backbone.GetComponents | autoPyTorch/pipeline/components/setup/network_backbone/__init__.py:32-45 | the registry holds built-ins first, in their order, then new add-ons, with distinct names |
| Backbone.GetComponentsLookup | autoPyTorch/pipeline/components/setup/network_backbone/__init__.py:42-45 | an add-on replaces a built-in of the same name; other names keep their component |
| Backbone.FilterComponents | autoPyTorch/pipeline/components/setup/network_backbone/__init__.py:84-114 | the loop equals an order-preserving filter, or raises `KeyError` iff an entry reaches the task-type lookup without a task type |
| Backbone.FirstUnknown | autoPyTorch/pipeline/components/setup/network_backbone/__init__.py:78-82 | the first included name that is not registered, if any |
| Backbone.GetAvailable | autoPyTorch/pipeline/components/setup/network_backbone/__init__.py:47-114 | it succeeds iff include and exclude are not both given, every included name is registered, and no entry reaches the task-type lookup without a task type; include with exclude raises; an unregistered include raises; a successful result is the filtered registry |
| Backbone.AvailableIsSubRegistry | autoPyTorch/pipeline/components/setup/network_backbone/__init__.py:84-112 | an entry is available iff it is registered, included (or not excluded), not a choice, and handles every kind of data its task type names |
| Backbone.FilterKeepsDistinctKeys | autoPyTorch/pipeline/components/setup/network_backbone/__init__.py:84-112 | the available map keeps distinct names |
| Backbone.PickDefault | autoPyTorch/pipeline/components/setup/network_backbone/__init__.py:149-156 | the first preferred name that is available, else the first available name |
| Backbone.SearchSpaceChoice | autoPyTorch/pipeline/components/setup/network_backbone/__init__.py:136-173 | it succeeds iff backbones are available and any `__choice__` range lies within them; nothing available raises; a range outside the available names raises; every choice is available; without an explicit default or update, the default is a choice |
| Backbone.DefaultIsPreferred | autoPyTorch/pipeline/components/setup/network_backbone/__init__.py:149-156 | the default is ShapedMLPBackbone, else MLPBackbone, else ConvNetImageBackbone, else the first available backbone |
| ConfigSpace.Item | autoPyTorch/utils/config_space.py:47-48 | `tolist()` of an array is a list of the same length |
| ConfigSpace.Convert | autoPyTorch/utils/config_space.py:8-62 | integers become `int`, floats become `float` (except long double), complex becomes `{"real", "imag"}`, `str_`/`bool_`/`void` become `str`/`bool`/`None`, lists and dicts are converted elementwise with the same length and keys, and anything else is unchanged |
| ConfigSpace.ConvertFixesReady | autoPyTorch/utils/config_space.py:8-62 | the conversion leaves a value unchanged iff nothing in it is left to convert |
| ConfigSpace.ConvertMakesReady | autoPyTorch/utils/config_space.py:8-62 | one pass leaves nothing to convert, except for complex scalars and object arrays |
| ConfigSpace.ConvertIdempotent | autoPyTorch/utils/config_space.py:8-62 | so the conversion is idempotent on such values |
| ConfigSpace.ComplexNotIdempotent | autoPyTorch/utils/config_space.py:41-42 | it is not idempotent on a complex scalar, whose parts stay NumPy floats |
| ConfigSpace.GetItem | autoPyTorch/utils/config_space.py:88-94 | a missing key gives `None`; a present value comes back through `convert_np_types`, so a convertible value comes back ready and a ready one unchanged |
| ConfigSpace.SampleConfiguration | autoPyTorch/utils/config_space.py:123-134 | a list stays a list of the same length and a single configuration stays single; every configuration is cast and keeps its values |
| ConfigSpace.GetDefaultConfiguration | autoPyTorch/utils/config_space.py:136-139 | the default configuration is cast and keeps its values |

## Left out

- File system, serialisation and processes are inputs or left out. These include glob, `getmtime`, `np.load`, pickling, `os.rename`/`shutil.rmtree`, the pynisher sandbox, dask futures and the multiprocessing context.
- Metric computation, the greedy `EnsembleSelection.fit`, `predict`, `get_test_preds`, `_add_ensemble_trajectory` and the way `main` composes the steps are left out. They are numeric or external.
- `fit_and_return_ensemble` is not modelled: it only constructs a builder and calls `run`.
- Reading.ComputeLossPerModelVisits: the per-file records and the count are stated for a glob listing without repeated paths, which one `glob.glob` of one pattern returns (line 916); `FoundFile` sequences with repeats are not covered by this lemma.
- `include_num_runs` in `fit_ensemble` is not modelled: the model takes the greedy fit as an input.
- Driver.Fingerprint: the adler32 digest is an abstract checksum per array. The string concatenation of the digests, and the collisions it allows, are not modelled.
- The file-name pattern `MODEL_FN_RE` is an input: each listed file comes with its parse or with none.
- Losses are exact reals or infinity; NaN losses are not modelled except as the NaN cut-off `inf - inf`.
- `get_disk_consumption`'s directory listing and its rounding to 0.01 MB are not modelled; the cost is an input.
- Driver.RunLoop: an attempt list that runs out is read as the deadline having passed. Only the attempts given are modelled.
- Deletion.DeleteExcess takes files already parsed. The `ValueError` on an unparsable name at line 1500 is therefore left out: `compute_loss_per_model` rejects such names first.
- The ConfigSpace library is not modelled. This covers building the categorical hyperparameter, checking an explicit default against the choices, the components' own search spaces and `add_configuration_space`.
- `find_components` plugin discovery is not modelled.
- The SMAC neighbourhood patch is not modelled.
- `get_properties()` lacking a `handles_*` key is not modelled; a component carries its three flags.
- Backbone.SearchSpaceChoice: an explicit `default`, or the default of a `__choice__` update, is not checked against the choices. The `CategoricalHyperparameter` constructor would raise `ValueError` for one outside them (lines 165-173), and the model returns Ok.
- ConfigSpace.Convert does not model the float rounding of `float(np.float32(x))`; numbers are exact. Dict keys are strings.
- ConfigSpace.Item does not model `np.void.item()`: its result (bytes or a tuple) is an opaque Python object.
- ConfigSpace.Item: `NpArray` stands for a numeric array of dimension at least 1. A 0-d array, whose `tolist()` is a scalar, and an object-dtype array, whose `tolist()` leaves its elements (NumPy scalars, nested arrays) as they are, are not represented.

## Findings

| source | as written | input that shows it | evidently intended | confidence | as-written member | corrected member |
|---|---|---|---|---|---|---|
| autoPyTorch/ensemble/ensemble_builder.py:1490-1519 | the deletion loop walks every listed prediction file and removes its run directory before it looks the path up in `read_losses`; for a file not scored yet (reading stopped at `read_at_most`) the lookup raises `KeyError`, which is caught and logged, after the directory is gone | records `a`, `b`; listed files `a`, `b`, `c`; cap 1; `c` not yet read: the run directory of `c` is removed although it was never ranked | remove only models that have a loss record and rank below the cap | medium, not executed | Deletion.DeleteExcessAsWritten (Deletion.DeleteExcessAsWrittenRemoves, Deletion.AsWrittenRemovesUnscored, Deletion.AsWrittenExample) | Deletion.DeleteExcess |
| autoPyTorch/ensemble/ensemble_builder.py:659-667 | each pass after a `time_left` is known subtracts the total time elapsed since the loop started from the running `time_left`, so earlier passes are subtracted again; in `end_at` mode, the one the manager uses (243), the first pass sets `time_left` (667), so from the second pass on `end_at` is no longer consulted and the same subtraction applies | `time_left` 100 s (or `end_at` 100 s after the start), buffer 5 s, `ensemble_nbest` 1 with `read_at_most` 2, memory errors at 0 s and 40 s, next pass at 70 s: the running value is 100 − 40 − 70 = −10 and the loop gives up, although 30 s remain | each pass uses the time really left: the original budget minus the time elapsed, or `end_at` minus the current time | high, not executed | Driver.RunAsWritten (Driver.RunAsWrittenOverSubtracts, Driver.RunAsWrittenOverSubtractsEndAt) | Driver.Run |
| autoPyTorch/ensemble/ensemble_builder.py:700-719 | after a memory error, a fractional `ensemble_nbest` becomes `int(f / 2)` = 0, and an integer 1 with `read_at_most` 1 becomes 0; the run returns this 0, the manager adopts it (204) and passes it to the next job, whose constructor rejects an integer below 1 (478-480), so the manager re-raises that error at `.result()` (202); within the run, 0 keeps no candidates, so `main` returns before the deletion step | `ensemble_nbest` 0.5 (or 1 with `read_at_most` 1) and a memory error in the first pass; the next manager call that finds the job done raises `ValueError` | the builder keeps running to delete files from disk, as the log message at 700-702 says | medium, not executed | Coordinator.DegradedNBestCrashesManager (Driver.DegradedNBestRejected) | Driver.ValidateArgsAdmittingDegraded (Coordinator.DegradedNBestKeepsManager, Driver.DegradedNBestAdmitted) |

=== FILE: backbone.dfy ===
/** The network-backbone choice, `NetworkBackboneChoice` in
    `pipeline/components/setup/network_backbone/__init__.py`: the registry of
    backbone components (built-ins overridden by add-ons), the filter that
    decides which of them a dataset may use, and the `__choice__`
    hyperparameter offered over the survivors.

    A component is represented by the facts the filter reads: whether it is
    itself a choice object (it has `get_components`) and its three
    `handles_*` properties. The component's own search space lives in
    ConfigSpace and is not part of this model. */
module Backbone {
  import opened Common

  datatype Component = Component(isChoice: bool, handlesTabular: bool, handlesImage: bool,
                                 handlesTimeSeries: bool)

  /** An ordered dictionary from component name to component. */
  type Components = seq<(string, Component)>

  datatype BackboneError =
    | IncludeAndExclude
    | UnknownInclude(name: string)
    | MissingTaskType
    | NoBackbone
    | ChoiceOutsideAvailable(range: seq<string>)

  /* ---------------- the registry ---------------- */

  /** Putting a new key appends its item. */
  lemma PutFresh<K(!new), V>(items: seq<(K, V)>, e: (K, V))
    requires e.0 !in Keys(items)
    ensures Put(items, e.0, e.1) == items + [e]
    ensures Keys(items + [e]) == Keys(items) + [e.0]
  {
  }

  lemma ConsSplit<T>(items: seq<T>, other: seq<T>)
    requires |other| > 0
    ensures items + [other[0]] + other[1..] == items + other
  {
    assert other == [other[0]] + other[1..];
  }

  /** Updating an ordered dictionary with items under new keys appends them. */
  lemma {:induction false} UpdateFresh<K(!new), V>(items: seq<(K, V)>, other: seq<(K, V)>)
    requires DistinctKeys(other)
    requires forall i :: 0 <= i < |other| ==> other[i].0 !in Keys(items)
    ensures Update(items, other) == items + other
    decreases |other|
  {
    if |other| > 0 {
      var rest := other[1..];
      var next := items + [other[0]];
      assert Update(items, other) == Update(next, rest) by {
        PutFresh(items, other[0]);
      }
      assert DistinctKeys(rest);
      assert forall i :: 0 <= i < |rest| ==> rest[i].0 !in Keys(next) by {
        PutFresh(items, other[0]);
        forall i | 0 <= i < |rest|
          ensures rest[i].0 !in Keys(items) + [other[0].0]
        {
          assert rest[i] == other[i + 1];
        }
      }
      UpdateFresh(next, rest);
      ConsSplit(items, other);
    }
  }

  /** `get_components`: an `OrderedDict` updated first with the built-in
      backbones, then with the registered add-ons. */
  function GetComponents(builtins: Components, addons: Components): (r: Components)
    requires DistinctKeys(builtins)
    ensures DistinctKeys(r)
    ensures |builtins| <= |r| && Keys(r)[..|builtins|] == Keys(builtins)
    ensures forall k :: k in Keys(r) <==> k in Keys(builtins) || k in Keys(addons)
  {
    UpdateFresh([], builtins);
    assert [] + builtins == builtins;
    Update(Update([], builtins), addons)
  }

  /** An add-on registered under a built-in's name replaces it; every
      other name keeps the component it was registered with. */
  lemma GetComponentsLookup(builtins: Components, addons: Components, k: string)
    requires DistinctKeys(builtins)
    requires DistinctKeys(addons)
    ensures Get(GetComponents(builtins, addons), k) ==
            if k in Keys(addons) then Get(addons, k) else Get(builtins, k)
  {
    UpdateFresh([], builtins);
    assert [] + builtins == builtins;
    GetUpdate(builtins, addons, k);
  }

  /* ---------------- filtering ---------------- */

  /** The include/exclude test of the loop in `get_available_components`. */
  predicate Listed(name: string, includeNames: Option<seq<string>>, excludeNames: Option<seq<string>>)
  {
    if includeNames.Some? && name !in includeNames.value then false
    else if excludeNames.Some? && name in excludeNames.value then false
    else true
  }

  /** The `elif` chain on the task type: each branch only decides whether to
      skip, so a component is rejected as soon as the task type names a
      kind of data it does not handle. */
  predicate TaskAccepts(taskType: string, c: Component)
  {
    if Contains(taskType, "tabular") && !c.handlesTabular then false
    else if Contains(taskType, "image") && !c.handlesImage then false
    else if Contains(taskType, "time_series") && !c.handlesTimeSeries then false
    else true
  }

  /** A component survives the filter: listed, not a choice object, and
      fit for the task type (which must be known). */
  predicate Kept(taskType: Option<string>, includeNames: Option<seq<string>>, excludeNames: Option<seq<string>>,
                 e: (string, Component))
  {
    && Listed(e.0, includeNames, excludeNames)
    && !e.1.isChoice
    && taskType.Some?
    && TaskAccepts(taskType.value, e.1)
  }

  function KeptBy(taskType: Option<string>, includeNames: Option<seq<string>>, excludeNames: Option<seq<string>>)
    : ((string, Component)) -> bool
  {
    e => Kept(taskType, includeNames, excludeNames, e)
  }

  /** An entry reaches the `dataset_properties['task_type']` lookup. */
  predicate ReachesLookup(includeNames: Option<seq<string>>, excludeNames: Option<seq<string>>, e: (string, Component))
  {
    Listed(e.0, includeNames, excludeNames) && !e.1.isChoice
  }

  /** The loop of `get_available_components`. `taskType` is `None` when
      `dataset_properties` has no `task_type` key; the lookup then raises
      `KeyError` at the first entry that reaches it. */
  function FilterComponents(items: Components, taskType: Option<string>,
                            includeNames: Option<seq<string>>, excludeNames: Option<seq<string>>)
    : (r: Result<Components, BackboneError>)
    ensures r.Err? <==> taskType.None? && exists i :: 0 <= i < |items| && ReachesLookup(includeNames, excludeNames, items[i])
    ensures r.Err? ==> r.error == MissingTaskType
    ensures r.Ok? ==> r.value == Filter(items, KeptBy(taskType, includeNames, excludeNames))
  {
    if |items| == 0 then Ok([])
    else
      var rest := FilterComponents(items[1..], taskType, includeNames, excludeNames);
      assert forall i :: 0 < i < |items| ==> items[i] == items[1..][i - 1];
      assert forall i :: 0 <= i < |items| - 1 ==> items[1..][i] == items[i + 1];
      if !ReachesLookup(includeNames, excludeNames, items[0]) then rest
      else if taskType.None? then Err(MissingTaskType)
      else if !TaskAccepts(taskType.value, items[0].1) then rest
      else if rest.Err? then rest
      else Ok([items[0]] + rest.value)
  }

  /** The first name of `names` that is not a key, if any. */
  function FirstUnknown(names: seq<string>, keys: seq<string>): (r: Option<string>)
    ensures r.None? <==> forall n :: n in names ==> n in keys
    ensures r.Some? ==> exists i :: 0 <= i < |names| && names[i] == r.value && r.value !in keys
                                   && forall j :: 0 <= j < i ==> names[j] in keys
  {
    if |names| == 0 then None
    else if names[0] !in keys then Some(names[0])
    else
      var rest := FirstUnknown(names[1..], keys);
      assert names == [names[0]] + names[1..];
      if rest.Some? then
        var i :| 0 <= i < |names[1..]| && names[1..][i] == rest.value && rest.value !in keys
                 && forall j :: 0 <= j < i ==> names[1..][j] in keys;
        assert names[i + 1] == rest.value;
        rest
      else rest
  }

  /** `get_available_components` over the registry `comps`. */
  function GetAvailable(comps: Components, taskType: Option<string>,
                        includeNames: Option<seq<string>>, excludeNames: Option<seq<string>>)
    : (r: Result<Components, BackboneError>)
    ensures r == Err(IncludeAndExclude) <==> includeNames.Some? && excludeNames.Some?
    ensures r.Err? && r.error.UnknownInclude? ==>
              includeNames.Some? && r.error.name in includeNames.value && r.error.name !in Keys(comps)
    ensures includeNames.Some? && excludeNames.None? && (exists n :: n in includeNames.value && n !in Keys(comps)) ==>
              r.Err? && r.error.UnknownInclude?
    ensures r.Ok? ==> r.value == Filter(comps, KeptBy(taskType, includeNames, excludeNames))
    ensures r.Ok? <==>
              && !(includeNames.Some? && excludeNames.Some?)
              && (includeNames.Some? ==> forall n :: n in includeNames.value ==> n in Keys(comps))
              && !(taskType.None? && exists i :: 0 <= i < |comps| && ReachesLookup(includeNames, excludeNames, comps[i]))
    ensures r.Err? && r.error.MissingTaskType? ==>
              taskType.None? && exists i :: 0 <= i < |comps| && ReachesLookup(includeNames, excludeNames, comps[i])
  {
    if includeNames.Some? && excludeNames.Some? then Err(IncludeAndExclude)
    else
      var unknown := if includeNames.Some? then FirstUnknown(includeNames.value, Keys(comps)) else None;
      if unknown.Some? then Err(UnknownInclude(unknown.value))
      else FilterComponents(comps, taskType, includeNames, excludeNames)
  }

  /** What the available backbones are: an order-preserving part of the
      registry holding exactly the listed, non-choice components that fit
      the task type, each under its registered name. */
  lemma AvailableIsSubRegistry(comps: Components, taskType: Option<string>,
                               includeNames: Option<seq<string>>, excludeNames: Option<seq<string>>, e: (string, Component))
    requires GetAvailable(comps, taskType, includeNames, excludeNames).Ok?
    ensures var avail := GetAvailable(comps, taskType, includeNames, excludeNames).value;
            e in avail <==>
              && e in comps
              && (includeNames.Some? ==> e.0 in includeNames.value)
              && (excludeNames.Some? ==> e.0 !in excludeNames.value)
              && !e.1.isChoice
              && taskType.Some?
              && (Contains(taskType.value, "tabular") ==> e.1.handlesTabular)
              && (Contains(taskType.value, "image") ==> e.1.handlesImage)
              && (Contains(taskType.value, "time_series") ==> e.1.handlesTimeSeries)
  {
  }

  /** The available backbones keep the registry's distinct names. */
  lemma {:induction false} FilterKeepsDistinctKeys(items: Components, p: ((string, Component)) -> bool)
    requires DistinctKeys(items)
    ensures DistinctKeys(Filter(items, p))
  {
    if |items| > 0 {
      FilterKeepsDistinctKeys(items[1..], p);
      var rest := Filter(items[1..], p);
      forall j | 0 <= j < |rest|
        ensures items[0].0 != rest[j].0
      {
        assert rest[j] in items[1..];
      }
    }
  }

  /* ---------------- the `__choice__` hyperparameter ---------------- */

  /** `_defaults_network`: the preferred default backbones, in order. */
  const DefaultsNetwork: seq<string> := ["ShapedMLPBackbone", "MLPBackbone", "ConvNetImageBackbone"]

  /** The default when none is given: the first preferred name that is
      available, else the first available name. */
  function PickDefault(prefs: seq<string>, avail: Components): (d: string)
    requires |avail| > 0
    ensures d in Keys(avail)
    ensures (exists i :: 0 <= i < |prefs| && prefs[i] in Keys(avail)) ==>
              exists i :: 0 <= i < |prefs| && prefs[i] == d && forall j :: 0 <= j < i ==> prefs[j] !in Keys(avail)
    ensures (forall p :: p in prefs ==> p !in Keys(avail)) ==> d == avail[0].0
  {
    if |prefs| == 0 then avail[0].0
    else if prefs[0] in Keys(avail) then prefs[0]
    else
      var d := PickDefault(prefs[1..], avail);
      assert prefs == [prefs[0]] + prefs[1..];
      if exists i :: 0 <= i < |prefs| && prefs[i] in Keys(avail) then
        var i :| 0 <= i < |prefs| && prefs[i] in Keys(avail);
        assert prefs[1..][i - 1] in Keys(avail);
        var k :| 0 <= k < |prefs[1..]| && prefs[1..][k] == d
                 && forall j :: 0 <= j < k ==> prefs[1..][j] !in Keys(avail);
        assert prefs[k + 1] == d;
        d
      else d
  }

  /** A `__choice__` search-space update: its value range and default. */
  datatype ChoiceUpdate = ChoiceUpdate(valueRange: seq<string>, defaultValue: string)

  /** The `__choice__` categorical hyperparameter: its choices and default. */
  datatype ChoiceSpace = ChoiceSpace(choices: seq<string>, default: string)

  /** The `__choice__` part of `get_hyperparameter_search_space`. */
  function SearchSpaceChoice(comps: Components, taskType: Option<string>, default: Option<string>,
                             includeNames: Option<seq<string>>, excludeNames: Option<seq<string>>,
                             update: Option<ChoiceUpdate>)
    : (r: Result<ChoiceSpace, BackboneError>)
    ensures var a := GetAvailable(comps, taskType, includeNames, excludeNames);
            && (a.Err? ==> r == Err(a.error))
            && (r == Err(NoBackbone) <==> a.Ok? && |a.value| == 0)
            && (r.Err? && r.error.ChoiceOutsideAvailable? <==>
                  a.Ok? && |a.value| > 0 && update.Some? && exists n :: n in update.value.valueRange && n !in Keys(a.value))
            && (r.Ok? <==>
                  && a.Ok? && |a.value| > 0
                  && (update.Some? ==> forall n :: n in update.value.valueRange ==> n in Keys(a.value)))
            && (r.Ok? ==> a.Ok? && forall n :: n in r.value.choices ==> n in Keys(a.value))
            && (r.Ok? && update.None? ==> r.value.choices == Keys(a.value))
            && (r.Ok? && update.Some? ==> r.value == ChoiceSpace(update.value.valueRange, update.value.defaultValue))
            && (r.Ok? && update.None? && default.None? ==> r.value.default in r.value.choices)
            && (r.Ok? && update.None? && default.Some? ==> r.value.default == default.value)
  {
    match GetAvailable(comps, taskType, includeNames, excludeNames)
    case Err(e) => Err(e)
    case Ok(avail) =>
      if |avail| == 0 then Err(NoBackbone)
      else
        var d := if default.Some? then default.value else PickDefault(DefaultsNetwork, avail);
        if update.Some? then
          if forall n :: n in update.value.valueRange ==> n in Keys(avail) then
            Ok(ChoiceSpace(update.value.valueRange, update.value.defaultValue))
          else Err(ChoiceOutsideAvailable(update.value.valueRange))
        else Ok(ChoiceSpace(Keys(avail), d))
  }

  /** Without an explicit default or update, the default is the first of
      `_defaults_network` that is available, else the first available
      backbone. */
  lemma DefaultIsPreferred(comps: Components, taskType: Option<string>,
                           includeNames: Option<seq<string>>, excludeNames: Option<seq<string>>)
    requires SearchSpaceChoice(comps, taskType, None, includeNames, excludeNames, None).Ok?
    ensures var r := SearchSpaceChoice(comps, taskType, None, includeNames, excludeNames, None).value;
            && (r.default == "ShapedMLPBackbone" <==> "ShapedMLPBackbone" in r.choices)
            && (r.default == "MLPBackbone" <==> "ShapedMLPBackbone" !in r.choices && "MLPBackbone" in r.choices)
            && (r.default == "ConvNetImageBackbone" <==>
                  "ShapedMLPBackbone" !in r.choices && "MLPBackbone" !in r.choices && "ConvNetImageBackbone" in r.choices)
            && ((forall p :: p in DefaultsNetwork ==> p !in r.choices) ==> r.default == r.choices[0])
  {
    var avail := GetAvailable(comps, taskType, includeNames, excludeNames).value;
    var d := PickDefault(DefaultsNetwork, avail);
    assert DefaultsNetwork[0] == "ShapedMLPBackbone" && DefaultsNetwork[1] == "MLPBackbone"
        && DefaultsNetwork[2] == "ConvNetImageBackbone";
    if exists i :: 0 <= i < |DefaultsNetwork| && DefaultsNetwork[i] in Keys(avail) {
      var i :| 0 <= i < |DefaultsNetwork| && DefaultsNetwork[i] == d
               && forall j :: 0 <= j < i ==> DefaultsNetwork[j] !in Keys(avail);
    }
  }
}

=== FILE: common.dfy ===
/** Shared vocabulary: optional values, results with an error, and the
    insertion-ordered dictionary that Python's `dict` and `OrderedDict` are.
    An ordered dictionary is a sequence of (key, value) items whose keys are
    pairwise distinct; iteration order is the sequence order. */
module Common {

  datatype Option<+T> = None | Some(value: T)

  datatype Result<+T, +E> = Ok(value: T) | Err(error: E)

  function Min(a: int, b: int): int { if a <= b then a else b }

  function Max(a: int, b: int): int { if a >= b then a else b }

  /** Python's `int(x)`: truncation toward zero. */
  function Trunc(x: real): (r: int)
    ensures 0.0 <= x ==> r as real <= x < r as real + 1.0
    ensures x < 0.0 ==> r as real - 1.0 < x <= r as real
  {
    if x >= 0.0 then x.Floor else -((-x).Floor)
  }

  /** `sub in s` for Python strings: `sub` occurs as a contiguous piece of `s`. */
  predicate Contains(s: string, sub: string)
  {
    exists i :: 0 <= i <= |s| - |sub| && OccursAt(s, sub, i)
  }

  predicate OccursAt(s: string, sub: string, i: int)
    requires 0 <= i <= |s| - |sub|
  {
    s[i..i + |sub|] == sub
  }

  /** `s.endswith(suffix)` */
  predicate EndsWith(s: string, suffix: string)
  {
    |suffix| <= |s| && s[|s| - |suffix|..] == suffix
  }

  /* ---------------- order-preserving filter ---------------- */

  function Filter<T(!new)>(s: seq<T>, p: T -> bool): (r: seq<T>)
    ensures |r| <= |s|
    ensures forall i :: 0 <= i < |r| ==> p(r[i])
    ensures forall x :: x in r <==> x in s && p(x)
    ensures multiset(r) <= multiset(s)
  {
    if |s| == 0 then []
    else
      var rest := Filter(s[1..], p);
      assert s == [s[0]] + s[1..];
      if p(s[0]) then [s[0]] + rest else rest
  }

  /** `Filter` keeps every occurrence of a satisfying element and none of
      the others. */
  lemma {:induction false} FilterCounts<T(!new)>(s: seq<T>, p: T -> bool)
    ensures forall x :: multiset(Filter(s, p))[x] == if p(x) then multiset(s)[x] else 0
  {
    if |s| > 0 {
      FilterCounts(s[1..], p);
      assert s == [s[0]] + s[1..];
    }
  }

  /** Filtering distributes over concatenation, so the kept elements stay in
      their order; with `FilterSingleton` this determines `Filter`. */
  lemma {:induction false} FilterAppend<T(!new)>(a: seq<T>, b: seq<T>, p: T -> bool)
    ensures Filter(a + b, p) == Filter(a, p) + Filter(b, p)
    decreases |a|
  {
    if |a| == 0 {
      assert a + b == b;
    } else {
      FilterAppend(a[1..], b, p);
      FilterAppendStep(a, b, p);
    }
  }

  lemma FilterAppendStep<T(!new)>(a: seq<T>, b: seq<T>, p: T -> bool)
    requires |a| > 0
    requires Filter(a[1..] + b, p) == Filter(a[1..], p) + Filter(b, p)
    ensures Filter(a + b, p) == Filter(a, p) + Filter(b, p)
  {
    var rest := a[1..];
    var head := if p(a[0]) then [a[0]] else [];
    var x, y := Filter(rest, p), Filter(b, p);
    ConsAppend(a, b);
    assert Filter(a + b, p) == head + (x + y) by {
      FilterCons(a[0], rest + b, p);
    }
    assert Filter(a, p) == head + x by {
      ConsAppend(a, []);
      assert a + [] == a && rest + [] == rest;
      FilterCons(a[0], rest, p);
    }
    SeqAssoc(head, x, y);
  }

  lemma SeqAssoc<T>(u: seq<T>, v: seq<T>, w: seq<T>)
    ensures u + (v + w) == (u + v) + w
  {
  }

  lemma ConsAppend<T>(a: seq<T>, b: seq<T>)
    requires |a| > 0
    ensures a + b == [a[0]] + (a[1..] + b)
  {
    assert a == [a[0]] + a[1..];
  }

  lemma FilterCons<T(!new)>(x: T, s: seq<T>, p: T -> bool)
    ensures Filter([x] + s, p) == (if p(x) then [x] else []) + Filter(s, p)
  {
    assert ([x] + s)[0] == x;
    assert ([x] + s)[1..] == s;
  }

  lemma FilterSingleton<T(!new)>(x: T, p: T -> bool)
    ensures Filter([x], p) == if p(x) then [x] else []
  {
    assert [x][1..] == [];
  }

  /** The first element kept by `Filter` is the first element of `s` that
      satisfies `p`. */
  lemma {:induction false} FilterHead<T(!new)>(s: seq<T>, p: T -> bool)
    requires |Filter(s, p)| > 0
    ensures exists i :: 0 <= i < |s| && s[i] == Filter(s, p)[0] && forall j :: 0 <= j < i ==> !p(s[j])
  {
    if !p(s[0]) {
      FilterHead(s[1..], p);
      var i :| 0 <= i < |s[1..]| && s[1..][i] == Filter(s[1..], p)[0] && forall j :: 0 <= j < i ==> !p(s[1..][j]);
      assert s[i + 1] == Filter(s, p)[0];
      assert forall j :: 0 <= j < i + 1 ==> !p(s[j]) by {
        forall j | 0 <= j < i + 1 ensures !p(s[j]) {
          if j > 0 { assert s[j] == s[1..][j - 1]; }
        }
      }
    }
  }

  /* ---------------- ordered dictionaries ---------------- */

  predicate DistinctKeys<K(==), V>(items: seq<(K, V)>)
  {
    forall i, j :: 0 <= i < j < |items| ==> items[i].0 != items[j].0
  }

  function Keys<K, V>(items: seq<(K, V)>): (ks: seq<K>)
    ensures |ks| == |items|
    ensures forall i :: 0 <= i < |items| ==> ks[i] == items[i].0
  {
    seq(|items|, i requires 0 <= i < |items| => items[i].0)
  }

  /** Position of the first occurrence of `k` in `ks`. */
  function Find<K(==)>(ks: seq<K>, k: K): (i: nat)
    requires k in ks
    ensures i < |ks| && ks[i] == k
    ensures forall j :: 0 <= j < i ==> ks[j] != k
  {
    if ks[0] == k then 0 else 1 + Find(ks[1..], k)
  }

  /** `d.get(k)`: the value stored under key `k`, if any. */
  function Get<K(==), V>(items: seq<(K, V)>, k: K): (r: Option<V>)
    ensures r.None? <==> k !in Keys(items)
    ensures r.Some? ==> exists i :: 0 <= i < |items| && items[i] == (k, r.value)
  {
    var ks := Keys(items);
    if k in ks then
      var i := Find(ks, k);
      assert items[i] == (k, items[i].1);
      Some(items[i].1)
    else None
  }

  lemma GetAt<K, V>(items: seq<(K, V)>, i: int)
    requires DistinctKeys(items)
    requires 0 <= i < |items|
    ensures Get(items, items[i].0) == Some(items[i].1)
  {
    assert Keys(items)[i] == items[i].0;
  }

  /** `d[k] = v`: replaces the value in place when `k` is present (its
      position is kept), appends the item otherwise. */
  function Put<K(==,!new), V>(items: seq<(K, V)>, k: K, v: V): (r: seq<(K, V)>)
    ensures Keys(r) == if k in Keys(items) then Keys(items) else Keys(items) + [k]
    ensures DistinctKeys(items) ==> DistinctKeys(r)
    ensures Get(r, k) == Some(v)
    ensures forall k' :: k' != k ==> Get(r, k') == Get(items, k')
  {
    var ks := Keys(items);
    if k in ks then
      var r := items[Find(ks, k) := (k, v)];
      assert Keys(r) == ks;
      r
    else
      var r := items + [(k, v)];
      assert Keys(r) == ks + [k];
      forall k' | k' != k && k' in ks
        ensures Find(Keys(r), k') == Find(ks, k')
      {
        FindUnique(Keys(r), k', Find(Keys(r), k'), Find(ks, k'));
      }
      r
  }

  lemma FindUnique<K>(ks: seq<K>, k: K, i: int, j: int)
    requires 0 <= i < |ks| && ks[i] == k && forall m :: 0 <= m < i ==> ks[m] != k
    requires 0 <= j < |ks| && ks[j] == k && forall m :: 0 <= m < j ==> ks[m] != k
    ensures i == j
  {
  }

  /** `d.update(other)`: `Put` of every item of `other`, in order. */
  function Update<K(==,!new), V>(items: seq<(K, V)>, other: seq<(K, V)>): (r: seq<(K, V)>)
    ensures DistinctKeys(items) ==> DistinctKeys(r)
    ensures forall k :: k in Keys(r) <==> k in Keys(items) || k in Keys(other)
    ensures |items| <= |r| && Keys(r)[..|items|] == Keys(items)
    decreases |other|
  {
    if |other| == 0 then items
    else
      assert Keys(other) == [other[0].0] + Keys(other[1..]);
      var next := Put(items, other[0].0, other[0].1);
      var r := Update(next, other[1..]);
      PrefixOfPrefix(Keys(r), Keys(next), Keys(items));
      r
  }

  lemma PrefixOfPrefix<T>(a: seq<T>, b: seq<T>, c: seq<T>)
    requires |b| <= |a| && a[..|b|] == b
    requires |c| <= |b| && b[..|c|] == c
    ensures a[..|c|] == c
  {
    assert a[..|c|] == a[..|b|][..|c|];
  }

  /** After `d.update(other)`, a key of `other` holds `other`'s value and
      every other key keeps its value. */
  lemma {:induction false} GetUpdate<K(!new), V>(items: seq<(K, V)>, other: seq<(K, V)>, k: K)
    requires DistinctKeys(other)
    ensures Get(Update(items, other), k) == if k in Keys(other) then Get(other, k) else Get(items, k)
    decreases |other|
  {
    if |other| > 0 {
      var rest := other[1..];
      var next := Put(items, other[0].0, other[0].1);
      assert DistinctKeys(rest);
      GetUpdate(next, rest, k);
      assert Update(items, other) == Update(next, rest);
      GetCons(other, k);
      if k in Keys(rest) {
        DistinctHead(other, k);
      }
    }
  }

  /** Looking a key up in a non-empty dictionary: the head item, or the rest. */
  lemma GetCons<K(!new), V>(items: seq<(K, V)>, k: K)
    requires |items| > 0
    ensures k in Keys(items) <==> k == items[0].0 || k in Keys(items[1..])
    ensures Get(items, k) == if k == items[0].0 then Some(items[0].1) else Get(items[1..], k)
  {
    assert Keys(items) == [items[0].0] + Keys(items[1..]);
    if k != items[0].0 && k in Keys(items[1..]) {
      assert Find(Keys(items), k) == 1 + Find(Keys(items[1..]), k);
    }
  }

  lemma DistinctHead<K(!new), V>(items: seq<(K, V)>, k: K)
    requires |items| > 0 && DistinctKeys(items)
    requires k in Keys(items[1..])
    ensures k != items[0].0
  {
    var j := Find(Keys(items[1..]), k);
    assert items[j + 1].0 == k;
  }

  /** `{k: f(k, v) for k, v in d.items()}`: same keys in the same order. */
  function MapValues<K, V>(items: seq<(K, V)>, f: (K, V) -> V): (r: seq<(K, V)>)
    ensures |r| == |items|
    ensures forall i :: 0 <= i < |items| ==> r[i] == (items[i].0, f(items[i].0, items[i].1))
    ensures Keys(r) == Keys(items)
  {
    seq(|items|, i requires 0 <= i < |items| => (items[i].0, f(items[i].0, items[i].1)))
  }

  lemma GetMapValues<K, V>(items: seq<(K, V)>, f: (K, V) -> V, k: K)
    requires k in Keys(items)
    ensures Get(MapValues(items, f), k) == Some(f(k, Get(items, k).value))
  {
    var i := Find(Keys(items), k);
    assert Keys(MapValues(items, f)) == Keys(items);
  }
}

=== FILE: configspace.dfy ===
/** JSON-friendly configuration values, `autoPyTorch/utils/config_space.py`:
    `convert_np_types`, which turns NumPy scalars and arrays into Python
    values, the lookup of `CustomConfiguration.__getitem__` that applies it,
    and the list-or-single shape of `CustomConfigurationSpace.sample_configuration`.

    Values are a tagged type holding both Python built-ins and the NumPy
    objects the conversion distinguishes. Numbers are exact (`int`, `real`):
    the rounding of `float(np.float32(x))` is not modelled. */
module ConfigSpace {
  import opened Common

  /** `np.int_, np.intc, np.intp, np.int8 ... np.uint64`. */
  datatype IntKind = Int_ | Intc | Intp | Int8 | Int16 | Int32 | Int64 | UInt8 | UInt16 | UInt32 | UInt64

  /** NumPy real floating kinds; `LongDouble` is not in the converted list. */
  datatype FloatKind = Float16 | Float32 | Float64 | LongDouble

  /** NumPy complex kinds; `Complex256` is not in the converted list. */
  datatype ComplexKind = Complex64 | Complex128 | Complex256

  datatype Value =
    // Python built-ins
    | PyNone
    | PyBool(b: bool)
    | PyInt(i: int)
    | PyFloat(x: real)
    | PyComplex(re: real, im: real)
    | PyStr(s: string)
    | PyList(items: seq<Value>)
    | PyDict(entries: seq<(string, Value)>)
    | PyOther(tag: string)
    // NumPy scalars and arrays; an array holds scalars, sub-arrays, or
    // arbitrary Python objects (object dtype)
    | NpInteger(ikind: IntKind, n: int)
    | NpFloating(fkind: FloatKind, f: real)
    | NpComplex(ckind: ComplexKind, realPart: real, imagPart: real)
    | NpStr(str: string)
    | NpBool(flag: bool)
    | NpVoid
    | NpArray(elems: seq<Value>)

  /** The NumPy float kind of the parts `.real` and `.imag` of a complex. */
  function PartKind(k: ComplexKind): FloatKind
  {
    match k
    case Complex64 => Float32
    case Complex128 => Float64
    case Complex256 => LongDouble
  }

  /** `x.item()` for an array element: the nearest Python built-in, or the
      NumPy scalar itself where Python has no such type; for an array,
      `ndarray.tolist()`, the nested list of its elements' items. */
  function Item(v: Value): (r: Value)
    ensures v.NpArray? ==> r.PyList? && |r.items| == |v.elems|
  {
    match v
    case NpInteger(_, n) => PyInt(n)
    case NpFloating(k, f) => if k == LongDouble then v else PyFloat(f)
    case NpComplex(k, re, im) => if k == Complex256 then v else PyComplex(re, im)
    case NpStr(s) => PyStr(s)
    case NpBool(b) => PyBool(b)
    case NpVoid => PyOther("bytes")
    case NpArray(es) => PyList(seq(|es|, i requires 0 <= i < |es| => Item(es[i])))
    case _ => v
  }

  /** `convert_np_types`. */
  function Convert(v: Value): (r: Value)
    ensures v.NpInteger? ==> r == PyInt(v.n)
    ensures v.NpFloating? ==> r == if v.fkind == LongDouble then v else PyFloat(v.f)
    ensures v.NpComplex? && v.ckind != Complex256 ==>
              r.PyDict? && Keys(r.entries) == ["real", "imag"]
    ensures v.NpStr? ==> r == PyStr(v.str)
    ensures v.NpBool? ==> r == PyBool(v.flag)
    ensures v.NpVoid? ==> r == PyNone
    ensures v.NpArray? ==> r.PyList? && |r.items| == |v.elems|
    ensures v.PyList? ==> r.PyList? && |r.items| == |v.items|
                          && forall i :: 0 <= i < |v.items| ==> r.items[i] == Convert(v.items[i])
    ensures v.PyDict? ==> r.PyDict? && Keys(r.entries) == Keys(v.entries)
                          && forall i :: 0 <= i < |v.entries| ==> r.entries[i].1 == Convert(v.entries[i].1)
    ensures v.PyNone? || v.PyBool? || v.PyInt? || v.PyFloat? || v.PyComplex? || v.PyStr? || v.PyOther? ==> r == v
  {
    match v
    case NpInteger(_, n) => PyInt(n)
    case NpFloating(k, f) => if k == LongDouble then v else PyFloat(f)
    case NpComplex(k, re, im) =>
      if k == Complex256 then v
      else PyDict([("real", NpFloating(PartKind(k), re)), ("imag", NpFloating(PartKind(k), im))])
    case NpStr(s) => PyStr(s)
    case NpArray(_) => Item(v)
    case NpBool(b) => PyBool(b)
    case NpVoid => PyNone
    case PyList(items) => PyList(seq(|items|, i requires 0 <= i < |items| => Convert(items[i])))
    case PyDict(entries) =>
      var r := seq(|entries|, i requires 0 <= i < |entries| => (entries[i].0, Convert(entries[i].1)));
      assert Keys(r) == Keys(entries);
      PyDict(r)
    case _ => v
  }

  /** A value with nothing left to convert: no NumPy scalar of a converted
      kind and no array, at any depth of lists and dicts. */
  predicate Ready(v: Value)
  {
    match v
    case NpInteger(_, _) => false
    case NpFloating(k, _) => k == LongDouble
    case NpComplex(k, _, _) => k == Complex256
    case NpStr(_) => false
    case NpBool(_) => false
    case NpVoid => false
    case NpArray(_) => false
    case PyList(items) => forall i :: 0 <= i < |items| ==> Ready(items[i])
    case PyDict(entries) => forall i :: 0 <= i < |entries| ==> Ready(entries[i].1)
    case _ => true
  }

  /** The conversion leaves a value unchanged exactly when it is ready. */
  lemma {:induction false} ConvertFixesReady(v: Value)
    ensures Convert(v) == v <==> Ready(v)
  {
    match v
    case PyList(items) =>
      var r := Convert(v);
      if Ready(v) {
        forall i | 0 <= i < |items| ensures r.items[i] == items[i] {
          ConvertFixesReady(items[i]);
        }
        assert r.items == items;
      }
      if r == v {
        forall i | 0 <= i < |items| ensures Ready(items[i]) {
          assert r.items[i] == items[i];
          ConvertFixesReady(items[i]);
        }
      }
    case PyDict(entries) =>
      var r := Convert(v);
      if Ready(v) {
        forall i | 0 <= i < |entries| ensures r.entries[i] == entries[i] {
          assert Keys(r.entries)[i] == Keys(entries)[i];
          ConvertFixesReady(entries[i].1);
        }
        assert r.entries == entries;
      }
      if r == v {
        forall i | 0 <= i < |entries| ensures Ready(entries[i].1) {
          assert r.entries[i] == entries[i];
          ConvertFixesReady(entries[i].1);
        }
      }
    case _ =>
  }

  /** An array element whose item is ready: a NumPy scalar, a sub-array of
      such elements, or a ready Python object. */
  predicate ArrayElem(v: Value)
  {
    match v
    case NpArray(es) => forall i :: 0 <= i < |es| ==> ArrayElem(es[i])
    case NpInteger(_, _) => true
    case NpFloating(_, _) => true
    case NpComplex(_, _, _) => true
    case NpStr(_) => true
    case NpBool(_) => true
    case NpVoid => true
    case _ => Ready(v)
  }

  /** The values the conversion makes ready in one pass: complex scalars
      outside arrays are the exception (their parts stay NumPy floats),
      and so are object arrays that hold unconverted values. */
  predicate Convertible(v: Value)
  {
    match v
    case NpComplex(k, _, _) => k == Complex256
    case NpArray(es) => forall i :: 0 <= i < |es| ==> ArrayElem(es[i])
    case PyList(items) => forall i :: 0 <= i < |items| ==> Convertible(items[i])
    case PyDict(entries) => forall i :: 0 <= i < |entries| ==> Convertible(entries[i].1)
    case _ => true
  }

  lemma {:induction false} ItemReady(v: Value)
    requires ArrayElem(v)
    ensures Ready(Item(v))
    decreases v
  {
    match v
    case NpArray(es) =>
      var r := Item(v);
      forall i | 0 <= i < |es| ensures Ready(r.items[i]) {
        ItemReady(es[i]);
      }
    case _ =>
  }

  /** One pass of the conversion makes a convertible value ready. */
  lemma {:induction false} ConvertMakesReady(v: Value)
    requires Convertible(v)
    ensures Ready(Convert(v))
  {
    match v
    case NpArray(es) =>
      ItemReady(v);
    case PyList(items) =>
      forall i | 0 <= i < |items| ensures Ready(Convert(v).items[i]) {
        ConvertMakesReady(items[i]);
      }
    case PyDict(entries) =>
      forall i | 0 <= i < |entries| ensures Ready(Convert(v).entries[i].1) {
        ConvertMakesReady(entries[i].1);
      }
    case _ =>
  }

  lemma ReadyAfterConvert(v: Value)
    ensures Convertible(v) ==> Ready(Convert(v))
  {
    if Convertible(v) {
      ConvertMakesReady(v);
    }
  }

  /** Hence the conversion is idempotent on convertible values. */
  lemma ConvertIdempotent(v: Value)
    requires Convertible(v)
    ensures Convert(Convert(v)) == Convert(v)
  {
    ConvertMakesReady(v);
    ConvertFixesReady(Convert(v));
  }

  /** It is not idempotent on a complex scalar: the parts of the dict are
      still NumPy floats, which a second pass turns into Python floats. */
  lemma ComplexNotIdempotent()
    ensures var c := NpComplex(Complex128, 1.0, 2.0);
            && Convert(c) == PyDict([("real", NpFloating(Float64, 1.0)), ("imag", NpFloating(Float64, 2.0))])
            && Convert(Convert(c)) == PyDict([("real", PyFloat(1.0)), ("imag", PyFloat(2.0))])
            && Convert(Convert(c)) != Convert(c)
  {
    var d := Convert(NpComplex(Complex128, 1.0, 2.0));
    assert d.entries[0].1 == NpFloating(Float64, 1.0);
    var e := Convert(d);
    assert e.entries[0].1 == PyFloat(1.0);
    assert e.entries[1].1 == PyFloat(2.0);
    assert Keys(e.entries) == ["real", "imag"];
    assert e.entries == [("real", PyFloat(1.0)), ("imag", PyFloat(2.0))];
  }

  /* ---------------- configurations ---------------- */

  /** A sampled configuration: its stored values and whether it has been
      cast to `CustomConfiguration`. */
  datatype Config = Config(values: seq<(string, Value)>, custom: bool)

  /** `CustomConfiguration.cast`: the same values, now the custom class. */
  function Cast(c: Config): (r: Config)
    ensures r.custom && r.values == c.values
  {
    c.(custom := true)
  }

  /** `CustomConfiguration.__getitem__`: a missing key gives `None` instead
      of raising `KeyError`; a present value is converted. */
  function GetItem(c: Config, key: string): (r: Value)
    ensures key !in Keys(c.values) ==> r == PyNone
    ensures Get(c.values, key).Some? ==> r == Convert(Get(c.values, key).value)
    ensures Get(c.values, key).Some? && Convertible(Get(c.values, key).value) ==> Ready(r)
    ensures key in Keys(c.values) && Ready(Get(c.values, key).value) ==> r == Get(c.values, key).value
  {
    match Get(c.values, key)
    case None => PyNone
    case Some(v) =>
      ReadyAfterConvert(v);
      ConvertFixesReady(v);
      Convert(v)
  }

  /** What the underlying sampler returns: one configuration, or a list. */
  datatype Sampled = One(config: Config) | Many(configs: seq<Config>)

  /** `sample_configuration`: every configuration is cast, and the result
      has the shape the underlying sampler returned. */
  function SampleConfiguration(s: Sampled): (r: Sampled)
    ensures r.One? <==> s.One?
    ensures r.One? ==> r.config.custom && r.config.values == s.config.values
    ensures r.Many? ==> |r.configs| == |s.configs|
    ensures r.Many? ==> forall i :: 0 <= i < |r.configs| ==>
              r.configs[i].custom && r.configs[i].values == s.configs[i].values
  {
    var configs := if s.Many? then s.configs else [s.config];
    var cast := seq(|configs|, i requires 0 <= i < |configs| => Cast(configs[i]));
    if s.Many? then Many(cast) else One(cast[0])
  }

  /** `get_default_configuration`: the default, cast. */
  function GetDefaultConfiguration(default: Config): (r: Config)
    ensures r.custom && r.values == default.values
  {
    Cast(default)
  }
}

=== FILE: coordinator.dfy ===
/** `EnsembleBuilderManager.build_ensemble`, called after every finished
    model-search run: stop when the time or iteration budget is spent,
    collect the result of a finished builder job, and start a new job only
    when none is outstanding. Jobs, their completion and their results are
    inputs. */
module Coordinator {
  import opened Common
  import opened Selection
  import opened Driver

  /** A submitted builder job and the arguments it was started with. */
  datatype Job = Job(iteration: nat, nbest: NBest)

  /** The manager's mutable fields. */
  datatype Manager = Manager(
    futures: seq<Job>,
    iteration: nat,
    nbest: NBest,
    history: seq<HistoryEntry>)

  /** `time_left_for_ensembles` and `max_iterations`. */
  datatype Limits = Limits(timeBudget: real, maxIterations: Option<int>)

  /** How the outstanding job has ended when it is looked at. */
  datatype JobState = Running | Raised | Finished(result: Option<RunReturn>)

  /** What the call observes: elapsed time, the outstanding job, and whether
      `dask_client.submit` succeeds. */
  datatype Tick = Tick(elapsed: real, job: JobState, submitOk: bool)

  /** The manager after the call, and whether the call raised. */
  datatype Step = Step(m: Manager, raised: bool)

  predicate Terminated(lim: Limits, m: Manager, elapsed: real)
  {
    lim.timeBudget < elapsed || (lim.maxIterations.Some? && lim.maxIterations.value <= m.iteration)
  }

  /** A call submits a job when the budgets are not spent, no job is left
      outstanding (none was, or it finished without raising) and the
      submission succeeds. */
  predicate Submits(lim: Limits, m: Manager, tick: Tick)
  {
    && !Terminated(lim, m, tick.elapsed)
    && (|m.futures| == 0 || tick.job.Finished?)
    && tick.submitOk
  }

  /** A call collects a result: the budgets are not spent and the
      outstanding job finished with a result, whose `ensemble_nbest` the
      manager adopts and whose history it appends. */
  predicate Collects(lim: Limits, m: Manager, tick: Tick)
  {
    !Terminated(lim, m, tick.elapsed) && |m.futures| > 0 && tick.job.Finished? && tick.job.result.Some?
  }

  function BuildEnsemble(lim: Limits, m: Manager, tick: Tick): (s: Step)
    ensures Terminated(lim, m, tick.elapsed) ==> s == Step(m, false)
    ensures |m.futures| <= 1 ==> |s.m.futures| <= 1
    ensures s.m.iteration == m.iteration || s.m.iteration == m.iteration + 1
    ensures |m.futures| <= 1 ==> (s.m.iteration == m.iteration + 1 <==> Submits(lim, m, tick))
    ensures s.m.iteration == m.iteration + 1 ==>
              s.m.futures == [Job(m.iteration, s.m.nbest)]
    ensures s.raised <==> !Terminated(lim, m, tick.elapsed) && |m.futures| > 0 && tick.job.Raised?
    ensures |m.futures| > 0 && tick.job.Running? ==> s == Step(m, false)
    ensures s.m.history == m.history ||
              (tick.job.Finished? && tick.job.result.Some? && s.m.history == m.history + tick.job.result.value.history)
    ensures Collects(lim, m, tick) ==>
              && s.m.nbest == tick.job.result.value.nbest
              && s.m.history == m.history + tick.job.result.value.history
    ensures !Collects(lim, m, tick) ==> s.m.nbest == m.nbest && s.m.history == m.history
  {
    if Terminated(lim, m, tick.elapsed) then Step(m, false)
    else
      var m1 :=
        if |m.futures| != 0 && !tick.job.Running? then
          var popped := m.(futures := m.futures[..|m.futures| - 1]);
          match tick.job
          case Finished(Some(res)) => popped.(nbest := res.nbest, history := m.history + res.history)
          case _ => popped
        else m;
      if |m.futures| != 0 && tick.job.Raised? then Step(m1, true)
      else if |m1.futures| == 0 && tick.submitOk then
        Step(m1.(futures := [Job(m1.iteration, m1.nbest)], iteration := m1.iteration + 1), false)
      else Step(m1, false)
  }

  /** How a submitted job has ended when it is looked at, given how its run
      would have ended: the builder's constructor checks the job's
      `ensemble_nbest` first, and a rejected value raises `ValueError`
      before anything runs. */
  function JobEnds(job: Job, disc: DiscLimit, validate: (NBest, DiscLimit) -> Option<ArgError>, ran: JobState)
    : (s: JobState)
    ensures validate(job.nbest, disc).None? || ran.Running? ==> s == ran
    ensures validate(job.nbest, disc).Some? && !ran.Running? ==> s == Raised
  {
    if validate(job.nbest, disc).Some? && !ran.Running? then Raised else ran
  }

  /** As written: a job returns the `ensemble_nbest` 0 that memory
      degradation set; the manager adopts it and submits the next job with
      it; that job's constructor rejects it, and the next call that finds
      the job done raises, although the job's run itself would have
      finished. */
  lemma DegradedNBestCrashesManager(lim: Limits, m: Manager, tick: Tick, res: RunReturn, disc: DiscLimit,
                                    next: Tick, ran: JobState)
    requires |m.futures| == 1
    requires !Terminated(lim, m, tick.elapsed) && tick.submitOk
    requires tick.job == Finished(Some(res)) && res.nbest == NBestCount(0)
    requires !Terminated(lim, BuildEnsemble(lim, m, tick).m, next.elapsed)
    requires ran.Finished?
    requires next.job == JobEnds(Job(m.iteration, NBestCount(0)), disc, ValidateArgs, ran)
    ensures BuildEnsemble(lim, m, tick).m.futures == [Job(m.iteration, NBestCount(0))]
    ensures BuildEnsemble(lim, m, tick).m.nbest == NBestCount(0)
    ensures BuildEnsemble(lim, BuildEnsemble(lim, m, tick).m, next).raised
  {
    assert Submits(lim, m, tick);
  }

  /** With the constructor admitting the degraded 0, the same sequence of
      calls does not raise: the job's own outcome is what the manager sees. */
  lemma DegradedNBestKeepsManager(lim: Limits, m: Manager, tick: Tick, res: RunReturn, disc: DiscLimit,
                                  next: Tick, ran: JobState)
    requires |m.futures| == 1
    requires !Terminated(lim, m, tick.elapsed) && tick.submitOk
    requires tick.job == Finished(Some(res)) && res.nbest == NBestCount(0)
    requires ValidDisc(disc)
    requires !Terminated(lim, BuildEnsemble(lim, m, tick).m, next.elapsed)
    requires ran.Finished?
    requires next.job == JobEnds(Job(m.iteration, NBestCount(0)), disc, ValidateArgsAdmittingDegraded, ran)
    ensures BuildEnsemble(lim, m, tick).m.futures == [Job(m.iteration, NBestCount(0))]
    ensures next.job == ran
    ensures !BuildEnsemble(lim, BuildEnsemble(lim, m, tick).m, next).raised
  {
    assert Submits(lim, m, tick);
  }

  /** A run of calls; a call that raises ends the run. */
  function Trace(lim: Limits, m: Manager, ticks: seq<Tick>): (r: Manager)
    decreases |ticks|
  {
    if |ticks| == 0 then m
    else
      var s := BuildEnsemble(lim, m, ticks[0]);
      if s.raised then s.m else Trace(lim, s.m, ticks[1..])
  }

  /** Over any run of calls: never more than one outstanding job, and the
      iteration counter never passes `max_iterations` (when it starts within
      it). */
  lemma {:induction false} TraceInvariant(lim: Limits, m: Manager, ticks: seq<Tick>)
    requires |m.futures| <= 1
    requires lim.maxIterations.Some? ==> m.iteration <= Max(lim.maxIterations.value, 0)
    ensures |Trace(lim, m, ticks).futures| <= 1
    ensures lim.maxIterations.Some? ==> Trace(lim, m, ticks).iteration <= Max(lim.maxIterations.value, 0)
    ensures m.iteration <= Trace(lim, m, ticks).iteration
    decreases |ticks|
  {
    if |ticks| > 0 {
      var s := BuildEnsemble(lim, m, ticks[0]);
      if !s.raised {
        TraceInvariant(lim, s.m, ticks[1..]);
      }
    }
  }

  /** The iteration counter counts the successful submissions. */
  function Submissions(lim: Limits, m: Manager, ticks: seq<Tick>): nat
    decreases |ticks|
  {
    if |ticks| == 0 then 0
    else
      var s := BuildEnsemble(lim, m, ticks[0]);
      var here := if Submits(lim, m, ticks[0]) then 1 else 0;
      if s.raised then here else here + Submissions(lim, s.m, ticks[1..])
  }

  lemma {:induction false} IterationCountsSubmissions(lim: Limits, m: Manager, ticks: seq<Tick>)
    requires |m.futures| <= 1
    ensures Trace(lim, m, ticks).iteration == m.iteration + Submissions(lim, m, ticks)
    decreases |ticks|
  {
    if |ticks| > 0 {
      var s := BuildEnsemble(lim, m, ticks[0]);
      if !s.raised {
        IterationCountsSubmissions(lim, s.m, ticks[1..]);
      }
    }
  }
}

=== FILE: deletion.dfy ===
/** Freeing disk space, `EnsembleBuilder._delete_excess_models`: when more
    records exist than `max_resident_models`, the run directory of every
    listed prediction file outside the top `max_resident_models` ranks is
    removed, except for models that were ever candidates and the dummy
    (`num_run == 1`). Whether a removal succeeds is an input. */
module Deletion {
  import opened Common
  import opened Losses
  import opened Records
  import opened Selection
  import opened Reading

  /** The top `max_resident_models` paths of the ranking. */
  function TopPaths(t: LossTable, maxResident: nat): seq<Path>
  {
    Take(Paths(SortedPreds(t)), maxResident)
  }

  /** Files the loop never deletes: top-ranked, ever a candidate, or the dummy. */
  predicate Protected(f: ToRead, top: seq<Path>, everCandidate: set<Path>)
  {
    f.path in top || f.path in everCandidate || f.run.numRun == 1
  }

  /** The deletion only runs when a limit is set and exceeded. */
  predicate DeletionRuns(t: LossTable, maxResident: Option<int>)
  {
    maxResident.Some? && |t| > maxResident.value
  }

  /** The record of a model whose directory was removed. */
  function Evicted(r: LossRecord): LossRecord
  {
    r.(discCost := None, loaded := Deleted, ensLoss := Infinite)
  }

  /** The outcome: updated records and the paths whose run directory is gone. */
  datatype Cleanup = Cleanup(table: LossTable, removed: set<Path>)

  /** The removals the loop performs. With `scoredOnly` false this is the
      source's loop, which removes the directory before it looks the path up
      in `read_losses`; with `scoredOnly` true, files without a record are
      skipped. */
  function Removals(t: LossTable, maxResident: nat, files: seq<ToRead>, everCandidate: set<Path>,
                    deleteOk: Path -> bool, scoredOnly: bool): set<Path>
  {
    var top := TopPaths(t, maxResident);
    set f | f in files && !Protected(f, top, everCandidate) && deleteOk(f.path)
                       && (!scoredOnly || f.path in Keys(t)) :: f.path
  }

  function Apply(t: LossTable, removed: set<Path>): (r: LossTable)
    ensures Keys(r) == Keys(t)
  {
    MapValues(t, (k: Path, v: LossRecord) => if k in removed then Evicted(v) else v)
  }

  function DeleteWith(maxResident: Option<int>, t: LossTable, files: seq<ToRead>, everCandidate: set<Path>,
                      deleteOk: Path -> bool, scoredOnly: bool): (r: Cleanup)
    requires maxResident.Some? ==> maxResident.value >= 0
    ensures !DeletionRuns(t, maxResident) ==> r == Cleanup(t, {})
    ensures Keys(r.table) == Keys(t)
  {
    if !DeletionRuns(t, maxResident) then Cleanup(t, {})
    else
      var removed := Removals(t, maxResident.value, files, everCandidate, deleteOk, scoredOnly);
      Cleanup(Apply(t, removed), removed)
  }

  /** `_delete_excess_models` as written. The protections hold, but a removed
      path need not have a loss record. */
  function DeleteExcessAsWritten(maxResident: Option<int>, t: LossTable, files: seq<ToRead>,
                                 everCandidate: set<Path>, deleteOk: Path -> bool): (r: Cleanup)
    requires maxResident.Some? ==> maxResident.value >= 0
    ensures !DeletionRuns(t, maxResident) ==> r == Cleanup(t, {})
    ensures Keys(r.table) == Keys(t)
    ensures DeletionRuns(t, maxResident) ==>
              && (forall k :: k in TopPaths(t, maxResident.value) ==> k !in r.removed)
              && (forall k :: k in everCandidate ==> k !in r.removed)
              && (forall k :: k in r.removed ==> deleteOk(k))
              && (forall k :: k in r.removed ==> exists f :: f in files && f.path == k && f.run.numRun != 1)
  {
    DeleteWith(maxResident, t, files, everCandidate, deleteOk, false)
  }

  /** `_delete_excess_models` restricted to files that have a loss record. */
  function DeleteExcess(maxResident: Option<int>, t: LossTable, files: seq<ToRead>,
                        everCandidate: set<Path>, deleteOk: Path -> bool): (r: Cleanup)
    requires maxResident.Some? ==> maxResident.value >= 0
    ensures !DeletionRuns(t, maxResident) ==> r == Cleanup(t, {})
    ensures Keys(r.table) == Keys(t)
    ensures forall k :: k in r.removed ==> k in Keys(t)
    ensures DeletionRuns(t, maxResident) ==>
              && (forall k :: k in TopPaths(t, maxResident.value) ==> k !in r.removed)
              && (forall k :: k in everCandidate ==> k !in r.removed)
              && (forall k :: k in r.removed ==> deleteOk(k))
              && (forall k :: k in r.removed ==> exists f :: f in files && f.path == k && f.run.numRun != 1)
  {
    DeleteWith(maxResident, t, files, everCandidate, deleteOk, true)
  }

  /** Exactly which directories go: a listed file is removed iff the limit
      is exceeded, it is not protected, its removal succeeds and it has a
      loss record. */
  lemma DeleteExcessRemoves(maxResident: Option<int>, t: LossTable, files: seq<ToRead>,
                            everCandidate: set<Path>, deleteOk: Path -> bool, f: ToRead)
    requires maxResident.Some? ==> maxResident.value >= 0
    requires f in files
    requires forall g :: g in files && g.path == f.path ==> g == f
    ensures var r := DeleteExcess(maxResident, t, files, everCandidate, deleteOk);
            f.path in r.removed <==>
              && DeletionRuns(t, maxResident)
              && !Protected(f, TopPaths(t, maxResident.value), everCandidate)
              && deleteOk(f.path)
              && f.path in Keys(t)
  {
  }

  /** What happens to the records: a removed model gets no disk cost,
      `loaded` 3 and an infinite loss; every other record is unchanged. */
  lemma DeleteExcessRecords(maxResident: Option<int>, t: LossTable, files: seq<ToRead>,
                            everCandidate: set<Path>, deleteOk: Path -> bool, k: Path)
    requires maxResident.Some? ==> maxResident.value >= 0
    requires k in Keys(t)
    ensures var r := DeleteExcess(maxResident, t, files, everCandidate, deleteOk);
            && (k in r.removed ==> Rec(r.table, k) == Evicted(Rec(t, k)))
            && (k !in r.removed ==> Rec(r.table, k) == Rec(t, k))
  {
    var r := DeleteExcess(maxResident, t, files, everCandidate, deleteOk);
    if DeletionRuns(t, maxResident) {
      var removed := Removals(t, maxResident.value, files, everCandidate, deleteOk, true);
      GetMapValues(t, (k: Path, v: LossRecord) => if k in removed then Evicted(v) else v, k);
    }
  }

  /** As written, a listed file is removed iff the limit is exceeded, it is
      not protected and its removal succeeds, whether or not it has a loss
      record. */
  lemma DeleteExcessAsWrittenRemoves(maxResident: Option<int>, t: LossTable, files: seq<ToRead>,
                                     everCandidate: set<Path>, deleteOk: Path -> bool, f: ToRead)
    requires maxResident.Some? ==> maxResident.value >= 0
    requires f in files
    requires forall g :: g in files && g.path == f.path ==> g == f
    ensures var r := DeleteExcessAsWritten(maxResident, t, files, everCandidate, deleteOk);
            f.path in r.removed <==>
              && DeletionRuns(t, maxResident)
              && !Protected(f, TopPaths(t, maxResident.value), everCandidate)
              && deleteOk(f.path)
  {
  }

  /** As written, the records change as in the corrected loop: a removed
      model that has a record gets no disk cost, `loaded` 3 and an infinite
      loss; every other record is unchanged. */
  lemma DeleteExcessAsWrittenRecords(maxResident: Option<int>, t: LossTable, files: seq<ToRead>,
                                     everCandidate: set<Path>, deleteOk: Path -> bool, k: Path)
    requires maxResident.Some? ==> maxResident.value >= 0
    requires k in Keys(t)
    ensures var r := DeleteExcessAsWritten(maxResident, t, files, everCandidate, deleteOk);
            && (k in r.removed ==> Rec(r.table, k) == Evicted(Rec(t, k)))
            && (k !in r.removed ==> Rec(r.table, k) == Rec(t, k))
  {
    if DeletionRuns(t, maxResident) {
      var removed := Removals(t, maxResident.value, files, everCandidate, deleteOk, false);
      GetMapValues(t, (k: Path, v: LossRecord) => if k in removed then Evicted(v) else v, k);
    }
  }

  /** The source's loop removes the run directory of a listed file that has
      no loss record yet (one the reading loop did not reach because of
      `read_at_most`), and only then fails on the `read_losses` lookup. */
  lemma AsWrittenRemovesUnscored(maxResident: Option<int>, t: LossTable, files: seq<ToRead>,
                                 everCandidate: set<Path>, deleteOk: Path -> bool, f: ToRead)
    requires maxResident.Some? ==> maxResident.value >= 0
    requires DistinctKeys(t)
    requires DeletionRuns(t, maxResident)
    requires f in files && f.path !in Keys(t) && f.path !in everCandidate && f.run.numRun != 1
    requires deleteOk(f.path)
    ensures f.path in DeleteExcessAsWritten(maxResident, t, files, everCandidate, deleteOk).removed
    ensures f.path !in DeleteExcess(maxResident, t, files, everCandidate, deleteOk).removed
  {
    var top := TopPaths(t, maxResident.value);
    RankingPaths(t);
    forall i | 0 <= i < |top| ensures top[i] != f.path {
      assert top[i] == Paths(SortedPreds(t))[i];
      assert top[i] in Keys(t);
    }
    assert !Protected(f, top, everCandidate);
  }

  /** A concrete instance: two scored models, a limit of one, and a third
      listed file that was not read yet. */
  lemma AsWrittenExample()
    ensures var rec := (l: real, n: int) => LossRecord(Finite(l), 1.0, 0.0, 0, n, 0.0, Some(1.0), Dropped);
            var t := [("a", rec(0.1, 2)), ("b", rec(0.2, 3))];
            var files := [ToRead("a", RunId(0, 2, 0.0), 1.0), ToRead("b", RunId(0, 3, 0.0), 1.0),
                          ToRead("c", RunId(0, 4, 0.0), 1.0)];
            "c" in DeleteExcessAsWritten(Some(1), t, files, {}, _ => true).removed
  {
    var rec := (l: real, n: int) => LossRecord(Finite(l), 1.0, 0.0, 0, n, 0.0, Some(1.0), Dropped);
    var t := [("a", rec(0.1, 2)), ("b", rec(0.2, 3))];
    var files := [ToRead("a", RunId(0, 2, 0.0), 1.0), ToRead("b", RunId(0, 3, 0.0), 1.0),
                  ToRead("c", RunId(0, 4, 0.0), 1.0)];
    assert Keys(t) == ["a", "b"];
    assert "c" !in Keys(t);
    AsWrittenRemovesUnscored(Some(1), t, files, {}, _ => true, files[2]);
  }
}

=== FILE: driver.dfy ===
/** The ensemble builder's process-level logic: constructor argument checks,
    the retry loop of `EnsembleBuilder.run` with its memory-degradation
    policy, and the fingerprint check of `fit_ensemble` that skips refitting
    on unchanged data. The sandboxed call of `main`, the clock and the
    greedy ensemble fit are inputs. */
module Driver {
  import opened Common
  import opened Losses
  import opened Records
  import opened Selection

  /* ---------------- constructor validation ---------------- */

  datatype ArgError =
    | NBestBelowOne       // integer ensemble_nbest < 1
    | NBestOutOfRange     // float ensemble_nbest outside [0, 1]
    | NegativeDiscLimit   // max_models_on_disc < 0

  /** The checks of `EnsembleBuilder.__init__`, in their order. */
  function ValidateArgs(nbest: NBest, disc: DiscLimit): (r: Option<ArgError>)
    ensures r.None? <==> ValidNBest(nbest) && ValidDisc(disc) && (nbest.NBestCount? ==> nbest.n >= 1)
    ensures r == Some(NBestBelowOne) <==> nbest.NBestCount? && nbest.n < 1
    ensures r == Some(NBestOutOfRange) <==> nbest.NBestFraction? && !(0.0 <= nbest.f <= 1.0)
    ensures r == Some(NegativeDiscLimit) ==> !ValidDisc(disc)
  {
    match nbest
    case NBestCount(n) =>
      if n < 1 then Some(NBestBelowOne)
      else if !ValidDisc(disc) then Some(NegativeDiscLimit)
      else None
    case NBestFraction(f) =>
      if f < 0.0 || f > 1.0 then Some(NBestOutOfRange)
      else if !ValidDisc(disc) then Some(NegativeDiscLimit)
      else None
  }

  /* ---------------- memory degradation ---------------- */

  /** The new `(ensemble_nbest, read_at_most)` after `main` hit the memory
      limit, and whether `run` returns at once. */
  datatype Degraded = Degraded(nbest: NBest, readAtMost: int, returnNow: bool)

  function Degrade(nbest: NBest, readAtMost: int): (d: Degraded)
    requires ValidNBest(nbest)
    ensures ValidNBest(d.nbest) && d.nbest.NBestCount?
    ensures d.returnNow <==> !(nbest.NBestCount? && nbest.n <= 1)
    ensures nbest.NBestCount? && nbest.n > 1 ==> 1 <= d.nbest.n < nbest.n && d.readAtMost == readAtMost
    ensures nbest.NBestCount? && nbest.n > 1 ==> nbest.n <= 2 * d.nbest.n + 1
    ensures nbest.NBestCount? && nbest.n <= 1 && readAtMost == 1 ==> d == Degraded(NBestCount(0), 1, false)
    ensures nbest.NBestCount? && nbest.n <= 1 && readAtMost != 1 ==> d == Degraded(nbest, 1, false)
    ensures nbest.NBestFraction? ==> d.nbest == NBestCount(0) && d.readAtMost == readAtMost
  {
    match nbest
    case NBestCount(n) =>
      if n <= 1 then
        if readAtMost == 1 then Degraded(NBestCount(0), readAtMost, false)
        else Degraded(nbest, 1, false)
      else Degraded(NBestCount(Max(1, Trunc(n as real / 2.0))), readAtMost, true)
    case NBestFraction(f) =>
      // `int(nbest / 2)` of a fraction in [0, 1] is 0: integer mode from now on
      Degraded(NBestCount(Trunc(f / 2.0)), readAtMost, true)
  }

  /** A measure of how much memory an integer-mode configuration may use. */
  function Pressure(n: int, readAtMost: int): int
  {
    2 * n + (if readAtMost == 1 then 0 else 1)
  }

  /** Every memory failure strictly lowers the pressure of an integer-mode
      configuration until it reaches the floor: no models and one file per
      read. */
  lemma DegradeLowersPressure(n: nat, readAtMost: int)
    requires !(n == 0 && readAtMost == 1)
    ensures var d := Degrade(NBestCount(n), readAtMost);
            0 <= Pressure(d.nbest.n, d.readAtMost) < Pressure(n, readAtMost)
  {
  }

  /** As written, the integer 0 that memory degradation sets (from a
      fraction, or from 1 once `read_at_most` is already 1) is rejected by
      the constructor of the next builder, and within the current one it
      keeps no candidates, so `main` returns before `_delete_excess_models`. */
  lemma DegradedNBestRejected(nbest: NBest, readAtMost: int, disc: DiscLimit, n: nat)
    requires ValidNBest(nbest)
    requires nbest.NBestFraction? || (nbest.NBestCount? && nbest.n <= 1 && readAtMost == 1)
    ensures Degrade(nbest, readAtMost).nbest == NBestCount(0)
    ensures ValidateArgs(Degrade(nbest, readAtMost).nbest, disc) == Some(NBestBelowOne)
    ensures KeepCount(Degrade(nbest, readAtMost).nbest, n) == 0
  {
  }

  /** The constructor check that admits the integer 0 as well: the value
      memory degradation sets, with which the builder is meant to "keep
      running to delete files from disk". */
  function ValidateArgsAdmittingDegraded(nbest: NBest, disc: DiscLimit): (r: Option<ArgError>)
    ensures r.None? <==> ValidNBest(nbest) && ValidDisc(disc)
    ensures r.Some? ==> r == ValidateArgs(nbest, disc)
  {
    if nbest == NBestCount(0) && ValidDisc(disc) then None else ValidateArgs(nbest, disc)
  }

  /** Every configuration memory degradation produces passes that check,
      and so does every argument the constructor accepted. */
  lemma DegradedNBestAdmitted(nbest: NBest, readAtMost: int, disc: DiscLimit)
    requires ValidNBest(nbest) && ValidDisc(disc)
    ensures ValidateArgsAdmittingDegraded(Degrade(nbest, readAtMost).nbest, disc).None?
    ensures ValidateArgs(nbest, disc).None? ==> ValidateArgsAdmittingDegraded(nbest, disc).None?
  {
  }

  /* ---------------- the retry loop of run ---------------- */

  /** One entry of `ensemble_history`. */
  type HistoryEntry = map<string, real>

  /** The part of `main`'s return value the caller uses. */
  datatype RunReturn = RunReturn(history: seq<HistoryEntry>, nbest: NBest)

  /** How `run` was told its time: `time_left` or `end_at`. */
  datatype Clock = TimeLeft(budget: real) | EndAt(deadline: real)

  /** The sandboxed `main` hit the memory limit, or ended with a result
      (None when it failed otherwise). */
  datatype RunOutcome = MemoryOut | Returned(result: Option<RunReturn>)

  /** One pass of the loop: the clock at its top and how `main` ended. */
  datatype Attempt = Attempt(now: real, outcome: RunOutcome)

  /** The loop's result, the configuration it ends with and the wall-time
      limits given to the launched attempts. */
  datatype RunEnd = RunEnd(result: Option<RunReturn>, nbest: NBest, readAtMost: int, walls: seq<int>)

  datatype RunError = NeitherTimeLimit | BothTimeLimits

  /** The time that is really left at `now`. */
  function TrueRemaining(clock: Clock, start: real, now: real): real
  {
    match clock
    case TimeLeft(b) => b - (now - start)
    case EndAt(d) => d - now
  }

  /** The loop. `left` is the local `time_left`: the budget in `time_left`
      mode, None in `end_at` mode until the first pass sets it to
      `end_at - now`. With `cumulative`, as the source does, every pass
      that finds `left` set subtracts the elapsed time since the start from
      it, and `end_at` is consulted only while `left` is None; without it
      every pass measures the time that is really left. A sequence of
      attempts that runs out stands for the deadline passing. */
  function RunLoop(clock: Clock, start: real, buffer: real, cumulative: bool, left: Option<real>,
                   nbest: NBest, readAtMost: int, attempts: seq<Attempt>): (r: RunEnd)
    requires ValidNBest(nbest)
    ensures |r.walls| <= |attempts|
    ensures forall i :: 0 <= i < |r.walls| ==> r.walls[i] >= 1
    ensures !cumulative ==>
              forall i :: 0 <= i < |r.walls| ==>
                r.walls[i] == Trunc(TrueRemaining(clock, start, attempts[i].now) - buffer)
    ensures ValidNBest(r.nbest)
    ensures nbest.NBestCount? ==> r.nbest.NBestCount? && r.nbest.n <= nbest.n
    ensures r.result.Some? && r.result.value.history != [] ==>
              exists i :: 0 <= i < |attempts| && attempts[i].outcome == Returned(r.result)
    decreases |attempts|
  {
    if |attempts| == 0 then RunEnd(Some(RunReturn([], nbest)), nbest, readAtMost, [])
    else
      var a := attempts[0];
      var now :=
        if cumulative && left.Some? then Some(left.value - (a.now - start))
        else match clock
          case TimeLeft(_) => Some(TrueRemaining(clock, start, a.now))
          case EndAt(d) => if a.now > d then None else Some(TrueRemaining(clock, start, a.now));
      if now.None? then RunEnd(Some(RunReturn([], nbest)), nbest, readAtMost, [])
      else
        var wall := Trunc(now.value - buffer);
        if wall < 1 then RunEnd(Some(RunReturn([], nbest)), nbest, readAtMost, [])
        else
          match a.outcome
          case Returned(res) => RunEnd(res, nbest, readAtMost, [wall])
          case MemoryOut =>
            var d := Degrade(nbest, readAtMost);
            if d.returnNow then RunEnd(Some(RunReturn([], d.nbest)), d.nbest, d.readAtMost, [wall])
            else
              var rest := RunLoop(clock, start, buffer, cumulative, Some(now.value), d.nbest, d.readAtMost, attempts[1..]);
              PrependWall(clock, start, buffer, cumulative, wall, rest.walls, attempts);
              ResultFromLater(rest.result, attempts);
              RunEnd(rest.result, rest.nbest, rest.readAtMost, [wall] + rest.walls)
  }

  /** The wall-time facts of `RunLoop` carry over from the later attempts
      to the list with this attempt's limit in front. */
  lemma PrependWall(clock: Clock, start: real, buffer: real, cumulative: bool,
                    wall: int, walls: seq<int>, attempts: seq<Attempt>)
    requires |attempts| > 0 && |walls| <= |attempts| - 1
    requires wall >= 1 && forall i :: 0 <= i < |walls| ==> walls[i] >= 1
    requires !cumulative ==> wall == Trunc(TrueRemaining(clock, start, attempts[0].now) - buffer)
    requires !cumulative ==>
               forall i :: 0 <= i < |walls| ==>
                 walls[i] == Trunc(TrueRemaining(clock, start, attempts[1..][i].now) - buffer)
    ensures |[wall] + walls| <= |attempts|
    ensures forall i :: 0 <= i < |[wall] + walls| ==> ([wall] + walls)[i] >= 1
    ensures !cumulative ==>
              forall i :: 0 <= i < |[wall] + walls| ==>
                ([wall] + walls)[i] == Trunc(TrueRemaining(clock, start, attempts[i].now) - buffer)
  {
    forall i | 1 <= i < |[wall] + walls|
      ensures ([wall] + walls)[i] == walls[i - 1] && attempts[i] == attempts[1..][i - 1]
    {
    }
  }

  /** A result returned by a later attempt is returned by some attempt. */
  lemma ResultFromLater(result: Option<RunReturn>, attempts: seq<Attempt>)
    requires |attempts| > 0
    requires result.Some? && result.value.history != [] ==>
               exists i :: 0 <= i < |attempts[1..]| && attempts[1..][i].outcome == Returned(result)
    ensures result.Some? && result.value.history != [] ==>
              exists i :: 0 <= i < |attempts| && attempts[i].outcome == Returned(result)
  {
    if result.Some? && result.value.history != [] {
      var i :| 0 <= i < |attempts[1..]| && attempts[1..][i].outcome == Returned(result);
      assert attempts[i + 1].outcome == Returned(result);
    }
  }

  /** `EnsembleBuilder.run` as written (`time_buffer` is 5 seconds by default). */
  function RunAsWritten(timeLeft: Option<real>, endAt: Option<real>, start: real, buffer: real,
                        nbest: NBest, readAtMost: int, attempts: seq<Attempt>): (r: Result<RunEnd, RunError>)
    requires ValidNBest(nbest)
    ensures timeLeft.None? && endAt.None? ==> r == Err(NeitherTimeLimit)
    ensures timeLeft.Some? && endAt.Some? ==> r == Err(BothTimeLimits)
    ensures r.Ok? <==> timeLeft.Some? != endAt.Some?
  {
    match (timeLeft, endAt)
    case (None, None) => Err(NeitherTimeLimit)
    case (Some(_), Some(_)) => Err(BothTimeLimits)
    case (Some(b), None) => Ok(RunLoop(TimeLeft(b), start, buffer, true, Some(b), nbest, readAtMost, attempts))
    case (None, Some(d)) => Ok(RunLoop(EndAt(d), start, buffer, true, None, nbest, readAtMost, attempts))
  }

  /** `EnsembleBuilder.run` with `time_left` measured from the original
      budget: every attempt gets the time that is really left. */
  function Run(timeLeft: Option<real>, endAt: Option<real>, start: real, buffer: real,
               nbest: NBest, readAtMost: int, attempts: seq<Attempt>): (r: Result<RunEnd, RunError>)
    requires ValidNBest(nbest)
    ensures timeLeft.None? && endAt.None? ==> r == Err(NeitherTimeLimit)
    ensures timeLeft.Some? && endAt.Some? ==> r == Err(BothTimeLimits)
    ensures r.Ok? <==> timeLeft.Some? != endAt.Some?
    ensures r.Ok? ==>
              var clock := if timeLeft.Some? then TimeLeft(timeLeft.value) else EndAt(endAt.value);
              && |r.value.walls| <= |attempts|
              && forall i :: 0 <= i < |r.value.walls| ==>
                && 1 <= r.value.walls[i]
                && r.value.walls[i] as real <= TrueRemaining(clock, start, attempts[i].now) - buffer
  {
    match (timeLeft, endAt)
    case (None, None) => Err(NeitherTimeLimit)
    case (Some(_), Some(_)) => Err(BothTimeLimits)
    case (Some(b), None) => Ok(RunLoop(TimeLeft(b), start, buffer, false, None, nbest, readAtMost, attempts))
    case (None, Some(d)) => Ok(RunLoop(EndAt(d), start, buffer, false, None, nbest, readAtMost, attempts))
  }

  /** With `time_left` = 100 s, two memory failures at 0 s and 40 s and a
      third attempt at 70 s, the source's running `time_left` is
      100 - 40 - 70 = -10 and the loop gives up, although 30 s are left. */
  lemma RunAsWrittenOverSubtracts()
    ensures var attempts := [Attempt(0.0, MemoryOut), Attempt(40.0, MemoryOut),
                             Attempt(70.0, Returned(Some(RunReturn([map["ensemble_optimization_score" := 0.9]], NBestCount(0)))))];
            && RunAsWritten(Some(100.0), None, 0.0, 5.0, NBestCount(1), 5, attempts).value.walls == [95, 55]
            && RunAsWritten(Some(100.0), None, 0.0, 5.0, NBestCount(1), 5, attempts).value.result
                 == Some(RunReturn([], NBestCount(0)))
            && Run(Some(100.0), None, 0.0, 5.0, NBestCount(1), 5, attempts).value.walls == [95, 55, 25]
            && Run(Some(100.0), None, 0.0, 5.0, NBestCount(1), 5, attempts).value.result
                 == attempts[2].outcome.result
  {
    var attempts := [Attempt(0.0, MemoryOut), Attempt(40.0, MemoryOut),
                     Attempt(70.0, Returned(Some(RunReturn([map["ensemble_optimization_score" := 0.9]], NBestCount(0)))))];
    assert attempts[1..] == [attempts[1], attempts[2]];
    assert attempts[1..][1..] == [attempts[2]];
    assert attempts[1..][1..][1..] == [];
    AsWrittenSteps(attempts);
    CorrectedSteps(attempts);
  }

  lemma AsWrittenSteps(attempts: seq<Attempt>)
    requires |attempts| == 3
    requires attempts[0] == Attempt(0.0, MemoryOut) && attempts[1] == Attempt(40.0, MemoryOut)
    requires attempts[2].now == 70.0
    ensures RunLoop(TimeLeft(100.0), 0.0, 5.0, true, Some(100.0), NBestCount(1), 5, attempts)
            == RunEnd(Some(RunReturn([], NBestCount(0))), NBestCount(0), 1, [95, 55])
  {
    assert Degrade(NBestCount(1), 5) == Degraded(NBestCount(1), 1, false);
    assert Degrade(NBestCount(1), 1) == Degraded(NBestCount(0), 1, false);
    assert Trunc(60.0 - 5.0) == 55 && Trunc(-10.0 - 5.0) == -15;
    var third := RunLoop(TimeLeft(100.0), 0.0, 5.0, true, Some(60.0), NBestCount(0), 1, attempts[2..]);
    assert third == RunEnd(Some(RunReturn([], NBestCount(0))), NBestCount(0), 1, []);
    var second := RunLoop(TimeLeft(100.0), 0.0, 5.0, true, Some(100.0), NBestCount(1), 1, attempts[1..]);
    assert attempts[1..][1..] == attempts[2..];
    assert second == RunEnd(third.result, third.nbest, third.readAtMost, [55] + third.walls);
  }

  lemma CorrectedSteps(attempts: seq<Attempt>)
    requires |attempts| == 3
    requires attempts[0] == Attempt(0.0, MemoryOut) && attempts[1] == Attempt(40.0, MemoryOut)
    requires attempts[2].now == 70.0 && attempts[2].outcome.Returned?
    ensures RunLoop(TimeLeft(100.0), 0.0, 5.0, false, None, NBestCount(1), 5, attempts)
            == RunEnd(attempts[2].outcome.result, NBestCount(0), 1, [95, 55, 25])
  {
    assert Degrade(NBestCount(1), 5) == Degraded(NBestCount(1), 1, false);
    assert Degrade(NBestCount(1), 1) == Degraded(NBestCount(0), 1, false);
    assert Trunc(60.0 - 5.0) == 55 && Trunc(30.0 - 5.0) == 25;
    var third := RunLoop(TimeLeft(100.0), 0.0, 5.0, false, Some(60.0), NBestCount(0), 1, attempts[2..]);
    assert third == RunEnd(attempts[2].outcome.result, NBestCount(0), 1, [25]);
    var second := RunLoop(TimeLeft(100.0), 0.0, 5.0, false, Some(100.0), NBestCount(1), 1, attempts[1..]);
    assert attempts[1..][1..] == attempts[2..];
    assert second == RunEnd(third.result, third.nbest, third.readAtMost, [55] + third.walls);
  }

  /** The same over-subtraction in `end_at` mode, the one the manager uses:
      with `end_at` = 100 s the first pass sets `time_left` to 100, and from
      then on `end_at` is no longer consulted, so the third pass computes
      60 - 70 = -10 and gives up, although 30 s are left. */
  lemma RunAsWrittenOverSubtractsEndAt()
    ensures var attempts := [Attempt(0.0, MemoryOut), Attempt(40.0, MemoryOut),
                             Attempt(70.0, Returned(Some(RunReturn([map["ensemble_optimization_score" := 0.9]], NBestCount(0)))))];
            && RunAsWritten(None, Some(100.0), 0.0, 5.0, NBestCount(1), 5, attempts).value.walls == [95, 55]
            && RunAsWritten(None, Some(100.0), 0.0, 5.0, NBestCount(1), 5, attempts).value.result
                 == Some(RunReturn([], NBestCount(0)))
            && Run(None, Some(100.0), 0.0, 5.0, NBestCount(1), 5, attempts).value.walls == [95, 55, 25]
            && Run(None, Some(100.0), 0.0, 5.0, NBestCount(1), 5, attempts).value.result
                 == attempts[2].outcome.result
  {
    var attempts := [Attempt(0.0, MemoryOut), Attempt(40.0, MemoryOut),
                     Attempt(70.0, Returned(Some(RunReturn([map["ensemble_optimization_score" := 0.9]], NBestCount(0)))))];
    assert attempts[1..] == [attempts[1], attempts[2]];
    assert attempts[1..][1..] == [attempts[2]];
    assert attempts[1..][1..][1..] == [];
    AsWrittenStepsEndAt(attempts);
    CorrectedStepsEndAt(attempts);
  }

  lemma AsWrittenStepsEndAt(attempts: seq<Attempt>)
    requires |attempts| == 3
    requires attempts[0] == Attempt(0.0, MemoryOut) && attempts[1] == Attempt(40.0, MemoryOut)
    requires attempts[2].now == 70.0
    ensures RunLoop(EndAt(100.0), 0.0, 5.0, true, None, NBestCount(1), 5, attempts)
            == RunEnd(Some(RunReturn([], NBestCount(0))), NBestCount(0), 1, [95, 55])
  {
    assert Degrade(NBestCount(1), 5) == Degraded(NBestCount(1), 1, false);
    assert Degrade(NBestCount(1), 1) == Degraded(NBestCount(0), 1, false);
    assert Trunc(100.0 - 5.0) == 95 && Trunc(60.0 - 5.0) == 55 && Trunc(-10.0 - 5.0) == -15;
    var third := RunLoop(EndAt(100.0), 0.0, 5.0, true, Some(60.0), NBestCount(0), 1, attempts[2..]);
    assert third == RunEnd(Some(RunReturn([], NBestCount(0))), NBestCount(0), 1, []);
    var second := RunLoop(EndAt(100.0), 0.0, 5.0, true, Some(100.0), NBestCount(1), 1, attempts[1..]);
    assert attempts[1..][1..] == attempts[2..];
    assert second == RunEnd(third.result, third.nbest, third.readAtMost, [55] + third.walls);
  }

  lemma CorrectedStepsEndAt(attempts: seq<Attempt>)
    requires |attempts| == 3
    requires attempts[0] == Attempt(0.0, MemoryOut) && attempts[1] == Attempt(40.0, MemoryOut)
    requires attempts[2].now == 70.0 && attempts[2].outcome.Returned?
    ensures RunLoop(EndAt(100.0), 0.0, 5.0, false, None, NBestCount(1), 5, attempts)
            == RunEnd(attempts[2].outcome.result, NBestCount(0), 1, [95, 55, 25])
  {
    assert Degrade(NBestCount(1), 5) == Degraded(NBestCount(1), 1, false);
    assert Degrade(NBestCount(1), 1) == Degraded(NBestCount(0), 1, false);
    assert Trunc(100.0 - 5.0) == 95 && Trunc(60.0 - 5.0) == 55 && Trunc(30.0 - 5.0) == 25;
    var third := RunLoop(EndAt(100.0), 0.0, 5.0, false, Some(60.0), NBestCount(0), 1, attempts[2..]);
    assert third == RunEnd(attempts[2].outcome.result, NBestCount(0), 1, [25]);
    var second := RunLoop(EndAt(100.0), 0.0, 5.0, false, Some(100.0), NBestCount(1), 1, attempts[1..]);
    assert attempts[1..][1..] == attempts[2..];
    assert second == RunEnd(third.result, third.nbest, third.readAtMost, [55] + third.walls);
  }

  /* ---------------- fingerprint check of fit_ensemble ---------------- */

  /** What the greedy ensemble fit does: it produces an ensemble with a
      validation performance, or raises ValueError or IndexError (caught). */
  datatype FitOutcome = Fitted(performance: real) | FitValueError | FitIndexError

  datatype FitError =
    | UnitTestMemoryError   // `unit_test` raises MemoryError on purpose
    | MissingPrediction     // a selected model has no cached ensemble array
    | NoOptMetric           // `[...][0]` on an empty list of matching metrics

  /** `last_hash` (None before the first fit) and `validation_performance_`. */
  datatype FitState = FitState(lastHash: Option<seq<int>>, performance: Loss)

  /** The fingerprint of the training data: one checksum per selected array. */
  function Fingerprint(arrays: seq<PredArray>, checksum: PredArray -> int): (h: seq<int>)
    ensures |h| == |arrays|
    ensures forall i :: 0 <= i < |arrays| ==> h[i] == checksum(arrays[i])
  {
    seq(|arrays|, i requires 0 <= i < |arrays| => checksum(arrays[i]))
  }

  predicate AllCached(selected: seq<Path>, preds: PredCache)
  {
    forall k :: k in selected ==> k in preds && preds[k].ens.Some?
  }

  function TrainingArrays(selected: seq<Path>, preds: PredCache): (a: seq<PredArray>)
    requires AllCached(selected, preds)
    ensures |a| == |selected|
    ensures forall i :: 0 <= i < |selected| ==> a[i] == preds[selected[i]].ens.value
  {
    seq(|selected|, i requires 0 <= i < |selected| => preds[selected[i]].ens.value)
  }

  /** `fit_ensemble`: returns the new state and the fitted ensemble's
      performance (None when nothing was fitted). */
  function FitEnsemble(st: FitState, selected: seq<Path>, preds: PredCache, unitTest: bool,
                       hasOptMetric: bool, checksum: PredArray -> int,
                       fit: seq<PredArray> -> FitOutcome): (r: Result<(FitState, Option<real>), FitError>)
    ensures unitTest ==> r == Err(UnitTestMemoryError)
    ensures !unitTest && !AllCached(selected, preds) ==> r == Err(MissingPrediction)
    ensures r.Ok? ==> AllCached(selected, preds)
    ensures r.Ok? ==>
              var h := Fingerprint(TrainingArrays(selected, preds), checksum);
              && r.value.0.lastHash == Some(h)
              && (st.lastHash == Some(h) ==> r.value == (st, None))
    ensures r.Ok? && r.value.1.Some? ==>
              && st.lastHash != r.value.0.lastHash
              && fit(TrainingArrays(selected, preds)) == Fitted(r.value.1.value)
              && r.value.0.performance == MinLoss(st.performance, Finite(r.value.1.value))
    ensures r.Ok? && r.value.1.None? ==> r.value.0.performance == st.performance
    ensures !unitTest && AllCached(selected, preds) ==>
              var arrays := TrainingArrays(selected, preds);
              var h := Fingerprint(arrays, checksum);
              && (st.lastHash == Some(h) ==> r == Ok((st, None)))
              && (st.lastHash != Some(h) ==> (r == Err(NoOptMetric) <==> !hasOptMetric))
              && (st.lastHash != Some(h) && hasOptMetric ==> r.Ok? && (r.value.1.Some? <==> fit(arrays).Fitted?))
  {
    if unitTest then Err(UnitTestMemoryError)
    else if !AllCached(selected, preds) then Err(MissingPrediction)
    else
      var arrays := TrainingArrays(selected, preds);
      var h := Fingerprint(arrays, checksum);
      if st.lastHash == Some(h) then Ok((st, None))
      else
        var st1 := st.(lastHash := Some(h));
        if !hasOptMetric then Err(NoOptMetric)
        else
          match fit(arrays)
          case Fitted(p) => Ok((st1.(performance := MinLoss(st.performance, Finite(p))), Some(p)))
          case FitValueError => Ok((st1, None))
          case FitIndexError => Ok((st1, None))
  }

  /** A second call on the same data fits nothing and changes nothing, even
      when the first fit failed. */
  lemma FitEnsembleSkipsRepeat(st: FitState, selected: seq<Path>, preds: PredCache, unitTest: bool,
                               hasOptMetric: bool, checksum: PredArray -> int, fit: seq<PredArray> -> FitOutcome)
    requires FitEnsemble(st, selected, preds, unitTest, hasOptMetric, checksum, fit).Ok?
    ensures var st1 := FitEnsemble(st, selected, preds, unitTest, hasOptMetric, checksum, fit).value.0;
            FitEnsemble(st1, selected, preds, unitTest, hasOptMetric, checksum, fit) == Ok((st1, None))
  {
  }
}

=== FILE: losses.dfy ===
/** Losses are floating-point numbers that may be `np.inf` (a model that
    could not be read or was deleted). They are modelled as the reals
    extended with +infinity; NaN is not modelled. Smaller is better. */
module Losses {
  import opened Common

  datatype Loss = Finite(value: real) | Infinite

  /** `a < b` on extended reals. */
  predicate Less(a: Loss, b: Loss)
  {
    match (a, b)
    case (Finite(x), Finite(y)) => x < y
    case (Finite(_), Infinite) => true
    case (Infinite, _) => false
  }

  /** `a <= b` on extended reals. */
  predicate AtMost(a: Loss, b: Loss)
  {
    a == b || Less(a, b)
  }

  /** `min(a, b)` as Python computes it: the first argument on ties. */
  function MinLoss(a: Loss, b: Loss): (r: Loss)
    ensures AtMost(r, a) && AtMost(r, b)
    ensures r == a || r == b
  {
    if Less(b, a) then b else a
  }

  lemma LessIsStrictOrder(a: Loss, b: Loss, c: Loss)
    ensures !Less(a, a)
    ensures Less(a, b) ==> !Less(b, a)
    ensures Less(a, b) && Less(b, c) ==> Less(a, c)
    ensures a == b || Less(a, b) || Less(b, a)
  {
  }

  /** The cut-off of the performance-range pruning,
      `worst - (worst - best) * t`, evaluated in IEEE arithmetic:
      `None` stands for the NaN produced by `inf - inf`. */
  function RangeCutoff(worst: Loss, best: Loss, t: real): Option<Loss>
    requires t > 0.0
  {
    match (worst, best)
    case (Finite(w), Finite(b)) => Some(Finite(w - (w - b) * t))
    case (Finite(_), Infinite) => Some(Infinite)   // w - (-inf) * t == +inf
    case (Infinite, _) => None                     // inf - inf
  }
}

=== FILE: reading.dfy ===
/** Scoring new prediction files, `EnsembleBuilder.compute_loss_per_model`:
    the globbed ensemble-split prediction files are parsed, ordered by run
    number and visited in that order; each file not seen before (or changed
    since) gets its loss, modification time and disk cost recorded. Reading
    stops once `read_at_most` files have been scored. File contents, the
    metric and the disk are abstracted into one `evaluate` parameter. */
module Reading {
  import opened Common
  import opened Losses
  import opened Sorting
  import opened Records
  import opened Selection

  /** The `(seed, num_run, budget)` groups of `MODEL_FN_RE`. */
  datatype RunId = RunId(seed: int, numRun: int, budget: real)

  /** One globbed path, its parse (None when the pattern does not match)
      and its current modification time. */
  datatype FoundFile = FoundFile(path: Path, run: Option<RunId>, mtime: real)

  /** A parsed entry of `to_read`. */
  datatype ToRead = ToRead(path: Path, run: RunId, mtime: real)

  /** What reading and scoring one file gives: the array or the loss could
      not be computed; the loss was computed but the disk cost could not be;
      or both succeeded (the cost in MB). */
  datatype ReadOutcome = ReadFailed | CostFailed(loss: Loss) | ReadOk(loss: Loss, costMb: real)

  datatype ReadError =
    | NoTargets                    // no ensemble targets yet: returns False
    | NoFiles                      // no prediction file yet: returns False
    | MalformedFileName(path: Path) // ValueError("Could not interpret file ...")

  /** The builder state after a successful scan. */
  datatype ReadState = ReadState(
    table: LossTable,
    preds: PredCache,
    ensFiles: seq<ToRead>, // `self.y_ens_files`, parsed, in glob order
    order: seq<ToRead>,    // `to_read` sorted by run number
    visited: nat,          // how many entries of `order` the loop reached
    scored: nat)            // `n_read_files`

  predicate IsNpy(p: Path)
  {
    EndsWith(p, ".npy") || EndsWith(p, ".npy.gz")
  }

  /** Parse every file name; the first that does not match raises. */
  function ParseAll(found: seq<FoundFile>): (r: Result<seq<ToRead>, ReadError>)
    ensures r.Ok? <==> forall i :: 0 <= i < |found| ==> found[i].run.Some?
    ensures r.Ok? ==> |r.value| == |found|
    ensures r.Ok? ==>
              forall i :: 0 <= i < |found| ==>
                r.value[i] == ToRead(found[i].path, found[i].run.value, found[i].mtime)
    ensures r.Err? ==>
              exists i :: && 0 <= i < |found| && found[i].run.None? && r.error == MalformedFileName(found[i].path)
                          && forall j :: 0 <= j < i ==> found[j].run.Some?
  {
    if |found| == 0 then Ok([])
    else
      match found[0].run
      case None => Err(MalformedFileName(found[0].path))
      case Some(id) =>
        var rest := ParseAll(found[1..]);
        assert forall i :: 1 <= i < |found| ==> found[i] == found[1..][i - 1];
        match rest
        case Err(e) => Err(e)
        case Ok(tail) => Ok([ToRead(found[0].path, id, found[0].mtime)] + tail)
  }

  predicate NumRunLe(a: ToRead, b: ToRead)
  {
    a.run.numRun <= b.run.numRun
  }

  lemma NumRunLeIsTotalPreorder()
    ensures TotalPreorder(NumRunLe)
  {
  }

  /** The record created for a file seen for the first time. */
  function FreshRecord(id: RunId): LossRecord
  {
    LossRecord(Infinite, 0.0, 0.0, id.seed, id.numRun, id.budget, None, NotLoaded)
  }

  /** The record as it stands when the file is visited: the table's, or a
      fresh one. */
  function Current(t: LossTable, f: ToRead): LossRecord
  {
    match Get(t, f.path)
    case Some(r) => r
    case None => FreshRecord(f.run)
  }

  /** The record after the visit of `f`, from the record `rec` before it. */
  function Scored(rec: LossRecord, f: ToRead, outcome: ReadOutcome): LossRecord
  {
    match outcome
    case ReadFailed => rec.(ensLoss := Infinite)
    case CostFailed(_) => rec.(ensLoss := Infinite, mtimeEns := f.mtime, loaded := Dropped)
    case ReadOk(l, c) => rec.(ensLoss := l, mtimeEns := f.mtime, loaded := Dropped, discCost := Some(c))
  }

  /** One iteration of the loop: returns the new table and cache, and
      whether `n_read_files` grows. */
  function Visit(f: ToRead, t: LossTable, preds: PredCache, evaluate: Path -> ReadOutcome)
    : (r: (LossTable, PredCache, bool))
    ensures !IsNpy(f.path) ==> r == (t, preds, false)
    ensures IsNpy(f.path) ==>
              && Keys(r.0) == (if f.path in Keys(t) then Keys(t) else Keys(t) + [f.path])
              && r.1.Keys == preds.Keys + {f.path}
              && (f.path in preds ==> r.1[f.path] == preds[f.path])
              && (f.path !in preds ==> r.1[f.path] == Preds(None, None))
    ensures forall k :: k != f.path ==> Get(r.0, k) == Get(t, k) && (k in preds ==> r.1[k] == preds[k])
    ensures DistinctKeys(t) ==> DistinctKeys(r.0)
    ensures IsNpy(f.path) && Current(t, f).mtimeEns == f.mtime ==>
              Get(r.0, f.path) == Some(Current(t, f)) && !r.2
    ensures IsNpy(f.path) && Current(t, f).mtimeEns != f.mtime ==>
              && Get(r.0, f.path) == Some(Scored(Current(t, f), f, evaluate(f.path)))
              && (r.2 <==> evaluate(f.path).ReadOk?)
  {
    if !IsNpy(f.path) then (t, preds, false)
    else
      var rec := Current(t, f);
      var t1 := Put(t, f.path, rec);
      var p1 := if f.path in preds then preds else preds[f.path := Preds(None, None)];
      if rec.mtimeEns == f.mtime then (t1, p1, false)
      else
        var outcome := evaluate(f.path);
        (Put(t1, f.path, Scored(rec, f, outcome)), p1, outcome.ReadOk?)
  }

  /** The state of the loop after some files. */
  datatype Scan = Scan(table: LossTable, preds: PredCache, visited: nat, scored: nat)

  /** The loop over the ordered files; `scored` counts the files scored so
      far. `limit` is `read_at_most`, where 0 (or None) means no limit. */
  function ReadLoop(files: seq<ToRead>, t: LossTable, preds: PredCache, limit: int, scored: nat, evaluate: Path -> ReadOutcome)
    : (r: Scan)
    ensures r.visited <= |files|
    ensures scored <= r.scored <= scored + r.visited
    ensures limit != 0 && scored <= limit ==> r.scored <= limit
    ensures r.visited < |files| ==> limit != 0 && r.scored >= limit
    decreases |files|
  {
    if |files| == 0 then Scan(t, preds, 0, scored)
    else if limit != 0 && scored >= limit then Scan(t, preds, 0, scored)
    else
      var (t1, p1, counted) := Visit(files[0], t, preds, evaluate);
      var rest := ReadLoop(files[1..], t1, p1, limit, if counted then scored + 1 else scored, evaluate);
      Scan(rest.table, rest.preds, rest.visited + 1, rest.scored)
  }

  /** None of the first `n` files is `k`. */
  predicate Untouched(files: seq<ToRead>, n: nat, k: Path)
  {
    forall i :: 0 <= i < n && i < |files| ==> files[i].path != k
  }

  /** The loop changes only the records and cache entries of the files it
      reached. */
  lemma {:induction false} ReadLoopFrame(files: seq<ToRead>, t: LossTable, preds: PredCache, limit: int, scored: nat, evaluate: Path -> ReadOutcome)
    ensures var r := ReadLoop(files, t, preds, limit, scored, evaluate);
            forall k :: Untouched(files, r.visited, k) ==>
              && Get(r.table, k) == Get(t, k)
              && (k in r.preds <==> k in preds)
              && (k in preds ==> r.preds[k] == preds[k])
    decreases |files|
  {
    if |files| > 0 && !(limit != 0 && scored >= limit) {
      var r := ReadLoop(files, t, preds, limit, scored, evaluate);
      var (t1, p1, counted) := Visit(files[0], t, preds, evaluate);
      var next := if counted then scored + 1 else scored;
      ReadLoopFrame(files[1..], t1, p1, limit, next, evaluate);
      var rest := ReadLoop(files[1..], t1, p1, limit, next, evaluate);
      assert r.visited == rest.visited + 1;
      forall k | Untouched(files, r.visited, k)
        ensures Untouched(files[1..], rest.visited, k) && k != files[0].path
      {
        forall i | 0 <= i < rest.visited && i < |files[1..]|
          ensures files[1..][i].path != k
        {
          assert files[1..][i] == files[i + 1];
        }
      }
    }
  }

  function ReadPath(f: ToRead): Path { f.path }

  /** Whether visiting `f` against `t` grows `n_read_files`: a `.npy` file
      whose modification time changed and whose read and cost succeeded. */
  predicate Counts(f: ToRead, t: LossTable, evaluate: Path -> ReadOutcome)
  {
    IsNpy(f.path) && Current(t, f).mtimeEns != f.mtime && evaluate(f.path).ReadOk?
  }

  /** How many of the first `n` files count against `t`. */
  function CountScored(files: seq<ToRead>, n: nat, t: LossTable, evaluate: Path -> ReadOutcome): nat
    decreases n
  {
    if n == 0 || |files| == 0 then 0
    else (if Counts(files[0], t, evaluate) then 1 else 0) + CountScored(files[1..], n - 1, t, evaluate)
  }

  lemma VisitCounts(f: ToRead, t: LossTable, preds: PredCache, evaluate: Path -> ReadOutcome)
    ensures Visit(f, t, preds, evaluate).2 == Counts(f, t, evaluate)
  {
  }

  /** A visit depends only on the visited file's own record. */
  lemma VisitLocal(f: ToRead, t: LossTable, preds: PredCache, t': LossTable, preds': PredCache, evaluate: Path -> ReadOutcome)
    requires Get(t, f.path) == Get(t', f.path)
    ensures Get(Visit(f, t, preds, evaluate).0, f.path) == Get(Visit(f, t', preds', evaluate).0, f.path)
  {
    assert Current(t, f) == Current(t', f);
  }

  lemma {:induction false} CountScoredLocal(files: seq<ToRead>, n: nat, t: LossTable, t': LossTable, evaluate: Path -> ReadOutcome)
    requires forall j :: 0 <= j < |files| ==> Get(t, files[j].path) == Get(t', files[j].path)
    ensures CountScored(files, n, t, evaluate) == CountScored(files, n, t', evaluate)
    decreases n
  {
    if n > 0 && |files| > 0 {
      assert Current(t, files[0]) == Current(t', files[0]);
      assert forall j :: 0 <= j < |files[1..]| ==> files[1..][j] == files[j + 1];
      CountScoredLocal(files[1..], n - 1, t, t', evaluate);
    }
  }

  /** What the loop does to each file it reaches, for a listing without
      repeated paths: the file's record ends as one visit against the
      initial table would leave it (loss and modification time when read,
      infinite loss when the read fails, unchanged when the modification
      time is unchanged), and the counter grows by exactly the files whose
      read and cost succeeded. */
  lemma ReadLoopVisits(files: seq<ToRead>, t: LossTable, preds: PredCache, limit: int, scored: nat, evaluate: Path -> ReadOutcome)
    requires DistinctBy(files, ReadPath)
    ensures var r := ReadLoop(files, t, preds, limit, scored, evaluate);
            && (forall i :: 0 <= i < r.visited ==>
                  Get(r.table, files[i].path) == Get(Visit(files[i], t, preds, evaluate).0, files[i].path))
            && r.scored == scored + CountScored(files, r.visited, t, evaluate)
  {
    ReadLoopRecords(files, t, preds, limit, scored, evaluate);
    ReadLoopCounts(files, t, preds, limit, scored, evaluate);
  }

  /** Later files of a listing without repeated paths keep the record they
      had before the first file's visit. */
  lemma VisitFirstFrame(files: seq<ToRead>, t: LossTable, preds: PredCache, evaluate: Path -> ReadOutcome)
    requires |files| > 0 && DistinctBy(files, ReadPath)
    ensures var tail := files[1..];
            && DistinctBy(tail, ReadPath)
            && forall j :: 0 <= j < |tail| ==>
                 && tail[j].path != files[0].path
                 && Get(Visit(files[0], t, preds, evaluate).0, tail[j].path) == Get(t, tail[j].path)
  {
    var tail := files[1..];
    forall j | 0 <= j < |tail|
      ensures tail[j].path != files[0].path
    {
      assert tail[j] == files[j + 1];
      assert ReadPath(files[0]) != ReadPath(files[j + 1]);
    }
    forall i, j | 0 <= i < j < |tail| ensures ReadPath(tail[i]) != ReadPath(tail[j]) {
      assert tail[i] == files[i + 1] && tail[j] == files[j + 1];
    }
  }

  lemma {:induction false} ReadLoopRecords(files: seq<ToRead>, t: LossTable, preds: PredCache, limit: int, scored: nat, evaluate: Path -> ReadOutcome)
    requires DistinctBy(files, ReadPath)
    ensures var r := ReadLoop(files, t, preds, limit, scored, evaluate);
            forall i :: 0 <= i < r.visited ==>
              Get(r.table, files[i].path) == Get(Visit(files[i], t, preds, evaluate).0, files[i].path)
    decreases |files|
  {
    if |files| > 0 && !(limit != 0 && scored >= limit) {
      var v := Visit(files[0], t, preds, evaluate);
      VisitFirstFrame(files, t, preds, evaluate);
      ReadLoopRecords(files[1..], v.0, v.1, limit, if v.2 then scored + 1 else scored, evaluate);
      ReadLoopRecordsStep(files, t, preds, limit, scored, evaluate);
    }
  }

  lemma ReadLoopRecordsStep(files: seq<ToRead>, t: LossTable, preds: PredCache, limit: int, scored: nat, evaluate: Path -> ReadOutcome)
    requires |files| > 0 && !(limit != 0 && scored >= limit) && DistinctBy(files, ReadPath)
    requires var v := Visit(files[0], t, preds, evaluate);
             var tail := files[1..];
             var rest := ReadLoop(tail, v.0, v.1, limit, if v.2 then scored + 1 else scored, evaluate);
             forall i :: 0 <= i < rest.visited ==>
               Get(rest.table, tail[i].path) == Get(Visit(tail[i], v.0, v.1, evaluate).0, tail[i].path)
    ensures var r := ReadLoop(files, t, preds, limit, scored, evaluate);
            forall i :: 0 <= i < r.visited ==>
              Get(r.table, files[i].path) == Get(Visit(files[i], t, preds, evaluate).0, files[i].path)
  {
    var v := Visit(files[0], t, preds, evaluate);
    var next := if v.2 then scored + 1 else scored;
    var tail := files[1..];
    var rest := ReadLoop(tail, v.0, v.1, limit, next, evaluate);
    var r := ReadLoop(files, t, preds, limit, scored, evaluate);
    ReadLoopStep(files, t, preds, limit, scored, evaluate);
    VisitFirstFrame(files, t, preds, evaluate);
    // Later visits do not touch the first file's record.
    ReadLoopFrame(tail, v.0, v.1, limit, next, evaluate);
    assert Untouched(tail, rest.visited, files[0].path);
    forall i | 0 <= i < r.visited
      ensures Get(r.table, files[i].path) == Get(Visit(files[i], t, preds, evaluate).0, files[i].path)
    {
      if i > 0 {
        assert files[i] == tail[i - 1];
        VisitLocal(files[i], v.0, v.1, t, preds, evaluate);
      }
    }
  }

  lemma {:induction false} ReadLoopCounts(files: seq<ToRead>, t: LossTable, preds: PredCache, limit: int, scored: nat, evaluate: Path -> ReadOutcome)
    requires DistinctBy(files, ReadPath)
    ensures var r := ReadLoop(files, t, preds, limit, scored, evaluate);
            r.scored == scored + CountScored(files, r.visited, t, evaluate)
    decreases |files|
  {
    if |files| > 0 && !(limit != 0 && scored >= limit) {
      var v := Visit(files[0], t, preds, evaluate);
      VisitFirstFrame(files, t, preds, evaluate);
      ReadLoopCounts(files[1..], v.0, v.1, limit, if v.2 then scored + 1 else scored, evaluate);
      ReadLoopCountsStep(files, t, preds, limit, scored, evaluate);
    }
  }

  lemma ReadLoopCountsStep(files: seq<ToRead>, t: LossTable, preds: PredCache, limit: int, scored: nat, evaluate: Path -> ReadOutcome)
    requires |files| > 0 && !(limit != 0 && scored >= limit) && DistinctBy(files, ReadPath)
    requires var v := Visit(files[0], t, preds, evaluate);
             var rest := ReadLoop(files[1..], v.0, v.1, limit, if v.2 then scored + 1 else scored, evaluate);
             rest.scored == (if v.2 then scored + 1 else scored) + CountScored(files[1..], rest.visited, v.0, evaluate)
    ensures var r := ReadLoop(files, t, preds, limit, scored, evaluate);
            r.scored == scored + CountScored(files, r.visited, t, evaluate)
  {
    var v := Visit(files[0], t, preds, evaluate);
    var tail := files[1..];
    var rest := ReadLoop(tail, v.0, v.1, limit, if v.2 then scored + 1 else scored, evaluate);
    assert CountScored(tail, rest.visited, v.0, evaluate) == CountScored(tail, rest.visited, t, evaluate) by {
      VisitFirstFrame(files, t, preds, evaluate);
      CountScoredLocal(tail, rest.visited, v.0, t, evaluate);
    }
    VisitCounts(files[0], t, preds, evaluate);
    ReadLoopStep(files, t, preds, limit, scored, evaluate);
    CountScoredCons(files, rest.visited + 1, t, evaluate);
  }

  /** One unfolding of the loop. */
  lemma ReadLoopStep(files: seq<ToRead>, t: LossTable, preds: PredCache, limit: int, scored: nat, evaluate: Path -> ReadOutcome)
    requires |files| > 0 && !(limit != 0 && scored >= limit)
    ensures var v := Visit(files[0], t, preds, evaluate);
            var rest := ReadLoop(files[1..], v.0, v.1, limit, if v.2 then scored + 1 else scored, evaluate);
            ReadLoop(files, t, preds, limit, scored, evaluate) == Scan(rest.table, rest.preds, rest.visited + 1, rest.scored)
  {
  }

  lemma CountScoredCons(files: seq<ToRead>, n: nat, t: LossTable, evaluate: Path -> ReadOutcome)
    requires n > 0 && |files| > 0
    ensures CountScored(files, n, t, evaluate)
         == (if Counts(files[0], t, evaluate) then 1 else 0) + CountScored(files[1..], n - 1, t, evaluate)
  {
  }

  /** No record is lost and keys stay distinct. */
  lemma {:induction false} ReadLoopKeys(files: seq<ToRead>, t: LossTable, preds: PredCache, limit: int, scored: nat, evaluate: Path -> ReadOutcome)
    ensures var r := ReadLoop(files, t, preds, limit, scored, evaluate);
            && (forall k :: k in Keys(t) ==> k in Keys(r.table))
            && (DistinctKeys(t) ==> DistinctKeys(r.table))
    decreases |files|
  {
    if |files| > 0 && !(limit != 0 && scored >= limit) {
      var (t1, p1, counted) := Visit(files[0], t, preds, evaluate);
      var next := if counted then scored + 1 else scored;
      ReadLoopKeys(files[1..], t1, p1, limit, next, evaluate);
    }
  }

  /** Every record the loop creates gets a cache entry. */
  lemma {:induction false} ReadLoopCovers(files: seq<ToRead>, t: LossTable, preds: PredCache, limit: int, scored: nat, evaluate: Path -> ReadOutcome)
    ensures var r := ReadLoop(files, t, preds, limit, scored, evaluate);
            CacheCovers(t, preds) ==> CacheCovers(r.table, r.preds)
    decreases |files|
  {
    if |files| > 0 && !(limit != 0 && scored >= limit) {
      var (t1, p1, counted) := Visit(files[0], t, preds, evaluate);
      var next := if counted then scored + 1 else scored;
      assert CacheCovers(t, preds) ==> CacheCovers(t1, p1);
      ReadLoopCovers(files[1..], t1, p1, limit, next, evaluate);
    }
  }

  function IsNpyFile(g: FoundFile): bool { IsNpy(g.path) }

  /** The entries parsed from the `.npy` / `.npy.gz` files of a listing. */
  predicate ParsedFrom(globbed: seq<FoundFile>, f: ToRead)
  {
    exists i :: 0 <= i < |globbed| && IsNpy(globbed[i].path) && globbed[i].run.Some? &&
                f == ToRead(globbed[i].path, globbed[i].run.value, globbed[i].mtime)
  }

  /** Every `.npy` / `.npy.gz` name of the listing matches the pattern. */
  predicate NpyNamesParse(globbed: seq<FoundFile>)
  {
    forall i :: 0 <= i < |globbed| && IsNpy(globbed[i].path) ==> globbed[i].run.Some?
  }

  lemma NpyFilesNamed(globbed: seq<FoundFile>, npy: seq<FoundFile>)
    requires npy == Filter(globbed, IsNpyFile)
    requires forall j :: 0 <= j < |npy| ==> npy[j].run.Some?
    ensures NpyNamesParse(globbed)
  {
    forall i | 0 <= i < |globbed| && IsNpy(globbed[i].path) ensures globbed[i].run.Some? {
      assert IsNpyFile(globbed[i]);
      assert globbed[i] in npy;
      var j :| 0 <= j < |npy| && npy[j] == globbed[i];
    }
  }

  lemma ParsedNpyFiles(globbed: seq<FoundFile>)
    requires ParseAll(Filter(globbed, IsNpyFile)).Ok?
    ensures NpyNamesParse(globbed)
    ensures forall f :: f in ParseAll(Filter(globbed, IsNpyFile)).value <==> ParsedFrom(globbed, f)
  {
    var npy := Filter(globbed, IsNpyFile);
    var parsed := ParseAll(npy).value;
    assert |parsed| == |npy|;
    assert forall j :: 0 <= j < |npy| ==> npy[j].run.Some? && parsed[j] == ToRead(npy[j].path, npy[j].run.value, npy[j].mtime);
    ParsedNamed(globbed, npy, parsed);
    NpyFilesNamed(globbed, npy);
  }

  lemma ParsedNamed(globbed: seq<FoundFile>, npy: seq<FoundFile>, parsed: seq<ToRead>)
    requires npy == Filter(globbed, IsNpyFile)
    requires |parsed| == |npy|
    requires forall j :: 0 <= j < |npy| ==> npy[j].run.Some? && parsed[j] == ToRead(npy[j].path, npy[j].run.value, npy[j].mtime)
    ensures forall f :: f in parsed <==> ParsedFrom(globbed, f)
  {
    forall f ensures f in parsed <==> ParsedFrom(globbed, f) {
      if f in parsed {
        var j :| 0 <= j < |parsed| && parsed[j] == f;
        ParsedIsFound(globbed, npy, parsed, j);
      }
      if ParsedFrom(globbed, f) {
        FoundIsParsed(globbed, npy, parsed, f);
      }
    }
  }

  lemma ParsedIsFound(globbed: seq<FoundFile>, npy: seq<FoundFile>, parsed: seq<ToRead>, j: int)
    requires npy == Filter(globbed, IsNpyFile)
    requires |parsed| == |npy| && 0 <= j < |npy|
    requires npy[j].run.Some? && parsed[j] == ToRead(npy[j].path, npy[j].run.value, npy[j].mtime)
    ensures ParsedFrom(globbed, parsed[j])
  {
    assert npy[j] in globbed && IsNpyFile(npy[j]);
    var i :| 0 <= i < |globbed| && globbed[i] == npy[j];
  }

  lemma FoundIsParsed(globbed: seq<FoundFile>, npy: seq<FoundFile>, parsed: seq<ToRead>, f: ToRead)
    requires npy == Filter(globbed, IsNpyFile)
    requires |parsed| == |npy|
    requires forall j :: 0 <= j < |npy| ==> npy[j].run.Some? && parsed[j] == ToRead(npy[j].path, npy[j].run.value, npy[j].mtime)
    requires ParsedFrom(globbed, f)
    ensures f in parsed
  {
    var i :| 0 <= i < |globbed| && IsNpy(globbed[i].path) && globbed[i].run.Some? &&
             f == ToRead(globbed[i].path, globbed[i].run.value, globbed[i].mtime);
    assert IsNpyFile(globbed[i]);
    assert globbed[i] in npy;
    var j :| 0 <= j < |npy| && npy[j] == globbed[i];
    assert parsed[j] == f;
  }

  lemma NamesParseGivesOk(globbed: seq<FoundFile>)
    requires NpyNamesParse(globbed)
    ensures ParseAll(Filter(globbed, IsNpyFile)).Ok?
  {
    var npy := Filter(globbed, IsNpyFile);
    forall j | 0 <= j < |npy| ensures npy[j].run.Some? {
      assert npy[j] in globbed;
      var i :| 0 <= i < |globbed| && globbed[i] == npy[j];
      assert IsNpyFile(npy[j]);
    }
  }

  /** `compute_loss_per_model`. */
  function ComputeLossPerModel(
    targetsFound: bool, globbed: seq<FoundFile>, t: LossTable, preds: PredCache,
    readAtMost: int, evaluate: Path -> ReadOutcome)
    : (r: Result<ReadState, ReadError>)
    ensures !targetsFound ==> r == Err(NoTargets)
    ensures targetsFound && (forall i :: 0 <= i < |globbed| ==> !IsNpy(globbed[i].path)) ==> r == Err(NoFiles)
    ensures targetsFound && (exists i :: 0 <= i < |globbed| && IsNpy(globbed[i].path)) ==>
              (r.Ok? <==> NpyNamesParse(globbed))
    ensures r.Err? && r.error.MalformedFileName? ==> !NpyNamesParse(globbed)
    ensures r.Ok? ==>
              && targetsFound
              && (forall f :: f in r.value.ensFiles <==> ParsedFrom(globbed, f))
              && multiset(r.value.order) == multiset(r.value.ensFiles)
    ensures r.Ok? ==>
              && SortedBy(r.value.order, NumRunLe)
              && r.value.visited <= |r.value.order|
              && (readAtMost != 0 ==> r.value.scored <= Max(readAtMost, 0))
              && (r.value.visited < |r.value.order| ==> readAtMost != 0 && r.value.scored >= readAtMost)
    ensures r.Ok? ==> forall k :: k in Keys(t) ==> k in Keys(r.value.table)
    ensures r.Ok? ==> forall k :: Untouched(r.value.order, r.value.visited, k) ==>
              Get(r.value.table, k) == Get(t, k)
    ensures r.Ok? && DistinctKeys(t) ==> DistinctKeys(r.value.table)
    ensures r.Ok? && CacheCovers(t, preds) ==> CacheCovers(r.value.table, r.value.preds)
  {
    if !targetsFound then Err(NoTargets)
    else
      var npy := Filter(globbed, IsNpyFile);
      if |npy| == 0 then
        assert forall g :: g in globbed ==> !IsNpy(g.path);
        Err(NoFiles)
      else
        assert exists i :: 0 <= i < |globbed| && IsNpy(globbed[i].path) by {
          assert npy[0] in globbed;
        }
        match ParseAll(npy)
        case Err(e) =>
          assert !NpyNamesParse(globbed) by {
            if NpyNamesParse(globbed) { NamesParseGivesOk(globbed); }
          }
          Err(e)
        case Ok(parsed) =>
          NumRunLeIsTotalPreorder();
          var order := Sort(parsed, NumRunLe);
          var s := ReadLoop(order, t, preds, readAtMost, 0, evaluate);
          ReadLoopFrame(order, t, preds, readAtMost, 0, evaluate);
          ReadLoopKeys(order, t, preds, readAtMost, 0, evaluate);
          ReadLoopCovers(order, t, preds, readAtMost, 0, evaluate);
          ParsedNpyFiles(globbed);
          Ok(ReadState(s.table, s.preds, parsed, order, s.visited, s.scored))
  }

  function FoundPath(g: FoundFile): Path { g.path }

  /** The loop of `compute_loss_per_model` over the ordered files, for a
      listing without repeated paths (one glob of one directory): each file
      it reached ends with the record one visit against the initial table
      gives it, and `n_read_files` is the number of reached files that
      count. */
  lemma {:induction false} ComputeLossPerModelVisits(
    targetsFound: bool, globbed: seq<FoundFile>, t: LossTable, preds: PredCache,
    readAtMost: int, evaluate: Path -> ReadOutcome)
    requires DistinctBy(globbed, FoundPath)
    ensures var r := ComputeLossPerModel(targetsFound, globbed, t, preds, readAtMost, evaluate);
            r.Ok? ==>
              && (forall i :: 0 <= i < r.value.visited ==>
                    Get(r.value.table, r.value.order[i].path)
                      == Get(Visit(r.value.order[i], t, preds, evaluate).0, r.value.order[i].path))
              && r.value.scored == CountScored(r.value.order, r.value.visited, t, evaluate)
  {
    var r := ComputeLossPerModel(targetsFound, globbed, t, preds, readAtMost, evaluate);
    if r.Ok? {
      var npy := Filter(globbed, IsNpyFile);
      var parsed := ParseAll(npy).value;
      FilterKeepsDistinct(globbed, IsNpyFile, FoundPath);
      assert DistinctBy(parsed, ReadPath) by {
        forall i, j | 0 <= i < j < |parsed| ensures ReadPath(parsed[i]) != ReadPath(parsed[j]) {
          assert ReadPath(parsed[i]) == FoundPath(npy[i]) && ReadPath(parsed[j]) == FoundPath(npy[j]);
        }
      }
      NumRunLeIsTotalPreorder();
      SortKeepsDistinct(parsed, NumRunLe, ReadPath);
      ReadLoopVisits(Sort(parsed, NumRunLe), t, preds, readAtMost, 0, evaluate);
    }
  }
}

=== FILE: records.dfy ===
/** The ensemble builder's bookkeeping: the loss record kept per prediction
    file (`read_losses`), the in-memory prediction cache (`read_preds`), and
    the ranking of records by loss (`_get_list_of_sorted_preds`). */
module Records {
  import opened Common
  import opened Losses
  import opened Sorting

  /** Path of an ensemble-split prediction file; it identifies the model. */
  type Path = string

  /** The `loaded` field: 0 not loaded, 1 loaded and in memory, 2 loaded but
      dropped again, 3 deleted from disk because of the disk budget. */
  datatype LoadState = NotLoaded | Loaded | Dropped | Deleted

  /** One entry of `read_losses`. Modification times are change tokens only. */
  datatype LossRecord = LossRecord(
    ensLoss: Loss,
    mtimeEns: real,
    mtimeTest: real,
    seed: int,
    numRun: int,
    budget: real,
    discCost: Option<real>,
    loaded: LoadState)

  /** `read_losses`: an insertion-ordered dictionary from path to record. */
  type LossTable = seq<(Path, LossRecord)>

  /** A decoded prediction array (its numeric contents are not interpreted). */
  type PredArray = seq<real>

  /** One entry of `read_preds`: the cached ensemble-split and test-split arrays. */
  datatype Preds = Preds(ens: Option<PredArray>, test: Option<PredArray>)

  type PredCache = map<Path, Preds>

  /** One element of the ranking: the tuple `(path, ens_loss, num_run)`. */
  datatype Ranked = Ranked(path: Path, loss: Loss, numRun: int)

  /** The sort key `(ens_loss, num_run)` compared lexicographically. */
  predicate RankLe(a: Ranked, b: Ranked)
  {
    Less(a.loss, b.loss) || (a.loss == b.loss && a.numRun <= b.numRun)
  }

  lemma RankLeIsTotalPreorder()
    ensures TotalPreorder(RankLe)
  {
    forall a: Ranked, b: Ranked, c: Ranked
      ensures RankLe(a, b) || RankLe(b, a)
      ensures RankLe(a, b) && RankLe(b, c) ==> RankLe(a, c)
    {
      LessIsStrictOrder(a.loss, b.loss, c.loss);
    }
  }

  /** The tuples of the table in dictionary order. */
  function Entries(t: LossTable): (r: seq<Ranked>)
    ensures |r| == |t|
    ensures forall i :: 0 <= i < |t| ==> r[i] == Ranked(t[i].0, t[i].1.ensLoss, t[i].1.numRun)
  {
    seq(|t|, i requires 0 <= i < |t| => Ranked(t[i].0, t[i].1.ensLoss, t[i].1.numRun))
  }

  function PathOf(x: Ranked): Path { x.path }

  function Paths(rs: seq<Ranked>): (ps: seq<Path>)
    ensures |ps| == |rs|
    ensures forall i :: 0 <= i < |rs| ==> ps[i] == rs[i].path
  {
    seq(|rs|, i requires 0 <= i < |rs| => rs[i].path)
  }

  /** `_get_list_of_sorted_preds`: every record of the table, ordered by loss
      ascending and, among equal losses, by `num_run` ascending. */
  function SortedPreds(t: LossTable): (r: seq<Ranked>)
    ensures |r| == |t|
    ensures multiset(r) == multiset(Entries(t))
    ensures forall i, j :: 0 <= i < j < |r| ==> AtMost(r[i].loss, r[j].loss)
    ensures forall i, j :: 0 <= i < j < |r| && r[i].loss == r[j].loss ==> r[i].numRun <= r[j].numRun
  {
    RankLeIsTotalPreorder();
    var r := Sort(Entries(t), RankLe);
    forall i, j | 0 <= i < j < |r|
      ensures AtMost(r[i].loss, r[j].loss)
      ensures r[i].loss == r[j].loss ==> r[i].numRun <= r[j].numRun
    {
      assert RankLe(r[i], r[j]);
      LessIsStrictOrder(r[i].loss, r[j].loss, r[j].loss);
    }
    r
  }

  /** Records whose `(loss, num_run)` tie keep their dictionary order. */
  lemma RankingIsStable(t: LossTable, c: Ranked)
    ensures TieClass(SortedPreds(t), RankLe, c) == TieClass(Entries(t), RankLe, c)
  {
    RankLeIsTotalPreorder();
    SortIsStable(Entries(t), RankLe, c);
  }

  /** The ranking lists every path of the table exactly once. */
  lemma RankingPaths(t: LossTable)
    requires DistinctKeys(t)
    ensures DistinctBy(SortedPreds(t), PathOf)
    ensures forall p :: p in Paths(SortedPreds(t)) <==> p in Keys(t)
  {
    RankLeIsTotalPreorder();
    var e := Entries(t);
    assert DistinctBy(e, PathOf);
    SortKeepsDistinct(e, RankLe, PathOf);
    SortSameElements(e, RankLe);
    var r := SortedPreds(t);
    forall p
      ensures p in Paths(r) <==> p in Keys(t)
    {
      if p in Paths(r) {
        var i :| 0 <= i < |r| && Paths(r)[i] == p;
        assert r[i] in e;
        var j :| 0 <= j < |e| && e[j] == r[i];
        assert Keys(t)[j] == p;
      }
      if p in Keys(t) {
        var j :| 0 <= j < |t| && Keys(t)[j] == p;
        assert e[j] in r;
        var i :| 0 <= i < |r| && r[i] == e[j];
        assert Paths(r)[i] == p;
      }
    }
  }

  /** The record stored under `k` (the table must hold `k`). */
  function Rec(t: LossTable, k: Path): LossRecord
    requires k in Keys(t)
  {
    Get(t, k).value
  }
}

=== FILE: selection.dfy ===
/** Candidate selection, `EnsembleBuilder.get_n_best_preds`: rank the loss
    records, drop models no better than the dummy, size the kept prefix from
    `ensemble_nbest`, the disk budget and the performance range, then drop or
    load cached predictions so that exactly the kept prefix is resident. */
module Selection {
  import opened Common
  import opened Losses
  import opened Sorting
  import opened Records

  /** `ensemble_nbest`: an integer count, or a fraction of the candidates. */
  datatype NBest = NBestCount(n: int) | NBestFraction(f: real)

  /** `max_models_on_disc`: None, an integer model count, or a float budget in MB. */
  datatype DiscLimit = NoDiscLimit | MaxModels(count: int) | MaxMegabytes(mb: real)

  /** The exceptions `get_n_best_preds` can raise. */
  datatype SelectError =
    | IndexOutOfRange      // `sorted_keys[0]` on an empty list
    | UndefinedDummyLoss   // `dummy_loss` read although no dummy record exists
    | EmptyConsumption     // `max()` of an empty sequence of disk costs
    | MissingPredsEntry    // `read_preds[k][Y_ENSEMBLE] = ...` for a `k` not in `read_preds`
    | LoadFailed(path: Path) // `_read_np_fn(k)` raised: an unknown suffix, or `np.load` failed

  datatype SelectConfig = SelectConfig(
    nbest: NBest,
    disc: DiscLimit,
    threshold: real,   // performance_range_threshold
    seed: int)

  /** What the constructor admits, plus the 0 that memory degradation can set. */
  predicate ValidNBest(n: NBest)
  {
    match n
    case NBestCount(c) => c >= 0
    case NBestFraction(f) => 0.0 <= f <= 1.0
  }

  predicate ValidDisc(d: DiscLimit)
  {
    match d
    case NoDiscLimit => true
    case MaxModels(c) => c >= 0
    case MaxMegabytes(mb) => mb >= 0.0
  }

  /* ---------------- step 1: compare with the dummy model ---------------- */

  /** The dummy record (if any) and the candidate list left after filtering. */
  datatype Candidates = Candidates(dummy: Option<Ranked>, ranked: seq<Ranked>)

  predicate LossSorted(s: seq<Ranked>)
  {
    forall i, j :: 0 <= i < j < |s| ==> AtMost(s[i].loss, s[j].loss)
  }

  function IsDummy(x: Ranked): bool { x.numRun == 1 }

  predicate BeatsDummy(x: Ranked, d: Ranked)
  {
    x.numRun > 1 && Less(x.loss, d.loss)
  }

  /** The fallback list: this seed's `num_run == 1` records, in dictionary order. */
  function SeedDummies(t: LossTable, seed: int): seq<Ranked>
  {
    Entries(Filter(t, (item: (Path, LossRecord)) => item.1.seed == seed && item.1.numRun == 1))
  }

  /** Non-dummy records strictly better than the dummy `d`, in ranking order. */
  function Better(sorted: seq<Ranked>, d: Ranked): seq<Ranked>
  {
    Filter(Filter(sorted, (x: Ranked) => Less(x.loss, d.loss)), (x: Ranked) => x.numRun > 1)
  }

  lemma BetterMembers(sorted: seq<Ranked>, d: Ranked)
    requires LossSorted(sorted)
    ensures forall x :: x in Better(sorted, d) <==> x in sorted && BeatsDummy(x, d)
    ensures LossSorted(Better(sorted, d))
  {
    var le := (a: Ranked, b: Ranked) => AtMost(a.loss, b.loss);
    assert SortedBy(sorted, le);
    var cheaper := Filter(sorted, (x: Ranked) => Less(x.loss, d.loss));
    FilterKeepsSorted(sorted, (x: Ranked) => Less(x.loss, d.loss), le);
    FilterKeepsSorted(cheaper, (x: Ranked) => x.numRun > 1, le);
    assert SortedBy(Better(sorted, d), le);
  }

  /** The first dummy of a loss-sorted ranking has the smallest dummy loss. */
  lemma FirstDummyIsBest(sorted: seq<Ranked>)
    requires LossSorted(sorted)
    requires |Filter(sorted, IsDummy)| > 0
    ensures forall x :: x in sorted && x.numRun == 1 ==> AtMost(Filter(sorted, IsDummy)[0].loss, x.loss)
  {
    var d := Filter(sorted, IsDummy)[0];
    FilterHead(sorted, IsDummy);
    var first :| 0 <= first < |sorted| && sorted[first] == d && forall j :: 0 <= j < first ==> !IsDummy(sorted[j]);
    forall x | x in sorted && x.numRun == 1
      ensures AtMost(d.loss, x.loss)
    {
      var k :| 0 <= k < |sorted| && sorted[k] == x;
      assert !(k < first);
    }
  }

  /** Step 1 of the selection. The first (best) `num_run == 1` record is the
      dummy; the candidates are the other records strictly better than it.
      If none is, the candidates fall back to this seed's dummy records. */
  function DummyFilter(sorted: seq<Ranked>, t: LossTable, seed: int): (c: Candidates)
    requires LossSorted(sorted)
    ensures c.dummy.None? <==> forall x :: x in sorted ==> x.numRun != 1
    ensures c.dummy.None? ==> c.ranked == sorted
    ensures c.dummy.Some? ==> c.dummy.value in sorted && c.dummy.value.numRun == 1
    ensures c.dummy.Some? ==>
              forall x :: x in sorted && x.numRun == 1 ==> AtMost(c.dummy.value.loss, x.loss)
    ensures c.dummy.Some? && (exists x :: x in sorted && BeatsDummy(x, c.dummy.value)) ==>
              && (forall x :: x in c.ranked <==> x in sorted && BeatsDummy(x, c.dummy.value))
              && LossSorted(c.ranked)
    ensures c.dummy.Some? && (forall x :: x in sorted ==> !BeatsDummy(x, c.dummy.value)) ==>
              c.ranked == SeedDummies(t, seed)
  {
    var dummies := Filter(sorted, IsDummy);
    if |dummies| == 0 then
      Candidates(None, sorted)
    else
      var d := dummies[0];
      assert d in dummies;
      FirstDummyIsBest(sorted);
      BetterMembers(sorted, d);
      var better := Better(sorted, d);
      if |better| == 0 then
        Candidates(Some(d), SeedDummies(t, seed))
      else
        assert better[0] in better;
        Candidates(Some(d), better)
  }

  /* ---------------- step 2: keep_nbest ---------------- */

  /** How many of `n` candidates `ensemble_nbest` keeps: at most the count in
      integer mode; in fraction mode `n * f` truncated, but at least 1. */
  function KeepCount(nbest: NBest, n: nat): (k: int)
    requires ValidNBest(nbest)
    ensures nbest.NBestCount? ==> 0 <= k <= n && k <= nbest.n && (k == n || k == nbest.n)
    ensures nbest.NBestFraction? ==> 1 <= k && (n >= 1 ==> k <= n)
    ensures nbest.NBestFraction? && k > 1 ==> k as real <= n as real * nbest.f
    ensures nbest.NBestFraction? && k < n ==> (k + 1) as real > n as real * nbest.f
  {
    match nbest
    case NBestFraction(f) => Max(1, Min(n, Trunc(n as real * f)))
    case NBestCount(c) => Min(c, n)
  }

  /** The fraction is truncated, not rounded: 3 candidates at 0.5 keep 1. */
  lemma KeepCountTruncates()
    ensures KeepCount(NBestFraction(0.5), 3) == 1
  {
  }

  /* ---------------- step 3: max_resident_models ---------------- */

  /** `[ens_loss, disc_space_cost_mb]` of every record that has a disk cost,
      in dictionary order. */
  function Consumption(t: LossTable): (cs: seq<(Loss, real)>)
    ensures |cs| <= |t|
    ensures forall x :: x in cs <==> exists i :: 0 <= i < |t| && HasCost(t[i], x)
  {
    if |t| == 0 then []
    else
      var head := match t[0].1.discCost
        case Some(c) => [(t[0].1.ensLoss, c)]
        case None => [];
      var rest := Consumption(t[1..]);
      forall x ensures x in head + rest <==> exists i :: 0 <= i < |t| && HasCost(t[i], x) {
        if x in rest {
          var i :| 0 <= i < |t[1..]| && HasCost(t[1..][i], x);
          assert HasCost(t[i + 1], x);
        }
        if exists i :: 0 <= i < |t| && HasCost(t[i], x) {
          var i :| 0 <= i < |t| && HasCost(t[i], x);
          if i > 0 {
            assert HasCost(t[1..][i - 1], x);
          }
        }
      }
      head + rest
  }

  /** The record `e` has a disk cost, and `x` is its `[ens_loss, cost]`. */
  predicate HasCost(e: (Path, LossRecord), x: (Loss, real))
  {
    e.1.discCost.Some? && x == (e.1.ensLoss, e.1.discCost.value)
  }

  /** Python's ordering of `[loss, cost]` lists: lexicographic. */
  predicate CostLe(a: (Loss, real), b: (Loss, real))
  {
    Less(a.0, b.0) || (a.0 == b.0 && a.1 <= b.1)
  }

  lemma CostLeIsTotalPreorder()
    ensures TotalPreorder(CostLe)
  {
    forall a: (Loss, real), b: (Loss, real), c: (Loss, real)
      ensures CostLe(a, b) || CostLe(b, a)
      ensures CostLe(a, b) && CostLe(b, c) ==> CostLe(a, c)
    {
      LessIsStrictOrder(a.0, b.0, c.0);
    }
  }

  function Cost(p: (Loss, real)): real { p.1 }

  /** `max(c[1] for c in consumption)` */
  function MaxCost(cs: seq<(Loss, real)>): (m: real)
    requires |cs| > 0
    ensures forall i :: 0 <= i < |cs| ==> cs[i].1 <= m
    ensures exists i :: 0 <= i < |cs| && cs[i].1 == m
  {
    if |cs| == 1 then cs[0].1
    else
      var rest := MaxCost(cs[1..]);
      assert forall i :: 1 <= i < |cs| ==> cs[i] == cs[1..][i - 1];
      if cs[0].1 >= rest then cs[0].1 else rest
  }

  /** `np.cumsum(costs) + offset`: element `i` is `offset` plus the first
      `i + 1` costs. */
  function CumFrom(cs: seq<(Loss, real)>, offset: real): (r: seq<real>)
    ensures |r| == |cs|
    ensures |cs| > 0 ==> r[0] == offset + cs[0].1
    ensures forall i :: 0 < i < |cs| ==> r[i] == r[i - 1] + cs[i].1
    ensures |cs| > 0 ==> r[|cs| - 1] == offset + SumBy(cs, Cost)
  {
    if |cs| == 0 then []
    else
      var rest := CumFrom(cs[1..], offset + cs[0].1);
      var r := [offset + cs[0].1] + rest;
      assert forall i :: 1 < i < |cs| ==> r[i] == rest[i - 1] && cs[i] == cs[1..][i - 1];
      r
  }

  /** Cumulative disk cost of the best models in (loss, cost) order, with one
      extra model of the largest cost counted on top (the pessimistic margin). */
  function BudgetCurve(t: LossTable): seq<real>
  {
    var cs := Consumption(t);
    if |cs| == 0 then []
    else
      CostLeIsTotalPreorder();
      CumFrom(Sort(cs, CostLe), MaxCost(cs))
  }

  predicate IsFirstOver(xs: seq<real>, bound: real, i: int)
  {
    0 <= i < |xs| && xs[i] > bound && forall j :: 0 <= j < i ==> xs[j] <= bound
  }

  /** `np.argmax(xs > bound)`: the first position above `bound`, 0 if none. */
  function FirstOver(xs: seq<real>, bound: real): (i: nat)
    ensures (exists j :: 0 <= j < |xs| && xs[j] > bound) ==> IsFirstOver(xs, bound, i)
    ensures (forall j :: 0 <= j < |xs| ==> xs[j] <= bound) ==> i == 0
  {
    if |xs| == 0 then 0
    else if xs[0] > bound then 0
    else if forall j :: 0 <= j < |xs| ==> xs[j] <= bound then 0
    else
      var k := FirstOver(xs[1..], bound);
      assert forall j :: 1 <= j < |xs| ==> xs[j] == xs[1..][j - 1];
      1 + k
  }

  /** The model cap for this iteration. An integer `max_models_on_disc` is
      the cap; a megabyte budget leaves it unset when every costed model plus
      one more of the largest cost fits, and otherwise caps at the first
      position whose cumulative cost exceeds the budget (at least 1). */
  function MaxResident(disc: DiscLimit, t: LossTable, prev: Option<int>): (r: Result<Option<int>, SelectError>)
    ensures disc.NoDiscLimit? ==> r == Ok(prev)
    ensures disc.MaxModels? ==> r == Ok(Some(disc.count))
    ensures disc.MaxMegabytes? && |Consumption(t)| == 0 ==> r == Err(EmptyConsumption)
    ensures disc.MaxMegabytes? && |Consumption(t)| > 0 ==>
              && r.Ok?
              && (r.value.None? <==>
                    SumBy(Consumption(t), Cost) + MaxCost(Consumption(t)) <= disc.mb)
    ensures disc.MaxMegabytes? && r.Ok? && r.value.Some? ==>
              && 1 <= r.value.value <= |Consumption(t)|
              && exists i :: IsFirstOver(BudgetCurve(t), disc.mb, i) && r.value.value == Max(1, i)
  {
    match disc
    case NoDiscLimit => Ok(prev)
    case MaxModels(c) => Ok(Some(c))
    case MaxMegabytes(mb) =>
      var cs := Consumption(t);
      if |cs| == 0 then Err(EmptyConsumption)
      else
        var worst := MaxCost(cs);
        if SumBy(cs, Cost) + worst > mb then
          CostLeIsTotalPreorder();
          var sorted := Sort(cs, CostLe);
          var curve := CumFrom(sorted, worst);
          SortKeepsSum(cs, CostLe, Cost);
          assert curve[|curve| - 1] > mb;
          var i := FirstOver(curve, mb);
          assert IsFirstOver(BudgetCurve(t), mb, i);
          Ok(Some(Max(1, i)))
        else
          Ok(None)
  }

  /* ---------------- step 5: performance range ---------------- */

  predicate IsFirstAtLeast(ranked: seq<Ranked>, keep: int, cutoff: Loss, i: int)
  {
    && 0 <= i < keep <= |ranked|
    && AtMost(cutoff, ranked[i].loss)
    && forall j :: 0 <= j < i ==> Less(ranked[j].loss, cutoff)
  }

  /** `for i in range(start, keep): if loss >= cutoff: keep = max(1, i); break` */
  function ScanCut(ranked: seq<Ranked>, keep: int, cutoff: Loss, start: int): (r: int)
    requires 0 <= start <= keep <= |ranked|
    requires forall j :: 0 <= j < start ==> Less(ranked[j].loss, cutoff)
    ensures (exists i :: IsFirstAtLeast(ranked, keep, cutoff, i) && r == Max(1, i))
            || (r == keep && forall j :: 0 <= j < keep ==> Less(ranked[j].loss, cutoff))
    decreases keep - start
  {
    if start == keep then keep
    else if AtMost(cutoff, ranked[start].loss) then
      assert IsFirstAtLeast(ranked, keep, cutoff, start);
      Max(1, start)
    else
      LessIsStrictOrder(ranked[start].loss, cutoff, cutoff);
      ScanCut(ranked, keep, cutoff, start + 1)
  }

  /** The cut-off `dummy - (dummy - best) * t`, or None when it is NaN. */
  function Cutoff(ranked: seq<Ranked>, dummy: Option<Ranked>, t: real): Option<Loss>
    requires |ranked| > 0 && dummy.Some? && t > 0.0
  {
    RangeCutoff(dummy.value.loss, ranked[0].loss, t)
  }

  /** The pruning applies: the last kept model is worse than the cut-off. */
  predicate RangeTriggered(keep: int, ranked: seq<Ranked>, dummy: Option<Ranked>, t: real)
  {
    && t > 0.0 && |ranked| > 0 && dummy.Some? && 1 <= keep <= |ranked|
    && var c := Cutoff(ranked, dummy, t);
       c.Some? && Less(c.value, ranked[keep - 1].loss)
  }

  function PruneByRange(keep: int, ranked: seq<Ranked>, dummy: Option<Ranked>, t: real): (r: Result<int, SelectError>)
    requires 0 <= keep
    requires |ranked| > 0 ==> keep <= |ranked|
    ensures t <= 0.0 ==> r == Ok(keep)
    ensures t > 0.0 && |ranked| == 0 ==> r == Err(IndexOutOfRange)
    ensures t > 0.0 && |ranked| > 0 && dummy.None? ==> r == Err(UndefinedDummyLoss)
    ensures t > 0.0 && |ranked| > 0 && dummy.Some? && !RangeTriggered(keep, ranked, dummy, t) ==> r == Ok(keep)
    ensures RangeTriggered(keep, ranked, dummy, t) ==>
              && r.Ok? && 1 <= r.value <= keep
              && exists i :: IsFirstAtLeast(ranked, keep, Cutoff(ranked, dummy, t).value, i) && r.value == Max(1, i)
  {
    if t <= 0.0 then Ok(keep)
    else if |ranked| == 0 then Err(IndexOutOfRange)
    else if dummy.None? then Err(UndefinedDummyLoss)
    else
      var cutoff := Cutoff(ranked, dummy, t);
      // With keep == 0 the source compares `sorted_keys[-1]`, but its scan
      // over `range(0, 0)` is empty, so keep stays 0 either way.
      if keep == 0 then Ok(keep)
      else if cutoff.Some? && Less(cutoff.value, ranked[keep - 1].loss) then
        var r := ScanCut(ranked, keep, cutoff.value, 0);
        assert !Less(ranked[keep - 1].loss, cutoff.value) by {
          LessIsStrictOrder(cutoff.value, ranked[keep - 1].loss, cutoff.value);
        }
        Ok(r)
      else Ok(keep)
  }

  /* ---------------- steps 2-5 together ---------------- */

  /** The ranked candidates and how many of them are kept. */
  datatype Plan = Plan(dummy: Option<Ranked>, ranked: seq<Ranked>, keep: nat, maxResident: Option<int>)

  /** The kept count after the model cap (line 1129): `min(keep, cap)` when a cap is set. */
  function ClampToResident(keep: int, maxResident: Option<int>): int
  {
    if maxResident.Some? && keep > maxResident.value then maxResident.value else keep
  }

  /**
   * Steps 4 and 5 on the candidates `c`, the count `n` from `nbest` and the
   * outcome of the model cap: a failed cap is passed on, then the cap and the
   * range pruning are applied.
   */
  function PlanFrom(c: Candidates, n: int, maxRes: Result<Option<int>, SelectError>, t: real): (r: Result<Plan, SelectError>)
    requires 0 <= n
    requires |c.ranked| > 0 ==> n <= |c.ranked|
    requires maxRes.Ok? && maxRes.value.Some? ==> maxRes.value.value >= 0
    ensures r.Ok? <==> maxRes.Ok? && (t > 0.0 ==> |c.ranked| > 0 && c.dummy.Some?)
    ensures maxRes.Err? ==> r == Err(maxRes.error)
    ensures maxRes.Ok? && r.Err? ==> r.error == IndexOutOfRange || r.error == UndefinedDummyLoss
    ensures r.Ok? ==>
              var p := r.value;
              var capped := if p.maxResident.Some? then Min(n, p.maxResident.value) else n;
              && p.dummy == c.dummy && p.ranked == c.ranked && maxRes == Ok(p.maxResident)
              && p.keep <= capped
              && (capped >= 1 ==> p.keep >= 1)
              && (!RangeTriggered(capped, p.ranked, p.dummy, t) ==> p.keep == capped)
              && (RangeTriggered(capped, p.ranked, p.dummy, t) ==>
                    exists i :: IsFirstAtLeast(p.ranked, capped, Cutoff(p.ranked, p.dummy, t).value, i) && p.keep == Max(1, i))
  {
    match maxRes
    case Err(e) => Err(e)
    case Ok(m) =>
      match PruneByRange(ClampToResident(n, m), c.ranked, c.dummy, t)
      case Err(e) => Err(e)
      case Ok(keep) => Ok(Plan(c.dummy, c.ranked, keep, m))
  }

  function PlanSelection(cfg: SelectConfig, t: LossTable, prev: Option<int>): (r: Result<Plan, SelectError>)
    requires ValidNBest(cfg.nbest) && ValidDisc(cfg.disc)
    requires prev.Some? ==> prev.value >= 0
    ensures r.Ok? ==>
              var p := r.value;
              && p.dummy == DummyFilter(SortedPreds(t), t, cfg.seed).dummy
              && p.ranked == DummyFilter(SortedPreds(t), t, cfg.seed).ranked
              && MaxResident(cfg.disc, t, prev) == Ok(p.maxResident)
              && (|p.ranked| > 0 ==> p.keep <= |p.ranked|)
              && (|p.ranked| == 0 ==> p.keep <= 1)
              && (p.maxResident.Some? ==> p.keep <= p.maxResident.value)
              && (cfg.nbest.NBestCount? ==> p.keep <= cfg.nbest.n)
              && p.keep <= KeepCount(cfg.nbest, |p.ranked|)
  {
    var c := DummyFilter(SortedPreds(t), t, cfg.seed);
    PlanFrom(c, KeepCount(cfg.nbest, |c.ranked|), MaxResident(cfg.disc, t, prev), cfg.threshold)
  }

  /** When the plan succeeds, and that a failed plan is never a load error. */
  lemma PlanSelectionSucceeds(cfg: SelectConfig, t: LossTable, prev: Option<int>)
    requires ValidNBest(cfg.nbest) && ValidDisc(cfg.disc)
    requires prev.Some? ==> prev.value >= 0
    ensures var c := DummyFilter(SortedPreds(t), t, cfg.seed);
            var r := PlanSelection(cfg, t, prev);
            && (r.Ok? <==> MaxResident(cfg.disc, t, prev).Ok? && (cfg.threshold > 0.0 ==> |c.ranked| > 0 && c.dummy.Some?))
            && (r.Err? ==> r.error != MissingPredsEntry && !r.error.LoadFailed?)
  {
  }

  /**
   * The exact kept count: the count from `nbest` capped by the model cap,
   * cut by the range pruning when it triggers; at least 1 when there are
   * candidates and neither `nbest` nor the cap asks for none.
   */
  lemma PlanSelectionKeep(cfg: SelectConfig, t: LossTable, prev: Option<int>)
    requires ValidNBest(cfg.nbest) && ValidDisc(cfg.disc)
    requires prev.Some? ==> prev.value >= 0
    requires PlanSelection(cfg, t, prev).Ok?
    ensures var p := PlanSelection(cfg, t, prev).value;
            var n := KeepCount(cfg.nbest, |p.ranked|);
            var capped := if p.maxResident.Some? then Min(n, p.maxResident.value) else n;
            && (!RangeTriggered(capped, p.ranked, p.dummy, cfg.threshold) ==> p.keep == capped)
            && (RangeTriggered(capped, p.ranked, p.dummy, cfg.threshold) ==>
                  exists i :: IsFirstAtLeast(p.ranked, capped, Cutoff(p.ranked, p.dummy, cfg.threshold).value, i)
                              && p.keep == Max(1, i))
            && ((&& |p.ranked| > 0
                 && (cfg.nbest.NBestCount? ==> cfg.nbest.n >= 1)
                 && (p.maxResident.Some? ==> p.maxResident.value >= 1))
                ==> p.keep >= 1)
  {
  }

  /* ---------------- the candidates are table entries ---------------- */

  /** Every candidate names a record of the table, and no path appears twice. */
  predicate FromTable(t: LossTable, ranked: seq<Ranked>)
  {
    DistinctBy(ranked, PathOf) && forall x :: x in ranked ==> x.path in Keys(t)
  }

  /** Which of its three lists `DummyFilter` returns. */
  lemma DummyFilterCases(sorted: seq<Ranked>, t: LossTable, seed: int)
    requires LossSorted(sorted)
    ensures var c := DummyFilter(sorted, t, seed);
            || c.ranked == sorted
            || (c.dummy.Some? && c.ranked == Better(sorted, c.dummy.value))
            || c.ranked == SeedDummies(t, seed)
  {
  }

  lemma RankingFromTable(t: LossTable)
    requires DistinctKeys(t)
    ensures FromTable(t, SortedPreds(t))
  {
    var sorted := SortedPreds(t);
    RankingPaths(t);
    forall x | x in sorted ensures x.path in Keys(t) {
      var i :| 0 <= i < |sorted| && sorted[i] == x;
      assert Paths(sorted)[i] == x.path;
    }
  }

  lemma BetterFromTable(t: LossTable, d: Ranked)
    requires DistinctKeys(t)
    ensures FromTable(t, Better(SortedPreds(t), d))
  {
    var sorted := SortedPreds(t);
    RankingFromTable(t);
    var cheaper := Filter(sorted, (x: Ranked) => Less(x.loss, d.loss));
    FilterKeepsDistinct(sorted, (x: Ranked) => Less(x.loss, d.loss), PathOf);
    FilterKeepsDistinct(cheaper, (x: Ranked) => x.numRun > 1, PathOf);
  }

  lemma SeedDummiesFromTable(t: LossTable, seed: int)
    requires DistinctKeys(t)
    ensures FromTable(t, SeedDummies(t, seed))
  {
    var p := (item: (Path, LossRecord)) => item.1.seed == seed && item.1.numRun == 1;
    var f := Filter(t, p);
    var r := SeedDummies(t, seed);
    assert r == Entries(f);
    FilterKeepsDistinct(t, p, (item: (Path, LossRecord)) => item.0);
    assert DistinctBy(r, PathOf);
    forall x | x in r ensures x.path in Keys(t) {
      var i :| 0 <= i < |r| && r[i] == x;
      assert f[i] in t;
      var j :| 0 <= j < |t| && t[j] == f[i];
      assert Keys(t)[j] == x.path;
    }
  }

  lemma CandidatesFromTable(t: LossTable, seed: int)
    requires DistinctKeys(t)
    ensures FromTable(t, DummyFilter(SortedPreds(t), t, seed).ranked)
  {
    var c := DummyFilter(SortedPreds(t), t, seed);
    DummyFilterCases(SortedPreds(t), t, seed);
    RankingFromTable(t);
    SeedDummiesFromTable(t, seed);
    if c.dummy.Some? {
      BetterFromTable(t, c.dummy.value);
    }
  }

  lemma PlanFromTable(cfg: SelectConfig, t: LossTable, prev: Option<int>)
    requires DistinctKeys(t)
    requires ValidNBest(cfg.nbest) && ValidDisc(cfg.disc)
    requires prev.Some? ==> prev.value >= 0
    requires PlanSelection(cfg, t, prev).Ok?
    ensures FromTable(t, PlanSelection(cfg, t, prev).value.ranked)
  {
    CandidatesFromTable(t, cfg.seed);
  }

  /* ---------------- step 6: drop losers, load winners ---------------- */

  /** Python slicing `s[:k]` and `s[k:]` for `k >= 0`. */
  function Take<T>(s: seq<T>, k: nat): (r: seq<T>)
    ensures |r| == Min(k, |s|) && r == s[..|r|]
  {
    if k <= |s| then s[..k] else s
  }

  function DropFirst<T>(s: seq<T>, k: nat): (r: seq<T>)
    ensures Take(s, k) + r == s
  {
    if k <= |s| then s[k..] else []
  }

  /** The paths kept (`reduced_sorted_keys[:n]`) and dropped (`[n:]`). */
  function Winners(p: Plan): seq<Path> { Paths(Take(p.ranked, p.keep)) }

  function Losers(p: Plan): seq<Path> { Paths(DropFirst(p.ranked, p.keep)) }

  /** Kept and dropped paths of a duplicate-free ranking of the table are
      disjoint table keys. */
  lemma SplitFromTable(t: LossTable, p: Plan)
    requires FromTable(t, p.ranked)
    ensures forall k :: k in Winners(p) ==> k in Keys(t) && k !in Losers(p)
    ensures forall k :: k in Losers(p) ==> k in Keys(t)
  {
    var taken := Take(p.ranked, p.keep);
    var rest := DropFirst(p.ranked, p.keep);
    assert taken + rest == p.ranked;
    forall k | k in Winners(p) ensures k in Keys(t) && k !in Losers(p) {
      var i :| 0 <= i < |taken| && Winners(p)[i] == k;
      assert taken[i] == p.ranked[i];
      forall j | 0 <= j < |rest| ensures Losers(p)[j] != k {
        assert rest[j] == p.ranked[|taken| + j];
      }
    }
    forall k | k in Losers(p) ensures k in Keys(t) {
      var j :| 0 <= j < |rest| && Losers(p)[j] == k;
      assert rest[j] == p.ranked[|taken| + j];
    }
  }

  function DropRecord(r: LossRecord): LossRecord
  {
    if r.loaded == Loaded then r.(loaded := Dropped) else r
  }

  /** Losers: cached arrays cleared, `loaded` 1 becomes 2. */
  function DropLosers(t: LossTable, preds: PredCache, losers: set<Path>): (r: (LossTable, PredCache))
    ensures Keys(r.0) == Keys(t) && r.1.Keys == preds.Keys
  {
    (MapValues(t, (k: Path, v: LossRecord) => if k in losers then DropRecord(v) else v),
     map k | k in preds :: if k in losers then Preds(None, None) else preds[k])
  }

  /** A winner is read from disk unless its ensemble array is cached or it
      was deleted from disk. */
  predicate NeedsLoad(t: LossTable, preds: PredCache, k: Path)
    requires k in Keys(t)
  {
    (k !in preds || preds[k].ens.None?) && Rec(t, k).loaded != Deleted
  }

  function ToLoad(t: LossTable, preds: PredCache, winners: seq<Path>): set<Path>
  {
    set k | k in winners && k in Keys(t) && NeedsLoad(t, preds, k)
  }

  /** Winners that need it get their ensemble array read and `loaded` 1. */
  function LoadWinners(t: LossTable, preds: PredCache, load: set<Path>, read: Path -> Option<PredArray>)
    : (r: (LossTable, PredCache))
    ensures Keys(r.0) == Keys(t) && r.1.Keys == preds.Keys
  {
    (MapValues(t, (k: Path, v: LossRecord) => if k in load then v.(loaded := Loaded) else v),
     map k | k in preds :: if k in load then preds[k].(ens := read(k)) else preds[k])
  }

  /** The table and cache after the drop loop. */
  function AfterDrop(t: LossTable, preds: PredCache, p: Plan): (LossTable, PredCache)
  {
    DropLosers(t, preds, set k | k in Losers(p))
  }

  /** The winners the load loop reads from disk. */
  function LoadSet(t: LossTable, preds: PredCache, p: Plan): set<Path>
  {
    ToLoad(AfterDrop(t, preds, p).0, AfterDrop(t, preds, p).1, Winners(p))
  }

  /** Loading `k` succeeds: the file can be read and `read_preds[k]` exists. */
  predicate LoadOk(k: Path, preds: PredCache, read: Path -> Option<PredArray>)
  {
    k in preds && read(k).Some?
  }

  /** The exception a failing load raises. The right-hand side
      `self._read_np_fn(k)` is evaluated before `read_preds[k]` is looked
      up, so a failed read wins over a missing entry. */
  function LoadError(k: Path, read: Path -> Option<PredArray>): SelectError
  {
    if read(k).None? then LoadFailed(k) else MissingPredsEntry
  }

  /** Position `i` of `ws` is the first load that fails. */
  predicate FirstFailure(ws: seq<Path>, load: set<Path>, preds: PredCache, read: Path -> Option<PredArray>, i: int)
  {
    && 0 <= i < |ws| && ws[i] in load && !LoadOk(ws[i], preds, read)
    && forall j :: 0 <= j < i && ws[j] in load ==> LoadOk(ws[j], preds, read)
  }

  /** The load loop in ranking order: the exception of the first winner
      whose load fails, if any. */
  function FirstLoadError(ws: seq<Path>, load: set<Path>, preds: PredCache, read: Path -> Option<PredArray>)
    : (r: Option<SelectError>)
    ensures r.None? <==> forall i :: 0 <= i < |ws| && ws[i] in load ==> LoadOk(ws[i], preds, read)
    ensures r.Some? ==> exists i :: FirstFailure(ws, load, preds, read, i) && r.value == LoadError(ws[i], read)
    decreases |ws|
  {
    if |ws| == 0 then None
    else if ws[0] in load && !LoadOk(ws[0], preds, read) then
      assert FirstFailure(ws, load, preds, read, 0);
      Some(LoadError(ws[0], read))
    else
      var rest := FirstLoadError(ws[1..], load, preds, read);
      assert forall i :: 1 <= i < |ws| ==> ws[i] == ws[1..][i - 1];
      if rest.Some? then
        var i :| FirstFailure(ws[1..], load, preds, read, i) && rest.value == LoadError(ws[1..][i], read);
        assert FirstFailure(ws, load, preds, read, i + 1);
        rest
      else rest
  }

  /** The drop loop then the load loop. The load loop raises at the first
      winner whose file cannot be read (`LoadFailed`) or that has no
      `read_preds` entry (KeyError, `MissingPredsEntry`);
      `ResidencyNeverMissing` shows the builder never reaches the second. */
  function Residency(t: LossTable, preds: PredCache, p: Plan, read: Path -> Option<PredArray>)
    : (r: Result<(LossTable, PredCache), SelectError>)
    ensures r.Ok? <==> forall k :: k in LoadSet(t, preds, p) ==> LoadOk(k, preds, read)
    ensures r.Err? ==> exists i :: FirstFailure(Winners(p), LoadSet(t, preds, p), preds, read, i)
                                   && r.error == LoadError(Winners(p)[i], read)
    ensures r.Ok? ==> Keys(r.value.0) == Keys(t) && r.value.1.Keys == preds.Keys
  {
    var (t1, p1) := AfterDrop(t, preds, p);
    var load := LoadSet(t, preds, p);
    var e := FirstLoadError(Winners(p), load, preds, read);
    if e.Some? then
      Err(e.value)
    else
      assert forall k :: k in load ==> k in Winners(p);
      Ok(LoadWinners(t1, p1, load, read))
  }

  /** Every record of the table has an entry in the prediction cache. */
  predicate CacheCovers(t: LossTable, preds: PredCache)
  {
    forall k :: k in Keys(t) ==> k in preds
  }

  /** While the cache covers the table, the load loop never meets a missing
      entry: it fails exactly when a file it reads cannot be read. */
  lemma ResidencyNeverMissing(t: LossTable, preds: PredCache, p: Plan, read: Path -> Option<PredArray>)
    requires CacheCovers(t, preds)
    ensures Residency(t, preds, p, read).Ok? <==> forall k :: k in LoadSet(t, preds, p) ==> read(k).Some?
    ensures Residency(t, preds, p, read).Err? ==> Residency(t, preds, p, read).error.LoadFailed?
  {
    var (t1, p1) := AfterDrop(t, preds, p);
    forall k | k in LoadSet(t, preds, p) ensures k in preds {
      assert k in Keys(t1);
    }
  }

  /** What the two loops leave behind: every kept model that was not
      deleted has its ensemble array in memory; every dropped candidate has
      its arrays cleared, `loaded` 1 becomes 2 and any other state stays;
      and the only field of any record that changes is `loaded`. */
  lemma ResidencyEffects(t: LossTable, preds: PredCache, p: Plan, read: Path -> Option<PredArray>)
    requires DistinctKeys(t) && FromTable(t, p.ranked)
    requires Residency(t, preds, p, read).Ok?
    ensures var (t2, p2) := Residency(t, preds, p, read).value;
            && (forall k :: k in Winners(p) && Rec(t, k).loaded != Deleted ==> k in p2 && p2[k].ens.Some?)
            && (forall k :: k in Winners(p) ==> WinnerAfter(t, preds, read, t2, p2, k))
            && (forall k :: k in Losers(p) ==>
                  && Rec(t2, k) == DropRecord(Rec(t, k))
                  && Rec(t2, k).loaded != Loaded
                  && (k in preds ==> p2[k] == Preds(None, None)))
            && (forall k :: k in Keys(t) ==> Rec(t2, k) == Rec(t, k).(loaded := Rec(t2, k).loaded))
  {
    ResidencyLoadsWinners(t, preds, p, read);
    ResidencyWinners(t, preds, p, read);
    ResidencyClearsLosers(t, preds, p, read);
    ResidencyOnlyLoaded(t, preds, p, read);
  }

  /** A kept model after the load loop: if it needed loading, its array is
      the one read and `loaded` becomes 1; otherwise its record and cache
      entry are unchanged. */
  predicate WinnerAfter(t: LossTable, preds: PredCache, read: Path -> Option<PredArray>,
                        t2: LossTable, p2: PredCache, k: Path)
  {
    && k in Keys(t) && k in Keys(t2)
    && (NeedsLoad(t, preds, k) ==>
          && Rec(t2, k) == Rec(t, k).(loaded := Loaded)
          && k in p2 && p2[k].ens == read(k))
    && (!NeedsLoad(t, preds, k) ==>
          && Rec(t2, k) == Rec(t, k)
          && (k in preds ==> k in p2 && p2[k] == preds[k]))
  }

  lemma ResidencyWinners(t: LossTable, preds: PredCache, p: Plan, read: Path -> Option<PredArray>)
    requires DistinctKeys(t) && FromTable(t, p.ranked)
    requires Residency(t, preds, p, read).Ok?
    ensures var (t2, p2) := Residency(t, preds, p, read).value;
            forall k :: k in Winners(p) ==> WinnerAfter(t, preds, read, t2, p2, k)
  {
    SplitFromTable(t, p);
    var (t2, p2) := Residency(t, preds, p, read).value;
    var losers := set k | k in Losers(p);
    var (t1, p1) := DropLosers(t, preds, losers);
    var load := ToLoad(t1, p1, Winners(p));
    assert (t2, p2) == LoadWinners(t1, p1, load, read);
    assert load == LoadSet(t, preds, p);
    forall k | k in Winners(p)
      ensures WinnerAfter(t, preds, read, t2, p2, k)
    {
      ResidencyRecord(t, preds, p, read, k);
      assert k !in losers;
      assert NeedsLoad(t1, p1, k) == NeedsLoad(t, preds, k);
      if k in load {
        assert LoadOk(k, preds, read);
      }
    }
  }

  /** A kept model whose array is already cached keeps its `loaded` value:
      one dropped earlier (2) stays 2 although it is kept. */
  lemma CachedWinnerKeepsState(t: LossTable, preds: PredCache, p: Plan, read: Path -> Option<PredArray>, k: Path)
    requires DistinctKeys(t) && FromTable(t, p.ranked)
    requires Residency(t, preds, p, read).Ok?
    requires k in Winners(p) && k in preds && preds[k].ens.Some?
    ensures k in Keys(t)
    ensures Rec(Residency(t, preds, p, read).value.0, k).loaded == Rec(t, k).loaded
  {
    ResidencyWinners(t, preds, p, read);
  }

  /** The record of `k` after the drop loop (`t1`) and after the load loop. */
  lemma ResidencyRecord(t: LossTable, preds: PredCache, p: Plan, read: Path -> Option<PredArray>, k: Path)
    requires Residency(t, preds, p, read).Ok?
    requires k in Keys(t)
    ensures var losers := set k | k in Losers(p);
            var (t1, p1) := DropLosers(t, preds, losers);
            var load := ToLoad(t1, p1, Winners(p));
            && k in Keys(t1)
            && Rec(t1, k) == (if k in losers then DropRecord(Rec(t, k)) else Rec(t, k))
            && Rec(Residency(t, preds, p, read).value.0, k) ==
                 (if k in load then Rec(t1, k).(loaded := Loaded) else Rec(t1, k))
  {
    var losers := set k | k in Losers(p);
    var f1 := (k: Path, v: LossRecord) => if k in losers then DropRecord(v) else v;
    var (t1, p1) := DropLosers(t, preds, losers);
    var load := ToLoad(t1, p1, Winners(p));
    var f2 := (k: Path, v: LossRecord) => if k in load then v.(loaded := Loaded) else v;
    assert t1 == MapValues(t, f1);
    assert Residency(t, preds, p, read).value == LoadWinners(t1, p1, load, read);
    GetMapValues(t, f1, k);
    GetMapValues(t1, f2, k);
  }

  lemma ResidencyLoadsWinners(t: LossTable, preds: PredCache, p: Plan, read: Path -> Option<PredArray>)
    requires DistinctKeys(t) && FromTable(t, p.ranked)
    requires Residency(t, preds, p, read).Ok?
    ensures var p2 := Residency(t, preds, p, read).value.1;
            forall k :: k in Winners(p) && Rec(t, k).loaded != Deleted ==> k in p2 && p2[k].ens.Some?
  {
    SplitFromTable(t, p);
    var p2 := Residency(t, preds, p, read).value.1;
    var losers := set k | k in Losers(p);
    var (t1, p1) := DropLosers(t, preds, losers);
    var load := ToLoad(t1, p1, Winners(p));
    assert Residency(t, preds, p, read).value == LoadWinners(t1, p1, load, read);
    forall k | k in Winners(p) && Rec(t, k).loaded != Deleted
      ensures k in p2 && p2[k].ens.Some?
    {
      ResidencyRecord(t, preds, p, read, k);
      assert k !in losers;
      if k in load {
        assert k in p1;
      } else {
        assert !NeedsLoad(t1, p1, k);
      }
    }
  }

  lemma ResidencyClearsLosers(t: LossTable, preds: PredCache, p: Plan, read: Path -> Option<PredArray>)
    requires DistinctKeys(t) && FromTable(t, p.ranked)
    requires Residency(t, preds, p, read).Ok?
    ensures var (t2, p2) := Residency(t, preds, p, read).value;
            forall k :: k in Losers(p) ==>
              && Rec(t2, k) == DropRecord(Rec(t, k))
              && Rec(t2, k).loaded != Loaded
              && (k in preds ==> p2[k] == Preds(None, None))
  {
    SplitFromTable(t, p);
    var (t2, p2) := Residency(t, preds, p, read).value;
    var losers := set k | k in Losers(p);
    var (t1, p1) := DropLosers(t, preds, losers);
    var load := ToLoad(t1, p1, Winners(p));
    assert (t2, p2) == LoadWinners(t1, p1, load, read);
    forall k | k in Losers(p)
      ensures Rec(t2, k) == DropRecord(Rec(t, k)) && Rec(t2, k).loaded != Loaded
              && (k in preds ==> p2[k] == Preds(None, None))
    {
      ResidencyRecord(t, preds, p, read, k);
      assert k !in load;
    }
  }

  lemma ResidencyOnlyLoaded(t: LossTable, preds: PredCache, p: Plan, read: Path -> Option<PredArray>)
    requires Residency(t, preds, p, read).Ok?
    ensures var t2 := Residency(t, preds, p, read).value.0;
            forall k :: k in Keys(t) ==> Rec(t2, k) == Rec(t, k).(loaded := Rec(t2, k).loaded)
  {
    forall k | k in Keys(t)
      ensures Rec(Residency(t, preds, p, read).value.0, k) == Rec(t, k).(loaded := Rec(Residency(t, preds, p, read).value.0, k).loaded)
    {
      ResidencyRecord(t, preds, p, read, k);
    }
  }


  /** The result of a selection: the kept keys and the updated caches. */
  datatype Selected = Selected(keys: seq<Path>, table: LossTable, preds: PredCache, maxResident: Option<int>)

  /** `get_n_best_preds`. */
  function GetNBestPreds(cfg: SelectConfig, t: LossTable, preds: PredCache, prev: Option<int>, read: Path -> Option<PredArray>)
    : (r: Result<Selected, SelectError>)
    requires ValidNBest(cfg.nbest) && ValidDisc(cfg.disc)
    requires prev.Some? ==> prev.value >= 0
    ensures PlanSelection(cfg, t, prev).Err? ==> r == Err(PlanSelection(cfg, t, prev).error)
    ensures r.Ok? ==> PlanSelection(cfg, t, prev).Ok?
    ensures PlanSelection(cfg, t, prev).Ok? ==>
              var res := Residency(t, preds, PlanSelection(cfg, t, prev).value, read);
              (r.Err? <==> res.Err?) && (res.Err? ==> r == Err(res.error))
    ensures r.Ok? ==>
              var p := PlanSelection(cfg, t, prev).value;
              && Residency(t, preds, p, read) == Ok((r.value.table, r.value.preds))
              && r.value.keys == Winners(p)
              && r.value.maxResident == p.maxResident
              && Keys(r.value.table) == Keys(t)
              && r.value.preds.Keys == preds.Keys
  {
    match PlanSelection(cfg, t, prev)
    case Err(e) => Err(e)
    case Ok(p) =>
      match Residency(t, preds, p, read)
      case Err(e) => Err(e)
      case Ok((t2, p2)) => Ok(Selected(Winners(p), t2, p2, p.maxResident))
  }

  /** While the cache covers the table, the selection fails exactly where
      the ranking fails or a kept model's file cannot be read, and never on
      a missing cache entry. */
  lemma NoMissingEntryWhenCovered(cfg: SelectConfig, t: LossTable, preds: PredCache, prev: Option<int>, read: Path -> Option<PredArray>)
    requires CacheCovers(t, preds)
    requires ValidNBest(cfg.nbest) && ValidDisc(cfg.disc)
    requires prev.Some? ==> prev.value >= 0
    ensures GetNBestPreds(cfg, t, preds, prev, read).Err? <==>
              || PlanSelection(cfg, t, prev).Err?
              || exists k :: k in LoadSet(t, preds, PlanSelection(cfg, t, prev).value) && read(k).None?
    ensures GetNBestPreds(cfg, t, preds, prev, read).Err? ==>
              GetNBestPreds(cfg, t, preds, prev, read).error != MissingPredsEntry
  {
    if PlanSelection(cfg, t, prev).Ok? {
      ResidencyNeverMissing(t, preds, PlanSelection(cfg, t, prev).value, read);
    }
  }

  /** What a successful selection leaves in the caches (see `ResidencyEffects`). */
  lemma SelectionResidency(cfg: SelectConfig, t: LossTable, preds: PredCache, prev: Option<int>, read: Path -> Option<PredArray>)
    requires DistinctKeys(t)
    requires ValidNBest(cfg.nbest) && ValidDisc(cfg.disc)
    requires prev.Some? ==> prev.value >= 0
    requires GetNBestPreds(cfg, t, preds, prev, read).Ok?
    ensures var s := GetNBestPreds(cfg, t, preds, prev, read).value;
            && (forall k :: k in s.keys ==> k in Keys(t))
            && (forall k :: k in s.keys && Rec(t, k).loaded != Deleted ==> k in s.preds && s.preds[k].ens.Some?)
            && (forall k :: k in s.keys ==> WinnerAfter(t, preds, read, s.table, s.preds, k))
            && (forall k :: k in Losers(PlanSelection(cfg, t, prev).value) ==>
                  && k in Keys(t) && k !in s.keys
                  && Rec(s.table, k) == DropRecord(Rec(t, k))
                  && Rec(s.table, k).loaded != Loaded
                  && (k in preds ==> s.preds[k] == Preds(None, None)))
            && (forall k :: k in Keys(t) ==> Rec(s.table, k) == Rec(t, k).(loaded := Rec(s.table, k).loaded))
  {
    var p := PlanSelection(cfg, t, prev).value;
    PlanFromTable(cfg, t, prev);
    SplitFromTable(t, p);
    ResidencyEffects(t, preds, p, read);
  }
}

=== FILE: sorting.dfy ===
/** Python's `sorted(xs, key=...)` on a sequence, for an ordering given as a
    total preorder `le` ("key(a) <= key(b)"). The model is an insertion sort
    that places each element before the first element it is `le` to; ties
    therefore keep their input order, as Python's stable sort does. */
module Sorting {
  import opened Common

  ghost predicate TotalPreorder<T(!new)>(le: (T, T) -> bool)
  {
    && (forall a, b :: le(a, b) || le(b, a))
    && (forall a, b, c :: le(a, b) && le(b, c) ==> le(a, c))
  }

  predicate SortedBy<T>(s: seq<T>, le: (T, T) -> bool)
  {
    forall i, j :: 0 <= i < j < |s| ==> le(s[i], s[j])
  }

  /** No two elements of `s` share the same `f`-image (e.g. the same path). */
  predicate DistinctBy<T, K(==)>(s: seq<T>, f: T -> K)
  {
    forall i, j :: 0 <= i < j < |s| ==> f(s[i]) != f(s[j])
  }

  function Insert<T(!new)>(x: T, s: seq<T>, le: (T, T) -> bool): (r: seq<T>)
    requires TotalPreorder(le)
    requires SortedBy(s, le)
    ensures |r| == |s| + 1
    ensures SortedBy(r, le)
    ensures multiset(r) == multiset(s) + multiset{x}
  {
    if |s| == 0 then [x]
    else if le(x, s[0]) then [x] + s
    else
      var rest := Insert(x, s[1..], le);
      assert s == [s[0]] + s[1..];
      assert le(s[0], x);
      forall j | 0 <= j < |rest|
        ensures le(s[0], rest[j])
      {
        assert rest[j] in multiset(s[1..]) + multiset{x};
        if rest[j] != x {
          assert rest[j] in s[1..];
          var k :| 0 <= k < |s[1..]| && s[1..][k] == rest[j];
          assert s[k + 1] == rest[j];
        }
      }
      [s[0]] + rest
  }

  /** `sorted(s, key=...)`: a permutation of `s` in ascending `le` order. */
  function Sort<T(!new)>(s: seq<T>, le: (T, T) -> bool): (r: seq<T>)
    requires TotalPreorder(le)
    ensures |r| == |s|
    ensures SortedBy(r, le)
    ensures multiset(r) == multiset(s)
  {
    if |s| == 0 then []
    else
      assert s == [s[0]] + s[1..];
      Insert(s[0], Sort(s[1..], le), le)
  }

  lemma {:induction false} InsertKeepsDistinct<T(!new), K>(x: T, s: seq<T>, le: (T, T) -> bool, f: T -> K)
    requires TotalPreorder(le)
    requires SortedBy(s, le)
    requires DistinctBy(s, f)
    requires forall y :: y in s ==> f(y) != f(x)
    ensures DistinctBy(Insert(x, s, le), f)
  {
    if |s| > 0 && !le(x, s[0]) {
      var rest := Insert(x, s[1..], le);
      InsertKeepsDistinct(x, s[1..], le, f);
      forall j | 0 <= j < |rest|
        ensures f(s[0]) != f(rest[j])
      {
        assert rest[j] in multiset(rest);
        assert rest[j] in multiset(s[1..]) + multiset{x};
      }
      assert Insert(x, s, le) == [s[0]] + rest;
    }
  }

  /** Sorting permutes; it never makes two elements share a key. */
  lemma {:induction false} SortKeepsDistinct<T(!new), K>(s: seq<T>, le: (T, T) -> bool, f: T -> K)
    requires TotalPreorder(le)
    requires DistinctBy(s, f)
    ensures DistinctBy(Sort(s, le), f)
  {
    if |s| > 0 {
      var tail := Sort(s[1..], le);
      SortKeepsDistinct(s[1..], le, f);
      forall y | y in tail
        ensures f(y) != f(s[0])
      {
        assert y in multiset(tail);
        assert y in multiset(s[1..]);
      }
      InsertKeepsDistinct(s[0], tail, le, f);
    }
  }

  /** Sorting keeps exactly the elements it was given. */
  lemma SortSameElements<T(!new)>(s: seq<T>, le: (T, T) -> bool)
    requires TotalPreorder(le)
    ensures forall y :: y in Sort(s, le) <==> y in s
  {
    var r := Sort(s, le);
    forall y
      ensures y in r <==> y in s
    {
      assert y in r <==> y in multiset(r);
      assert y in s <==> y in multiset(s);
    }
  }

  /** The elements of `s` that tie with `c` under `le`, in their order in `s`. */
  function TieClass<T(!new)>(s: seq<T>, le: (T, T) -> bool, c: T): seq<T>
  {
    Filter(s, y => le(y, c) && le(c, y))
  }

  lemma TieClassCons<T(!new)>(a: T, s: seq<T>, le: (T, T) -> bool, c: T)
    ensures TieClass([a] + s, le, c) ==
            if le(a, c) && le(c, a) then [a] + TieClass(s, le, c) else TieClass(s, le, c)
  {
    assert ([a] + s)[1..] == s;
  }

  lemma {:induction false} InsertTieClass<T(!new)>(x: T, t: seq<T>, le: (T, T) -> bool, c: T)
    requires TotalPreorder(le)
    requires SortedBy(t, le)
    ensures TieClass(Insert(x, t, le), le, c) ==
            if le(x, c) && le(c, x) then [x] + TieClass(t, le, c) else TieClass(t, le, c)
  {
    if |t| == 0 {
      TieClassCons(x, t, le, c);
    } else if le(x, t[0]) {
      TieClassCons(x, t, le, c);
    } else {
      var rest := Insert(x, t[1..], le);
      assert Insert(x, t, le) == [t[0]] + rest;
      assert t == [t[0]] + t[1..];
      InsertTieClass(x, t[1..], le, c);
      TieClassCons(t[0], rest, le, c);
      TieClassCons(t[0], t[1..], le, c);
      if le(x, c) && le(c, x) {
        // t[0] is strictly below x, so it cannot tie with c
        assert !(le(t[0], c) && le(c, t[0]));
      }
    }
  }

  /** Stability: among elements that tie, the sorted sequence keeps the
      input order. */
  lemma {:induction false} SortIsStable<T(!new)>(s: seq<T>, le: (T, T) -> bool, c: T)
    requires TotalPreorder(le)
    ensures TieClass(Sort(s, le), le, c) == TieClass(s, le, c)
  {
    if |s| > 0 {
      SortIsStable(s[1..], le, c);
      StableStep(s[0], s[1..], Sort(s[1..], le), le, c);
      assert s == [s[0]] + s[1..];
    }
  }

  /** One step of the insertion sort: inserting `x` into a sorted sequence
      with the same tie class as `rest` gives the tie class of `[x] + rest`. */
  lemma StableStep<T(!new)>(x: T, rest: seq<T>, sorted: seq<T>, le: (T, T) -> bool, c: T)
    requires TotalPreorder(le)
    requires SortedBy(sorted, le)
    requires TieClass(sorted, le, c) == TieClass(rest, le, c)
    ensures TieClass(Insert(x, sorted, le), le, c) == TieClass([x] + rest, le, c)
  {
    InsertTieClass(x, sorted, le, c);
    TieClassCons(x, rest, le, c);
  }

  /** Filtering a sorted sequence leaves it sorted. */
  lemma {:induction false} FilterKeepsSorted<T(!new)>(s: seq<T>, p: T -> bool, le: (T, T) -> bool)
    requires SortedBy(s, le)
    ensures SortedBy(Filter(s, p), le)
  {
    if |s| > 0 {
      FilterKeepsSorted(s[1..], p, le);
      var rest := Filter(s[1..], p);
      forall j | 0 <= j < |rest|
        ensures le(s[0], rest[j])
      {
        assert rest[j] in s[1..];
      }
    }
  }

  /** Filtering never makes two elements share a key. */
  lemma {:induction false} FilterKeepsDistinct<T(!new), K>(s: seq<T>, p: T -> bool, f: T -> K)
    requires DistinctBy(s, f)
    ensures DistinctBy(Filter(s, p), f)
  {
    if |s| > 0 {
      FilterKeepsDistinct(s[1..], p, f);
      var rest := Filter(s[1..], p);
      forall j | 0 <= j < |rest|
        ensures f(s[0]) != f(rest[j])
      {
        assert rest[j] in s[1..];
      }
    }
  }

  function SumBy<T>(s: seq<T>, f: T -> real): real
  {
    if |s| == 0 then 0.0 else f(s[0]) + SumBy(s[1..], f)
  }

  lemma SumByCons<T>(x: T, s: seq<T>, f: T -> real)
    ensures SumBy([x] + s, f) == f(x) + SumBy(s, f)
  {
    assert ([x] + s)[1..] == s;
  }

  lemma {:induction false} InsertKeepsSum<T(!new)>(x: T, s: seq<T>, le: (T, T) -> bool, f: T -> real)
    requires TotalPreorder(le)
    requires SortedBy(s, le)
    ensures SumBy(Insert(x, s, le), f) == f(x) + SumBy(s, f)
  {
    if |s| == 0 {
      assert Insert(x, s, le) == [x] + s;
      SumByCons(x, s, f);
    } else if le(x, s[0]) {
      assert Insert(x, s, le) == [x] + s;
      SumByCons(x, s, f);
    } else {
      var rest := Insert(x, s[1..], le);
      assert Insert(x, s, le) == [s[0]] + rest;
      InsertKeepsSum(x, s[1..], le, f);
      SumByCons(s[0], rest, f);
      assert SumBy(s, f) == f(s[0]) + SumBy(s[1..], f);
    }
  }

  /** Sorting does not change a sum over the elements. */
  lemma {:induction false} SortKeepsSum<T(!new)>(s: seq<T>, le: (T, T) -> bool, f: T -> real)
    requires TotalPreorder(le)
    ensures SumBy(Sort(s, le), f) == SumBy(s, f)
  {
    if |s| > 0 {
      SortKeepsSum(s[1..], le, f);
      InsertKeepsSum(s[0], Sort(s[1..], le), le, f);
    }
  }
}
